=== FILE: README.md ===
# Calculator expression engine, modelled in Dafny

This project models the engine of a browser scientific calculator:

- The tokenizer turns the display text into lexemes, after normalising spaces and the `×`, `÷`, `π` glyphs (`Parser.tokenize`).
- The shunting-yard conversion turns infix lexemes into postfix order (`Parser.infixToPostfix`).
- The stack evaluator (`Evaluator.evaluate`) applies:
  - the operators `+ - * / ^ mod`;
  - eighteen named functions, in degree or radian mode;
  - the constants `pi` and `e`.
- The `Calculator` session object holds:
  - the expression buffer and the last result;
  - the angle mode;
  - a newest-first history of at most 50 entries.

Numbers are JavaScript numbers: a finite value, a signed infinity, or NaN. The operators the evaluator computes itself follow the IEEE rules for those three kinds. Finite values are exact reals. Calls into `Math` (`sin`, `pow`, `log10`, ...) are a `MathLib` parameter. The model is pure: every method of the source is a function from the old state to the new state, and every thrown error is an `Err` value.

Modules, in dependency order:

- `Results`: the error kinds with the source's messages, and the `Result`/`Option` wrappers.
- `Numbers`: JavaScript numbers and the arithmetic the evaluator does itself.
- `Tokens`: the lexeme tables (operators, functions, constants, precedence, numerals) and classification.
- `Tokenizer`: `tokenize`.
- `Parser`: `infixToPostfix`.
- `Evaluator`: `evaluate`, `applyOperator`, `applyFunction`, `factorial` and `getConstant`.
- `Expressions`: a reference semantics. Expression trees are given a meaning, a postfix and a fully parenthesised infix rendering. The parser and the evaluator are proved to agree with them.
- `Calculator`: the session object.
- `Buttons`: end-to-end theorems for the function buttons, which write `name(` into the buffer.
- `Examples`: worked inputs.

## Model

| member | source | states |
|---|---|---|
| Numbers.Add | src/js/evaluator.js:68-69 | `a + b` on two finite values is their sum; NaN in either operand gives NaN |
| Numbers.Sub | src/js/evaluator.js:70-71 | `a - b` on two finite values is their difference; NaN in either operand gives NaN |
| Numbers.Mul | src/js/evaluator.js:72-73 | `a * b` on finite values is their product; NaN propagates; an infinity times zero is NaN |
| Numbers.Div | src/js/evaluator.js:74-76 | `a / b` on finite values with a non-zero divisor is the quotient; finite over infinite is 0; over zero, the result is NaN exactly when `a` is 0 or NaN |
| Numbers.Trunc | src/js/evaluator.js:79-80 | the quotient `%` uses is truncated toward zero: it lies between 0 and `x`, less than 1 away from `x` |
| Numbers.TruncRemCharacterised | src/js/evaluator.js:79-80 | `a % b` is the remainder of an integer division, `a = b*q + r`. Its magnitude is below `b`'s. It is zero or has the dividend's sign, unlike a Euclidean modulo |
| Numbers.Rem | src/js/evaluator.js:79-80 | `%` by zero, of NaN or of an infinity is NaN. A finite dividend over an infinite divisor is unchanged. On finite operands the result is `a - b*q` for an integer `q`, smaller in magnitude than `b`, and zero or of the dividend's sign |
| Numbers.AbsNum | src/js/evaluator.js:135-136 | `Math.abs` of a finite value is non-negative and equals the value or its negation; infinities become +Infinity |
| Tokens.ClassifyTable | src/js/evaluator.js:32-52 | a lexeme is a number exactly when it is a numeral (value by `parseFloat`), else an operator, a function or a constant exactly when the table lists it; the parser's view differs only on `π` |
| Tokens.OperatorNamesRoundTrip | src/js/parser.js:146-148 | the operator table and the operator names are inverse: a name the lookup accepts is that operator's name |
| Tokens.FunctionNamesRoundTrip | src/js/parser.js:150-158 | the same for the eighteen function names |
| Tokens.PrecedenceTable | src/js/parser.js:164-192 | `+ -` have 1, `* / mod` have 2, `^` has 3, every function 4, and every other lexeme 0 |
| Tokens.OperatorClassifies | src/js/evaluator.js:36-38 | every operator's name classifies, for the parser and the evaluator, as that operator |
| Tokens.FunctionClassifies | src/js/evaluator.js:40-48 | every function's name classifies as that function, never as a number or operator |
| Tokens.FunctionNameShape | src/js/parser.js:150-158 | every function name is a letter followed by letters and digits; `pow10` is the only one that is not all letters |
| Tokens.DigitOnlyInPow10 | src/js/parser.js:150-158 | a function name that contains a digit is `pow10` |
| Tokens.ConstantClassifies | src/js/evaluator.js:50-52 | `pi` and `e` classify as their constants |
| Tokens.DigitsNumeral | src/js/parser.js:142-144 | a non-empty digit string is a number lexeme whose value is the digits read in base ten |
| Tokenizer.Normalize | src/js/parser.js:67-73 | the normalised text holds no whitespace, `×`, `÷` or `π`; each of its characters comes from the input or from a replacement `*`, `/`, `pi`. `×` becomes `*`, `÷` becomes `/`, `π` becomes `pi`, a whitespace character disappears, and any other character stays |
| Tokenizer.NormalizeIdentity | src/js/parser.js:67-73 | text without whitespace, `×`, `÷` or `π` is left unchanged |
| Tokenizer.NormalizeAppend | src/js/parser.js:67-73 | normalisation works character by character: it distributes over concatenation |
| Tokenizer.NormalizeIdempotent | src/js/parser.js:67-73 | normalising twice is normalising once |
| Tokenizer.Scan | src/js/parser.js:78-129 | the lexemes of a successful scan spell out the rest of the text exactly; a failure is an unknown-character error |
| Tokenizer.ScanFailure | src/js/parser.js:127-128 | a failed scan names a character of the text that is outside the alphabet, or a `.` not followed by a digit |
| Tokenizer.ScanSucceeds | src/js/parser.js:78-129 | text of digits, dots, letters and `+-*/^()` in which every dot is followed by a digit always scans |
| Tokenizer.ScanLexed | src/js/parser.js:78-129 | every lexeme is a literal, a signed literal, a symbol or an identifier; a `-` joins a literal only at the start or after `(+-*/^`; no literal or letter run is followed by a character that could extend it |
| Tokenizer.ScanLetter | src/js/parser.js:111-125 | at a letter, everything up to the identifier's end is one lexeme |
| Tokenizer.ScanDigit | src/js/parser.js:82-90 | at a digit, the whole run of digits and dots is one lexeme |
| Tokenizer.ScanSymbol | src/js/parser.js:93-107 | a symbol other than `-` is a lexeme of its own |
| Tokenizer.TokenizeWith | src/js/parser.js:66-132 | on success the lexemes concatenate to the normalised input and are lexed as above; a failure names an offending character; input with no such character always succeeds |
| Tokenizer.TokenizeAsWritten | src/js/parser.js:111-116 | the tokenizer with the source's letters-only identifier rule (see Findings) |
| Tokenizer.Tokenize | src/js/parser.js:66-132 | the tokenizer that the rest of the model uses. A letter run also takes the digits after it when the two together spell a function name (see Findings) |
| Tokenizer.IdentAgrees | src/js/parser.js:111-116 | where `pow10` does not start, both identifier rules end the identifier at the same place |
| Tokenizer.ScanAgrees | src/js/parser.js:78-129 | on text without `pow10`, the two scans give the same outcome |
| Tokenizer.TokenizeAgrees | src/js/parser.js:66-132 | on input whose normalised text has no `pow10`, the corrected tokenizer and the tokenizer as written agree, errors included |
| Parser.PopOperators | src/js/parser.js:23-30 | the operator loop moves stack tops to the output while they bind at least as tightly (not `(`, not `^` before `^`). It stops at the first top that does not. What stays is a prefix of the stack. The moved entries are appended top first, so the output is the old output followed by the removed part of the stack reversed |
| Parser.PopOperatorsViews | src/js/parser.js:23-30 | the operator loop loses no lexeme, keeps the operands' order, keeps the parenthesis depth and adds no parenthesis |
| Parser.CloseParen | src/js/parser.js:35-41 | at `)` the parse fails with a mismatch exactly when no `(` is open. Otherwise the nearest `(` is discarded and the depth drops by one. The entries above it reach the output top first, and the lexemes moved keep the views |
| Parser.BindFunction | src/js/parser.js:43-46 | after `)`, a function on top of the stack moves to the output; otherwise nothing changes. Either way the stack keeps its shape and depth, no lexeme is lost, the operand order is unchanged, and no parenthesis reaches the output |
| Parser.Drain | src/js/parser.js:50-56 | the final loop fails with a mismatch exactly when a parenthesis is left on the stack. Otherwise it appends the whole stack to the output, top first |
| Parser.DrainViews | src/js/parser.js:50-56 | the final loop fails exactly when a `(` is still open, and otherwise moves the stack's lexemes to the output |
| Parser.StepDepth | src/js/parser.js:15-47 | one lexeme fails exactly when it is `)` with no `(` open. Otherwise it changes the open-parenthesis depth by +1 for `(`, -1 for `)`, 0 otherwise |
| Parser.ShuntBalance | src/js/parser.js:15-56 | the loop fails exactly when the remaining lexemes' parentheses, counted from the stack's depth, do not match |
| Parser.StepViews | src/js/parser.js:15-47 | one lexeme's step loses nothing but parentheses and unknown lexemes, and appends operands in input order |
| Parser.ShuntViews | src/js/parser.js:15-56 | a successful run outputs the stack's and the input's numbers, constants, functions and operators, operands in input order, and no parenthesis |
| Parser.ShuntingYard | src/js/parser.js:12-58 | fails, always with "Mismatched parentheses", exactly when the parentheses do not match. On success the output is a permutation of the kept lexemes, with operands in input order and no parenthesis |
| Parser.InfixToPostfix | src/js/parser.js:10-11 | a tokenizer error propagates. Otherwise the conversion has the shunting-yard properties on the input's lexemes |
| Evaluator.ConstantValue | src/js/evaluator.js:54-63 | `pi` is the double nearest pi and `e` the double nearest e, both finite |
| Evaluator.ApplyOperator | src/js/evaluator.js:66-84 | fails exactly on `/` by zero ("Division by zero"). `+ - * /` are exact on finite values. `mod` by zero is NaN, not an error, and otherwise a truncated remainder. `^` is `Math.pow`. NaN propagates through all but `^` |
| Evaluator.ToRadians | src/js/evaluator.js:88 | degrees times pi/180 on finite values; infinities and NaN unchanged |
| Evaluator.ToDegrees | src/js/evaluator.js:89 | radians times 180/pi on finite values; infinities and NaN unchanged |
| Evaluator.ApplyFunction | src/js/evaluator.js:86-148 | fails exactly outside the domain: `log`/`ln` of a non-positive value, `sqrt` of a negative value, `reciprocal` of zero, or `factorial` of a non-integer or a value outside 0..170. Each failure has the source's message. It says which `Math` function each name calls, and with what. `sin cos tan` get their argument converted to radians in degree mode. `asin acos atan` have their result converted to degrees in degree mode. `log` is `log10`, `ln` is `log`, and `pow10` is `pow(10, x)`. `square` is non-negative, `abs` is the magnitude, `reciprocal` is 1/x, and `factorial` is n! |
| Evaluator.Plain | src/js/evaluator.js:112-143 | the mode-independent functions fail exactly outside their domains. `sinh cosh tanh exp` call their `Math` namesakes, `log` calls `log10`, `ln` calls `log`, `pow10` calls `pow(10, x)`, and `sqrt` calls `sqrt`. `square` is x*x |
| Evaluator.TrigInDegrees | src/js/evaluator.js:93-98 | in degree mode `sin cos tan` receive their argument converted to radians; they never fail |
| Evaluator.InverseTrigInDegrees | src/js/evaluator.js:101-109 | in degree mode `asin acos atan` return the radian result converted to degrees |
| Evaluator.ModeIrrelevant | src/js/evaluator.js:112-143 | every non-trigonometric function gives the same result in both modes |
| Evaluator.DegreesRadiansRoundTrip | src/js/evaluator.js:88-89 | converting to radians and back to degrees is the identity |
| Evaluator.ReciprocalInvolutive | src/js/evaluator.js:139-141 | the reciprocal of the reciprocal of a non-zero value is the value |
| Evaluator.ProductFromIsFact | src/js/evaluator.js:157-160 | the source's product loop from 2 to n computes n! |
| Evaluator.FactorialOf | src/js/evaluator.js:150-162 | refuses negative values first, then non-integers, then values above 170. It succeeds exactly on the integers 0..170, with n! |
| Evaluator.Pop | src/js/evaluator.js:18-22 | `pop` splits a non-empty stack into the rest and the top, which pushed back give the stack; on an empty stack it returns `undefined` (NaN) |
| Evaluator.PopPush | src/js/evaluator.js:18-22 | popping right after a push returns the pushed value and the stack before it |
| Evaluator.Step | src/js/evaluator.js:15-26 | a number or constant pushes its value. An operator replaces `a b` by `a op b`, a function replaces `a` by `f(a)`. Other lexemes are skipped. The stack below is untouched, and only operators and functions fail. When the stack is too short, each missing operand is `undefined` (NaN): an operator on one value `b` leaves `NaN op b`, on none `NaN op NaN`, and a function on none `f(NaN)`, or that operation's error |
| Evaluator.Evaluate | src/js/evaluator.js:11-30 | the result is the BOTTOM of the final stack, NaN (undefined) for an empty stack, or the first domain error |
| Evaluator.EvalHeight | src/js/evaluator.js:14-27 | a successful run leaves the stack height that counting pushes and pops predicts |
| Evaluator.StepErrors | src/js/evaluator.js:15-26 | one step fails only with a domain error |
| Evaluator.EvalErrors | src/js/evaluator.js:14-27 | evaluation fails only with a domain error of `/`, `log`, `ln`, `sqrt`, `reciprocal` or `factorial` |
| Expressions.EvalPostfix | src/js/evaluator.js:14-27 | running the evaluator over an expression's postfix list pushes exactly the expression's value, or fails with its first error |
| Expressions.EvaluatePostfix | src/js/evaluator.js:11-30 | the evaluator computes the reference meaning of every well-formed expression, leaving exactly one value |
| Expressions.FirstValueWins | src/js/evaluator.js:29 | two complete expressions side by side evaluate to the first one's value |
| Expressions.TwoValues | src/js/evaluator.js:14-27 | the postfix lists of two complete expressions, one after the other, leave both values on the stack, the first one at the bottom; an error in the second is reported |
| Expressions.ShuntInfix | src/js/parser.js:15-47 | the loop turns any fully parenthesised infix expression into its postfix order, leaving the stack as it found it |
| Expressions.ShuntingYardInfix | src/js/parser.js:10-59 | shunting-yard of a fully parenthesised infix expression is its postfix list |
| Expressions.ParseThenEvaluate | src/js/calculator.js:64-68 | converting then evaluating a fully parenthesised expression gives its reference meaning |
| Calculator.Init | src/js/calculator.js:5-11 | a new calculator has an empty buffer, no result, degree mode and an empty history |
| Calculator.AddInput | src/js/calculator.js:17-19 | the input is appended to the buffer and nothing else changes |
| Calculator.Clear | src/js/calculator.js:24-27 | the buffer and the displayed result are cleared; the last result, mode and history stay |
| Calculator.Backspace | src/js/calculator.js:32-34 | the buffer loses exactly its last character, and an empty buffer is left alone |
| Calculator.ToggleAngleMode | src/js/calculator.js:39-42 | the mode flips, the new mode is returned and nothing else changes |
| Calculator.SetAngleMode | src/js/calculator.js:48-52 | `"DEG"` and `"RAD"` set the mode; any other string changes nothing |
| Calculator.AddToHistory | src/js/calculator.js:92-105 | the new entry goes first. The older entries follow in order, cut so at most 50 remain |
| Calculator.ClearHistory | src/js/calculator.js:118-120 | the history becomes empty; nothing else changes |
| Calculator.Compute | src/js/calculator.js:58-73 | blank input is "Empty expression". Conversion and evaluation errors propagate. Otherwise a value is reported exactly when it is finite, else "Result is not finite" |
| Calculator.Commit | src/js/calculator.js:75-79 | a failure changes nothing. A value becomes the result and last result and is recorded first in the history, under the 50-entry limit |
| Calculator.Calculate | src/js/calculator.js:58-85 | the outcome is the buffer's value under the current angle mode; a failure leaves the calculator unchanged; a value becomes the result and last result and heads the history, the buffer and mode stay, and the history stays within 50 entries |
| Calculator.TransitionsKeepValid | src/js/calculator.js:99-104 | no operation ever lets the history exceed 50 entries |
| Calculator.BackspaceUndoesInput | src/js/calculator.js:17-34 | backspace after typing one character restores the calculator |
| Calculator.ToggleTwice | src/js/calculator.js:39-42 | toggling the mode twice restores the calculator |
| Calculator.SetAngleModeIdempotent | src/js/calculator.js:48-52 | setting the same mode twice is setting it once |
| Calculator.CalculateRepeatable | src/js/calculator.js:58-79 | calculating again right after a calculation reports the same outcome |
| Calculator.HistoryNewestFirst | src/js/calculator.js:92-105 | after n calculations the history holds the last min(n, 50) of them, newest first |
| Buttons.LetterNameEnd | src/js/parser.js:111-116 | in `name(d)` with an all-letter name, the identifier ends at `(` under either rule |
| Buttons.Pow10NameEnd | src/js/parser.js:111-116 | with the corrected rule, the identifier in `pow10(d)` is `pow10` |
| Buttons.CallTokens | src/js/parser.js:78-129 | `f(d)`, for every function `f` and digit string `d`, tokenizes to the name, `(`, `d`, `)` |
| Buttons.CallTokensAsWritten | src/js/parser.js:111-116 | with letters-only identifiers, the same holds for every function except `pow10` |
| Buttons.Pow10CutAsWritten | src/js/parser.js:111-116 | with letters-only identifiers, the identifier at the start of `pow10(d)` ends after `pow`, before the digit `1` |
| Buttons.Pow10TokensAsWritten | src/js/parser.js:111-116 | with letters-only identifiers, `pow10(d)` tokenizes to `pow`, `10`, `(`, `d`, `)` |
| Buttons.CallPostfix | src/js/parser.js:10-59 | `f(d)` converts to the postfix list `d f` |
| Buttons.CallValue | src/js/evaluator.js:11-30 | the postfix list `d f` evaluates to `f` applied to the number `d` spells |
| Buttons.ComputeCall | src/js/calculator.js:58-73 | calculating `f(d)` reports `f` applied to `d` when it is finite, "Result is not finite" when it is not, and `f`'s domain error otherwise |
| Buttons.Pow10IgnoresArgument | src/js/parser.js:111-116 | as written, `pow10(d)` drops the unknown `pow`, converts to `10 d`, and evaluates to 10 for every `d` |
| Examples.LeftAssociative | src/js/parser.js:23-30 | `1-2-3` converts to `1 2 - 3 -` |
| Examples.RightAssociative | src/js/parser.js:27 | `2^3^2` converts to `2 3 2 ^ ^` |
| Examples.TimesBeforePlus | src/js/parser.js:23-31 | `1+2*3` converts to `1 2 3 * +`: the `+` waits on the stack while `*` is pushed over it |
| Examples.PlusStaysBelowTimes | src/js/parser.js:26 | a `+` on the stack does not leave when `*` arrives |
| Examples.TimesThenPlus | src/js/parser.js:23-31 | `2*3+1` converts to `2 3 * 1 +` |
| Examples.TimesLeavesBeforePlus | src/js/parser.js:26 | a `*` on the stack goes to the output when `+` arrives |
| Examples.SineThenPlus | src/js/parser.js:20-31 | `sin 2 + 3` converts to `2 sin 3 +`: a function binds tighter than any operator |
| Examples.PrecedenceTokens | src/js/parser.js:78-129 | `1+2*3` tokenizes to `1`, `+`, `2`, `*`, `3` |
| Examples.OnePlusTwoTimesThree | src/js/evaluator.js:14-29 | `1 2 3 * +` evaluates to 7 |
| Examples.PrecedenceValue | src/js/calculator.js:58-73 | `1+2*3` converts to `1 2 3 * +` and the calculator shows 7 in either angle mode |
| Examples.SinePrecedence | src/js/parser.js:10-11 | `sin2+3` tokenizes to `sin`, `2`, `+`, `3` and converts to `2 sin 3 +` |
| Examples.Mismatched | src/js/parser.js:34-56 | an unclosed `(` and an unopened `)` are both "Mismatched parentheses" |
| Examples.ThreePlusFour | src/js/evaluator.js:14-29 | `3 4 +` evaluates to 7 |
| Examples.BottomOfStack | src/js/evaluator.js:29 | `2 3` evaluates to 2, the bottom of the stack |
| Examples.TruncatedModulo | src/js/evaluator.js:79-80 | `5 mod 3` is 2 and `-5 mod 3` is -2 |
| Examples.ModuloByZero | src/js/evaluator.js:74-80 | `mod` by zero gives NaN while `/` by zero is an error |
| Examples.SineOfRightAngle | src/js/evaluator.js:93-94 | `sin 90` in degrees and `sin(pi/2)` in radians both report `Math.sin(pi/2)` |
| Examples.ModTokens | src/js/main.js:141-142 | the `mod` button's text `5mod3` tokenizes to `5`, `mod`, `3`, and both identifier rules agree on it |
| Examples.ModPostfix | src/js/parser.js:10-59 | `5mod3` converts to `5 3 mod` |
| Examples.FiveModThree | src/js/evaluator.js:14-29 | `5 3 mod` evaluates to 2 |
| Examples.ModValue | src/js/calculator.js:58-73 | calculating `5mod3` reports 2 in either angle mode |
| Examples.Factorials | src/js/evaluator.js:150-162 | 0! = 1 and 5! = 120; 171, -1 and 2.5 are refused with their own messages |
| Examples.Pow10Corrected | src/js/evaluator.js:128-129 | `pow10(2)` converts to `2 pow10` and asks `Math.pow` for 10 to the 2nd |
| Examples.Pow10Value | src/js/evaluator.js:128-129 | `pow10` of any value, in either mode, is `Math.pow(10, x)` |
| Examples.Pow10AsWritten | src/js/parser.js:111-116 | as written, `pow10(2)` converts to `10 2` and evaluates to 10 |

## Left out

- The user interface (src/js/main.js): button wiring, keyboard handling and display updates. main.js is read only to see what the buttons write. It is not part of this model.
- `formatNumber`, the display formatting, is not modelled.
- `getHistory` returns the `history` field unchanged; the model exposes the field directly.
- The history timestamp (`new Date().toISOString()`) is a clock read, so `HistoryEntry` omits it.
- Floating point: finite values are exact reals. Rounding, overflow to infinity, underflow and signed zero are not modelled. `Numbers.PI` and `Numbers.E` are the exact values of the two doubles.
- The values of `Math.sin`, `cos`, `tan`, `asin`, `acos`, `atan`, `sinh`, `cosh`, `tanh`, `log10`, `log`, `exp`, `sqrt` and `pow` are not modelled. They are the fields of the `MathLib` parameter, and properties about them hold for every choice.
- `undefined`, which `pop` returns on an empty stack and which `stack[0]` is for an empty stack, is represented by NaN. Every operation the evaluator applies to it behaves as it does on NaN.
- `isNumber` (src/js/parser.js:142-144) is modelled on the shapes the tokenizer produces: an optional `-`, then digits and dots. Exponent and hexadecimal spellings cannot arise from the tokenizer. A number run stops at the first letter, so `1e5` and `0x10` are split into several lexemes. `Infinity` does arise, as a letter run, and `isNumber` rejects it because `isFinite("Infinity")` is false. `Tokens.IsNumeral` rejects it too, because it starts with a letter. The parser then drops it as an unknown lexeme.
- Numerals too large for a double: a digit run beyond the double range parses to `Infinity`, so the source's `isFinite` test rejects it and the parser drops it. `Tokens.IsNumeral` accepts it with its exact value. This is part of the floating-point overflow that the model leaves out.
- Characters are Dafny `char`s, not UTF-16 code units. `π`, `×` and `÷` are single code units, so nothing depends on the difference.
- The "Unknown constant", "Unknown operator" and "Unknown function" errors are not modelled. They are only reachable when the evaluator's own tables disagree, and the model uses one table for both, so these cases cannot occur.
- `precedence` looks names up in an object literal, so inherited names such as `constructor` would read as non-numbers. This cannot matter. `precedence` is applied only to the incoming operator and to the stack top (src/js/parser.js:26). The incoming lexeme has passed `isOperator`, and the stack holds only operators, functions and `(`. A `(` on top is screened out first by the `!== '('` test at src/js/parser.js:25. So every lookup is of an operator or function name, for which the table is exact.
- Expressions.ShuntingYardInfix: the agreement between conversion and the expression-tree semantics is proved for fully parenthesised infix text. For other inputs, `Parser.ShuntingYard` states the balance, permutation and operand-order properties. Where the operators land is fixed step by step: `Parser.PopOperators` states which stack entries leave, and it, `Parser.CloseParen` and `Parser.Drain` state the order they leave in. No theorem states operator placement for all inputs at once. The examples check associativity on one precedence level (`1-2-3`, `2^3^2`) and precedence across levels (`1+2*3`, `2*3+1`, `sin2+3`).

## Findings

| source | as written | input that shows it | evidently intended | confidence | as-written member | corrected member |
|---|---|---|---|---|---|---|
| src/js/parser.js:111-116 | identifiers are runs of letters only, so the function name `pow10`, which the `10^x` button writes (src/js/main.js:133), is cut into `pow` and `10`; `pow` is unknown and dropped, and `10` stays as a separate operand | `pow10(2)`: converts to `10 2` and evaluates to 10 (the bottom of the stack) instead of 100; every `pow10(d)` evaluates to 10 | a letter run continues with the digits after it when together they spell a function name, so `pow10` is one lexeme and `pow10(d)` is 10 to the `d` | high, not executed | Tokenizer.TokenizeAsWritten, shown by Buttons.Pow10IgnoresArgument | Tokenizer.Tokenize, with Buttons.CallTokens and Buttons.ComputeCall |

The corrected rule joins digits to a letter run only when the result is a function name, and `pow10` is the only function name with a digit. So the correction changes nothing for text that does not contain `pow10` (Tokenizer.TokenizeAgrees). For example, `5mod3`, `π2`, `e2` and `sin30` tokenize as before: `mod`, `pi`, `e` or `sin` is followed by a separate number (Examples.ModTokens, Examples.ModValue). The rest of the model uses the corrected tokenizer.

=== FILE: buttons.dfy ===
/** The function buttons end to end: the keypad writes `name(` and the user
    completes the argument, so `name(digits)` is what reaches the engine. */
module Buttons {
  import opened Results
  import opened Numbers
  import opened Tokens
  import opened Tokenizer
  import opened Parser
  import opened Evaluator
  import opened Expressions
  import opened Calculator

  /** What a function button and a numeric argument put in the buffer. */
  function Call(name: string, d: string): string {
    name + "(" + d + ")"
  }

  predicate Digits(d: string) {
    |d| > 0 && forall i | 0 <= i < |d| :: IsDigit(d[i])
  }

  /** After the name: `(`, the digits and `)` are three lexemes. */
  lemma ScanArgument(p: string, d: string, rule: IdentRule)
    requires Digits(d)
    ensures Scan(Call(p, d), |p|, rule) == Ok(["(", d, ")"])
  {
    var e := Call(p, d);
    var n := |p|;
    ScanDigitsClose(p, d, rule);
    assert e[n] == '(';
    ScanSymbol(e, n, rule);
    assert [e[n]] == "(";
    assert ["("] + [d, ")"] == ["(", d, ")"];
  }

  /** After `(`: the digits and `)` are two lexemes. */
  lemma ScanDigitsClose(p: string, d: string, rule: IdentRule)
    requires Digits(d)
    ensures Scan(Call(p, d), |p| + 1, rule) == Ok([d, ")"])
  {
    var e := Call(p, d);
    var n := |p|;
    ScanClose(p, d, rule);
    assert forall k | 0 <= k < |d| :: e[n + 1 + k] == d[k];
    assert e[n + 1 + |d|] == ')';
    assert NumberRunEnd(e, n + 1) == n + 1 + |d|;
    assert e[n + 1..n + 1 + |d|] == d;
    ScanDigit(e, n + 1, rule);
    assert [d] + [")"] == [d, ")"];
  }

  /** The closing `)` ends the call. */
  lemma ScanClose(p: string, d: string, rule: IdentRule)
    ensures Scan(Call(p, d), |p| + 1 + |d|, rule) == Ok([")"])
  {
    var e := Call(p, d);
    var n := |p|;
    assert |e| == n + |d| + 2;
    assert e[n + 1 + |d|] == ')';
    assert Scan(e, n + |d| + 2, rule) == Ok([]);
    ScanSymbol(e, n + 1 + |d|, rule);
    assert [e[n + 1 + |d|]] == ")";
    assert [")"] + [] == [")"];
  }

  /** A call contains no glyph that normalisation rewrites. */
  lemma CallIsNormal(name: string, d: string)
    requires forall i | 0 <= i < |name| :: IsLetter(name[i]) || IsDigit(name[i])
    requires Digits(d)
    ensures Normalize(Call(name, d)) == Call(name, d)
  {
    var e := Call(name, d);
    forall i | 0 <= i < |e|
      ensures !IsDisplayOnly(e[i])
    {
      if i < |name| {
        assert e[i] == name[i];
      } else if |name| < i < |name| + 1 + |d| {
        assert e[i] == d[i - |name| - 1];
      }
    }
    NormalizeIdentity(e);
  }

  /** A name the identifier rule reads whole, then a parenthesised digit
      string: four lexemes. */
  lemma NameCallTokens(name: string, d: string, rule: IdentRule)
    requires |name| > 0 && IsLetter(name[0]) && Digits(d)
    requires forall i | 0 <= i < |name| :: IsLetter(name[i]) || IsDigit(name[i])
    requires IdentEnd(Call(name, d), 0, rule) == |name|
    ensures TokenizeWith(Call(name, d), rule) == Ok([name, "(", d, ")"])
  {
    var e := Call(name, d);
    assert Scan(e, 0, rule) == Ok([name, "(", d, ")"]) by {
      var rest := ["(", d, ")"];
      ScanArgument(name, d, rule);
      assert e[0..|name|] == name;
      ScanLetter(e, 0, rule);
      assert Scan(e, 0, rule) == Cons(name, Ok(rest));
      Prepend(name, rest);
      assert [name] + rest == [name, "(", d, ")"];
    }
    CallIsNormal(name, d);
    TokenizeScans(e, rule);
  }

  /** Under either rule, a name of letters ends at the `(` of its call. */
  lemma LetterNameEnd(name: string, d: string, rule: IdentRule)
    requires |name| > 0 && AllLetters(name)
    ensures IdentEnd(Call(name, d), 0, rule) == |name|
  {
    var e := Call(name, d);
    assert e[|name|] == '(';
    assert forall k | 0 <= k < |name| :: e[k] == name[k];
    assert LetterRunEnd(e, 1) == |name|;
    assert DigitRunEnd(e, |name|) == |name|;
  }

  /** Under the corrected rule, `pow10` is read whole. */
  lemma Pow10NameEnd(d: string)
    ensures IdentEnd(Call("pow10", d), 0, FunctionNames) == 5
  {
    var e := Call("pow10", d);
    assert e[0] == 'p' && e[1] == 'o' && e[2] == 'w' && e[3] == '1' && e[4] == '0' && e[5] == '(';
    assert LetterRunEnd(e, 1) == 3;
    assert DigitRunEnd(e, 3) == 5;
    assert e[0..5] == "pow10";
  }

  /** With the corrected tokenizer, `f(d)` is the name, `(`, the digits and
      `)`, for every function and every digit string. */
  lemma CallTokens(f: Function, d: string)
    requires Digits(d)
    ensures Tokenize(Call(FunctionName(f), d)) == Ok([FunctionName(f), "(", d, ")"])
  {
    FunctionNameShape(f);
    if f == Pow10 {
      Pow10NameEnd(d);
    } else {
      LetterNameEnd(FunctionName(f), d, FunctionNames);
    }
    NameCallTokens(FunctionName(f), d, FunctionNames);
  }

  /** As written, every function name but `pow10` is still one lexeme. */
  lemma CallTokensAsWritten(f: Function, d: string)
    requires Digits(d) && f != Pow10
    ensures TokenizeAsWritten(Call(FunctionName(f), d)) == Ok([FunctionName(f), "(", d, ")"])
  {
    FunctionNameShape(f);
    LetterNameEnd(FunctionName(f), d, LettersOnly);
    NameCallTokens(FunctionName(f), d, LettersOnly);
  }

  /** As written, `pow10(d)` is cut into `pow`, `10`, `(`, `d`, `)`. */
  lemma Pow10TokensAsWritten(d: string)
    requires Digits(d)
    ensures TokenizeAsWritten(Call("pow10", d)) == Ok(["pow", "10", "(", d, ")"])
  {
    FunctionNameShape(Pow10);
    CallIsNormal("pow10", d);
    Pow10ScanAsWritten(d);
    TokenizeScans(Call("pow10", d), LettersOnly);
  }

  /** The as-written scan of `pow10(d)`, lexeme by lexeme. */
  lemma Pow10ScanAsWritten(d: string)
    requires Digits(d)
    ensures Scan(Call("pow10", d), 0, LettersOnly) == Ok(["pow", "10", "(", d, ")"])
  {
    var e := Call("pow10", d);
    var rest := ["10", "(", d, ")"];
    Pow10Tail(d);
    Pow10CutAsWritten(d);
    assert e[0] == 'p';
    assert e[0..3] == "pow";
    ScanLetter(e, 0, LettersOnly);
    Prepend("pow", rest);
    assert ["pow"] + rest == ["pow", "10", "(", d, ")"];
  }

  /** As written, the identifier in `pow10(d)` stops before the `1`. */
  lemma Pow10CutAsWritten(d: string)
    ensures IdentEnd(Call("pow10", d), 0, LettersOnly) == 3
  {
    var e := Call("pow10", d);
    assert e[0] == 'p' && e[1] == 'o' && e[2] == 'w' && e[3] == '1';
    assert LetterRunEnd(e, 3) == 3;
    assert LetterRunEnd(e, 1) == 3;
  }

  /** After `pow`, the as-written scanner reads `10` as a number. */
  lemma Pow10Tail(d: string)
    requires Digits(d)
    ensures Scan(Call("pow10", d), 3, LettersOnly) == Ok(["10", "(", d, ")"])
  {
    var e := Call("pow10", d);
    var rest := ["(", d, ")"];
    ScanArgument("pow10", d, LettersOnly);
    assert Scan(e, 5, LettersOnly) == Ok(rest);
    assert e[3] == '1' && e[4] == '0' && e[5] == '(';
    var j := NumberRunEnd(e, 3);
    assert j == 5;
    assert e[3..j] == "10";
    ScanDigit(e, 3, LettersOnly);
    assert Scan(e, 3, LettersOnly) == Cons("10", Ok(rest));
    Prepend("10", rest);
    assert ["10"] + rest == ["10", "(", d, ")"];
  }

  /** Putting one lexeme in front of a scan result. */
  lemma Prepend(t: string, rest: seq<string>)
    ensures Cons(t, Ok(rest)) == Ok([t] + rest)
    ensures [t] + rest == [t] + rest[..] && ([t] + rest)[0] == t && ([t] + rest)[1..] == rest
  {
  }

  // ----- end to end -----

  /** The value a calculation reports for an evaluator outcome. */
  function Reported(v: Result<Num>): Result<real> {
    if v.Err? then Err(v.error) else if v.value.Fin? then Ok(v.value.r) else Err(NotFinite)
  }

  /** Every function button works: `f(d)` becomes the postfix list `d f`,
      which evaluates to `f` applied to the number `d` spells, and the
      calculation reports that value or its error. */
  lemma ComputeCall(f: Function, d: string, mode: AngleMode, lib: MathLib)
    requires Digits(d)
    ensures InfixToPostfix(Call(FunctionName(f), d)) == Ok([d, FunctionName(f)])
    ensures Evaluate([d, FunctionName(f)], mode, lib) == ApplyFunction(f, Fin(DigitsValue(d) as real), mode, lib)
    ensures Compute(Call(FunctionName(f), d), mode, lib) ==
              Reported(ApplyFunction(f, Fin(DigitsValue(d) as real), mode, lib))
  {
    var s := Call(FunctionName(f), d);
    CallPostfix(f, d);
    CallValue(f, d, mode, lib);
    CallNotBlank(f, d);
    var v := ApplyFunction(f, Fin(DigitsValue(d) as real), mode, lib);
    assert Evaluate(InfixToPostfix(s).value, mode, lib) == v;
  }

  /** A button's text is never blank, so calculating it reaches the conversion. */
  lemma CallNotBlank(f: Function, d: string)
    ensures !Blank(Call(FunctionName(f), d))
  {
    FunctionNameShape(f);
    assert Call(FunctionName(f), d)[0] == FunctionName(f)[0];
  }

  /** `f(d)` converts to `d f`. */
  lemma CallPostfix(f: Function, d: string)
    requires Digits(d)
    ensures InfixToPostfix(Call(FunctionName(f), d)) == Ok([d, FunctionName(f)])
  {
    var name := FunctionName(f);
    var e := App(f, Lit(d));
    DigitsNumeral(d);
    assert Infix(e) == [name, "(", d, ")"];
    assert Postfix(e) == [d, name];
    CallTokens(f, d);
    ShuntingYardInfix(e);
  }

  /** `d f` evaluates to `f` applied to the value of `d`. */
  lemma CallValue(f: Function, d: string, mode: AngleMode, lib: MathLib)
    requires Digits(d)
    ensures Evaluate([d, FunctionName(f)], mode, lib) == ApplyFunction(f, Fin(DigitsValue(d) as real), mode, lib)
  {
    var e := App(f, Lit(d));
    DigitsNumeral(d);
    ClassifyTable(d);
    assert Postfix(e) == [d, FunctionName(f)];
    EvaluatePostfix(e, mode, lib);
  }

  /** A lexeme neither component knows is passed over. */
  lemma ShuntSkip(t: string, rest: seq<string>, out: seq<string>, ops: seq<string>)
    requires ParserToken(t) == Unclassified
    ensures Shunt([t] + rest, out, ops) == Shunt(rest, out, ops)
  {
    assert ([t] + rest)[0] == t && ([t] + rest)[1..] == rest;
  }

  /** As written, `pow10(d)` loses its function: the unknown `pow` is
      passed over, `10` and `d` are left side by side, and the result is 10
      whatever `d` is. */
  lemma Pow10IgnoresArgument(d: string, mode: AngleMode, lib: MathLib)
    requires Digits(d)
    ensures TokenizeAsWritten(Call("pow10", d)) == Ok(["pow", "10", "(", d, ")"])
    ensures ShuntingYard(["pow", "10", "(", d, ")"]) == Ok(["10", d])
    ensures Evaluate(["10", d], mode, lib) == Ok(Fin(10.0))
  {
    Pow10TokensAsWritten(d);
    Pow10Shunt(d);
    TenFirst(d, mode, lib);
  }

  /** As written, `10 d` evaluates to 10, the bottom of the stack. */
  lemma TenFirst(d: string, mode: AngleMode, lib: MathLib)
    requires Digits(d)
    ensures Evaluate(["10", d], mode, lib) == Ok(Fin(10.0))
  {
    DigitsNumeral(d);
    Ten();
    assert Postfix(Lit("10")) + Postfix(Lit(d)) == ["10", d];
    FirstValueWins(Lit("10"), Lit(d), mode, lib);
  }

  /** The numeral `10` is worth 10. */
  lemma Ten()
    ensures IsNumeral("10") && NumeralValue("10") == 10.0
  {
    DigitsNumeral("10");
    ClassifyTable("10");
    assert DigitsValue("10") == 10 by {
      assert "10"[..1] == "1";
      assert DigitsValue("1") == 1;
    }
  }

  /** As written, the lexemes of `pow10(d)` convert to `10 d`. */
  lemma Pow10Shunt(d: string)
    requires Digits(d)
    ensures Shunt(["pow", "10", "(", d, ")"], [], []) == Ok(["10", d])
  {
    Pow10ShuntHead(d);
    Pow10ShuntTail(d);
  }

  /** The first two steps for `pow10(d)` as written: `pow` is skipped and `10` goes to the output. */
  lemma Pow10ShuntHead(d: string)
    ensures Shunt(["pow", "10", "(", d, ")"], [], []) == Shunt(["(", d, ")"], ["10"], [])
  {
    DigitsNumeral("10");
    PowIsNoToken();
    calc {
      Shunt(["pow", "10", "(", d, ")"], [], []);
      { assert ["pow", "10", "(", d, ")"] == ["pow"] + ["10", "(", d, ")"];
        ShuntSkip("pow", ["10", "(", d, ")"], [], []); }
      Shunt(["10", "(", d, ")"], [], []);
      { assert ["10", "(", d, ")"] == ["10"] + ["(", d, ")"];
        ShuntOperand("10", ["(", d, ")"], [], []);
        assert [] + ["10"] == ["10"]; }
      Shunt(["(", d, ")"], ["10"], []);
    }
  }

  /** As written, `pow` alone names nothing, so the parser skips it. */
  lemma PowIsNoToken()
    ensures ParserToken("pow") == Unclassified
  {
    NotNumeral("pow");
    assert OperatorNamed("pow").None? && FunctionNamed("pow").None? && ConstantNamed("pow").None?;
  }

  /** The remaining steps for `pow10(d)` as written: the parenthesised `d` goes to the output. */
  lemma Pow10ShuntTail(d: string)
    requires Digits(d)
    ensures Shunt(["(", d, ")"], ["10"], []) == Ok(["10", d])
  {
    DigitsNumeral(d);
    ClassifyTable("(");
    calc {
      Shunt(["(", d, ")"], ["10"], []);
      { assert ["(", d, ")"] == ["("] + [d, ")"];
        ShuntPush("(", [d, ")"], ["10"], []);
        assert [] + ["("] == ["("]; }
      Shunt([d, ")"], ["10"], ["("]);
      { assert [d, ")"] == [d] + [")"];
        ShuntOperand(d, [")"], ["10"], ["("]);
        assert ["10"] + [d] == ["10", d]; }
      Shunt([")"], ["10", d], ["("]);
      { assert Top(["("]) == "(" && Below(["("]) == [];
        assert CloseParen(["10", d], ["("]) == Ok((["10", d], []));
        assert [")"] == [")"] + [];
        ShuntClose([], ["10", d], ["("]); }
      Shunt([], ["10", d], []);
    }
  }

}

=== FILE: calculator.dfy ===
/** The calculator session (src/js/calculator.js): the expression buffer,
    the last result, the angle mode and the newest-first history, with one
    pure transition function per method of the source. */
module Calculator {
  import opened Results
  import opened Numbers
  import opened Tokenizer
  import opened Parser
  import opened Evaluator

  /** How many entries the history keeps. */
  const HistoryLimit: nat := 50

  /** A history entry; the source also stamps it with the wall-clock time. */
  datatype HistoryEntry = HistoryEntry(expression: string, result: real)

  datatype Calculator = Calculator(
    expression: string,
    result: Option<real>,
    lastResult: Option<real>,
    angleMode: AngleMode,
    history: seq<HistoryEntry>)

  /** The history never exceeds its limit. */
  predicate Valid(c: Calculator) {
    |c.history| <= HistoryLimit
  }

  /** The constructor. */
  function Init(): (c: Calculator)
    ensures c.expression == [] && c.result == None && c.lastResult == None
    ensures c.angleMode == DEG && c.history == []
    ensures Valid(c)
  {
    Calculator([], None, None, DEG, [])
  }

  /** `addInput`: append to the buffer. */
  function AddInput(c: Calculator, input: string): (r: Calculator)
    ensures r.expression == c.expression + input
    ensures r == c.(expression := r.expression)
  {
    c.(expression := c.expression + input)
  }

  /** `clear`: empty the buffer and forget the displayed result; the last
      result, the angle mode and the history stay. */
  function Clear(c: Calculator): (r: Calculator)
    ensures r.expression == [] && r.result == None
    ensures r.lastResult == c.lastResult && r.angleMode == c.angleMode && r.history == c.history
  {
    c.(expression := [], result := None)
  }

  /** `backspace`: drop the last character; nothing happens to an empty
      buffer. */
  function Backspace(c: Calculator): (r: Calculator)
    ensures |c.expression| > 0 ==> r.expression + [c.expression[|c.expression| - 1]] == c.expression
    ensures |c.expression| == 0 ==> r == c
    ensures r == c.(expression := r.expression)
  {
    if |c.expression| == 0 then c else c.(expression := c.expression[..|c.expression| - 1])
  }

  /** `toggleAngleMode`: flip the mode and return the new one. */
  function ToggleAngleMode(c: Calculator): (r: (Calculator, AngleMode))
    ensures r.1 != c.angleMode && r.0.angleMode == r.1
    ensures r.0 == c.(angleMode := r.1)
  {
    var m := if c.angleMode == DEG then RAD else DEG;
    (c.(angleMode := m), m)
  }

  /** `setAngleMode`: only `'DEG'` and `'RAD'` are accepted; anything else
      is ignored. */
  function SetAngleMode(c: Calculator, mode: string): (r: Calculator)
    ensures mode == "DEG" ==> r == c.(angleMode := DEG)
    ensures mode == "RAD" ==> r == c.(angleMode := RAD)
    ensures mode != "DEG" && mode != "RAD" ==> r == c
  {
    if mode == "DEG" then c.(angleMode := DEG)
    else if mode == "RAD" then c.(angleMode := RAD)
    else c
  }

  /** `addToHistory`: the new entry goes first and only the newest
      `HistoryLimit` entries are kept. */
  function AddToHistory(history: seq<HistoryEntry>, entry: HistoryEntry): (r: seq<HistoryEntry>)
    ensures |r| == if |history| < HistoryLimit then |history| + 1 else HistoryLimit
    ensures r[0] == entry
    ensures r[1..] == history[..|r| - 1]
  {
    var h := [entry] + history;
    if |h| > HistoryLimit then h[..HistoryLimit] else h
  }

  /** `clearHistory`. */
  function ClearHistory(c: Calculator): (r: Calculator)
    ensures r.history == [] && Valid(r)
    ensures r == c.(history := [])
  {
    c.(history := [])
  }

  /** The buffer is empty or holds only what `trim` removes. */
  predicate Blank(s: string) {
    forall i | 0 <= i < |s| :: IsSpace(s[i])
  }

  /** The value the engine computes for a buffer: tokenize, shunting-yard,
      evaluate, then insist on a finite value. */
  function Compute(s: string, mode: AngleMode, lib: MathLib): (r: Result<real>)
    ensures Blank(s) ==> r == Err(EmptyExpression)
    ensures !Blank(s) && InfixToPostfix(s).Err? ==> r == Err(InfixToPostfix(s).error)
    ensures !Blank(s) && InfixToPostfix(s).Ok? && Evaluate(InfixToPostfix(s).value, mode, lib).Err? ==>
              r == Err(Evaluate(InfixToPostfix(s).value, mode, lib).error)
    ensures !Blank(s) && InfixToPostfix(s).Ok? && Evaluate(InfixToPostfix(s).value, mode, lib).Ok? ==>
              (r.Ok? <==> Evaluate(InfixToPostfix(s).value, mode, lib).value.Fin?)
    ensures r.Ok? ==> !Blank(s) && InfixToPostfix(s).Ok? && Evaluate(InfixToPostfix(s).value, mode, lib) == Ok(Fin(r.value))
  {
    if Blank(s) then Err(EmptyExpression)
    else
      var postfix :- InfixToPostfix(s);
      var v :- Evaluate(postfix, mode, lib);
      if v.Fin? then Ok(v.r) else Err(NotFinite)
  }

  /** The state change after a calculation with outcome `res`: a value
      becomes the result and the last result and is recorded first in the
      history; a failure changes nothing. */
  function Commit(c: Calculator, res: Result<real>): (r: Calculator)
    ensures res.Err? ==> r == c
    ensures res.Ok? ==>
              && r.result == Some(res.value) && r.lastResult == Some(res.value)
              && r.expression == c.expression && r.angleMode == c.angleMode
              && |r.history| == (if |c.history| < HistoryLimit then |c.history| + 1 else HistoryLimit)
              && r.history[0] == HistoryEntry(c.expression, res.value)
              && r.history[1..] == c.history[..|r.history| - 1]
    ensures Valid(c) ==> Valid(r)
  {
    match res
    case Err(_) => c
    case Ok(v) =>
      c.(result := Some(v), lastResult := Some(v), history := AddToHistory(c.history, HistoryEntry(c.expression, v)))
  }

  /** `calculate`: computes the buffer's value under the current angle mode
      and commits it; on failure the error is returned and nothing
      changes. */
  function Calculate(c: Calculator, lib: MathLib): (r: (Calculator, Result<real>))
    ensures r.1 == Compute(c.expression, c.angleMode, lib)
    ensures r.1.Err? ==> r.0 == c
    ensures r.1.Ok? ==>
              && r.0.result == Some(r.1.value) && r.0.lastResult == Some(r.1.value)
              && |r.0.history| > 0 && r.0.history[0] == HistoryEntry(c.expression, r.1.value)
              && r.0.expression == c.expression && r.0.angleMode == c.angleMode
    ensures Valid(c) ==> Valid(r.0)
  {
    var res := Compute(c.expression, c.angleMode, lib);
    (Commit(c, res), res)
  }

  // ----- properties -----

  /** Every transition keeps the history within its limit. */
  lemma TransitionsKeepValid(c: Calculator, input: string, mode: string, lib: MathLib)
    requires Valid(c)
    ensures Valid(AddInput(c, input)) && Valid(Clear(c)) && Valid(Backspace(c))
    ensures Valid(ToggleAngleMode(c).0) && Valid(SetAngleMode(c, mode))
    ensures Valid(Calculate(c, lib).0) && Valid(ClearHistory(c))
  {
  }

  /** Backspace undoes typing one character. */
  lemma BackspaceUndoesInput(c: Calculator, ch: char)
    ensures Backspace(AddInput(c, [ch])) == c
  {
    assert (c.expression + [ch])[..|c.expression|] == c.expression;
  }

  /** Toggling twice restores the mode. */
  lemma ToggleTwice(c: Calculator)
    ensures ToggleAngleMode(ToggleAngleMode(c).0).0 == c
  {
  }

  /** Setting a mode and then setting it again changes nothing more. */
  lemma SetAngleModeIdempotent(c: Calculator, mode: string)
    ensures SetAngleMode(SetAngleMode(c, mode), mode) == SetAngleMode(c, mode)
  {
  }

  /** Calculating twice in a row gives the same value again and records it
      twice. */
  lemma CalculateRepeatable(c: Calculator, lib: MathLib)
    ensures Calculate(Calculate(c, lib).0, lib).1 == Calculate(c, lib).1
  {
  }

  /** The history holds the newest calculations first: after `n` entries are
      added to an empty history, entry `i` is the `i`-th most recent. */
  lemma {:induction false} HistoryNewestFirst(entries: seq<HistoryEntry>)
    ensures |AddAll([], entries)| == if |entries| < HistoryLimit then |entries| else HistoryLimit
    ensures forall i | 0 <= i < |AddAll([], entries)| :: AddAll([], entries)[i] == entries[|entries| - 1 - i]
    decreases |entries|
  {
    if entries != [] {
      var init := entries[..|entries| - 1];
      HistoryNewestFirst(init);
      var h := AddAll([], init);
      var r := AddToHistory(h, entries[|entries| - 1]);
      assert AddAll([], entries) == r;
      forall i | 0 <= i < |r|
        ensures r[i] == entries[|entries| - 1 - i]
      {
        if i > 0 {
          assert r[i] == r[1..][i - 1] == h[i - 1];
        }
      }
    }
  }

  /** Adding entries one at a time, in order. */
  function AddAll(history: seq<HistoryEntry>, entries: seq<HistoryEntry>): seq<HistoryEntry>
    decreases |entries|
  {
    if entries == [] then history
    else AddToHistory(AddAll(history, entries[..|entries| - 1]), entries[|entries| - 1])
  }
}

=== FILE: evaluator.dfy ===
/** The postfix evaluator (src/js/evaluator.js): reduces a postfix lexeme
    sequence with an operand stack, under an angle mode, with the domain
    checks of the source. JavaScript's `undefined` (what `pop` returns on an
    empty stack, and `stack[0]` of an empty stack) is represented by `NaN`:
    every operation the evaluator applies to it behaves as it does on NaN. */
module Evaluator {
  import opened Results
  import opened Numbers
  import opened Tokens

  /** The angle unit of the trigonometric functions. */
  datatype AngleMode = DEG | RAD

  /** `getConstant`. */
  function ConstantValue(c: Constant): (r: Num)
    ensures r.Fin? && 3.14 < PI < 3.15 && 2.71 < Numbers.E < 2.72
    ensures c == Pi ==> r == Fin(PI)
    ensures c == Constant.E ==> r == Fin(Numbers.E)
  {
    match c
    case Pi => Fin(PI)
    case E => Fin(Numbers.E)
  }

  // ----- operators -----

  /** `applyOperator`: `/` refuses a zero divisor, `mod` does not. */
  function ApplyOperator(o: Operator, a: Num, b: Num, lib: MathLib): (r: Result<Num>)
    ensures r.Err? <==> o == Divide && b == Fin(0.0)
    ensures r.Err? ==> r.error == DivisionByZero
    ensures a.Fin? && b.Fin? && o == Plus ==> r == Ok(Fin(a.r + b.r))
    ensures a.Fin? && b.Fin? && o == Minus ==> r == Ok(Fin(a.r - b.r))
    ensures a.Fin? && b.Fin? && o == Times ==> r == Ok(Fin(a.r * b.r))
    ensures a.Fin? && b.Fin? && o == Divide && b.r != 0.0 ==> r == Ok(Fin(a.r / b.r))
    ensures o == Mod && b == Fin(0.0) ==> r == Ok(NaN)
    ensures a.Fin? && b.Fin? && o == Mod && b.r != 0.0 ==>
              && r.Ok? && r.value.Fin?
              && Numbers.Abs(r.value.r) < Numbers.Abs(b.r)
              && (r.value.r == 0.0 || ((r.value.r > 0.0) == (a.r > 0.0)))
              && (exists q: int {:trigger q as real} :: a.r == b.r * q as real + r.value.r)
    ensures o == Power ==> r == Ok(lib.pow(a, b))
    ensures (a.NaN? || b.NaN?) && o != Power && r.Ok? ==> r.value.NaN?
  {
    match o
    case Plus => Ok(Add(a, b))
    case Minus => Ok(Sub(a, b))
    case Times => Ok(Mul(a, b))
    case Divide => if b == Fin(0.0) then Err(DivisionByZero) else Ok(Div(a, b))
    case Power => Ok(lib.pow(a, b))
    case Mod =>
      if a.Fin? && b.Fin? && b.r != 0.0 then
        TruncRemCharacterised(a.r, b.r);
        Ok(Rem(a, b))
      else Ok(Rem(a, b))
  }

  // ----- functions -----

  /** `toRadians`: degrees times pi/180. */
  function ToRadians(v: Num): (r: Num)
    ensures v.Fin? ==> r == Fin(v.r * (PI / 180.0))
    ensures !v.Fin? ==> r == v
  {
    Mul(v, Fin(PI / 180.0))
  }

  /** `toDegrees`: radians times 180/pi. */
  function ToDegrees(v: Num): (r: Num)
    ensures v.Fin? ==> r == Fin(v.r * (180.0 / PI))
    ensures !v.Fin? ==> r == v
  {
    Mul(v, Fin(180.0 / PI))
  }

  predicate IsTrig(f: Function) {
    f == Sin || f == Cos || f == Tan
  }

  predicate IsInverseTrig(f: Function) {
    f == Asin || f == Acos || f == Atan
  }

  /** The domain condition under which `applyFunction` throws. */
  predicate OutOfDomain(f: Function, v: Num) {
    || ((f == Log || f == Ln) && IsNonPositive(v))
    || (f == Sqrt && IsNegative(v))
    || (f == Reciprocal && v == Fin(0.0))
    || (f == Function.Factorial && !(IsInteger(v) && 0.0 <= v.r <= 170.0))
  }

  /** The six trigonometric functions, with the angle conversions. */
  function Angular(f: Function, v: Num, mode: AngleMode, lib: MathLib): Num
    requires IsTrig(f) || IsInverseTrig(f)
  {
    match f
    case Sin => lib.sin(if mode == DEG then ToRadians(v) else v)
    case Cos => lib.cos(if mode == DEG then ToRadians(v) else v)
    case Tan => lib.tan(if mode == DEG then ToRadians(v) else v)
    case Asin => var x := lib.asin(v); if mode == DEG then ToDegrees(x) else x
    case Acos => var x := lib.acos(v); if mode == DEG then ToDegrees(x) else x
    case Atan => var x := lib.atan(v); if mode == DEG then ToDegrees(x) else x
  }

  /** The functions that ignore the angle mode. */
  function Plain(f: Function, v: Num, lib: MathLib): (r: Result<Num>)
    requires !IsTrig(f) && !IsInverseTrig(f)
    ensures r.Err? <==> OutOfDomain(f, v)
    ensures f == Sinh ==> r == Ok(lib.sinh(v))
    ensures f == Cosh ==> r == Ok(lib.cosh(v))
    ensures f == Tanh ==> r == Ok(lib.tanh(v))
    ensures f == Log && !IsNonPositive(v) ==> r == Ok(lib.log10(v))
    ensures f == Ln && !IsNonPositive(v) ==> r == Ok(lib.ln(v))
    ensures f == Exp ==> r == Ok(lib.exp(v))
    ensures f == Pow10 ==> r == Ok(lib.pow(Fin(10.0), v))
    ensures f == Sqrt && !IsNegative(v) ==> r == Ok(lib.sqrt(v))
    ensures f == Square && v.Fin? ==> r == Ok(Fin(v.r * v.r))
  {
    match f
    case Sinh => Ok(lib.sinh(v))
    case Cosh => Ok(lib.cosh(v))
    case Tanh => Ok(lib.tanh(v))
    case Log => if IsNonPositive(v) then Err(LogOfNonPositive) else Ok(lib.log10(v))
    case Ln => if IsNonPositive(v) then Err(LogOfNonPositive) else Ok(lib.ln(v))
    case Exp => Ok(lib.exp(v))
    case Pow10 => Ok(lib.pow(Fin(10.0), v))
    case Sqrt => if IsNegative(v) then Err(SqrtOfNegative) else Ok(lib.sqrt(v))
    case Abs => Ok(AbsNum(v))
    case Square => Ok(Mul(v, v))
    case Reciprocal => if v == Fin(0.0) then Err(DivisionByZero) else Ok(Div(Fin(1.0), v))
    case Factorial => FactorialOf(v)
  }

  /** `applyFunction`: only `log`, `ln`, `sqrt`, `reciprocal` and
      `factorial` can fail, each exactly outside its domain; every other
      case is the `Math` function of the same name (`log10` for `log`, `log`
      for `ln`, `pow(10, x)` for `pow10`), with the angle conversions in
      degree mode. */
  function ApplyFunction(f: Function, v: Num, mode: AngleMode, lib: MathLib): (r: Result<Num>)
    ensures r.Err? <==> OutOfDomain(f, v)
    ensures f == Sin ==> r == Ok(lib.sin(if mode == DEG then ToRadians(v) else v))
    ensures f == Cos ==> r == Ok(lib.cos(if mode == DEG then ToRadians(v) else v))
    ensures f == Tan ==> r == Ok(lib.tan(if mode == DEG then ToRadians(v) else v))
    ensures f == Asin ==> r == Ok(if mode == DEG then ToDegrees(lib.asin(v)) else lib.asin(v))
    ensures f == Acos ==> r == Ok(if mode == DEG then ToDegrees(lib.acos(v)) else lib.acos(v))
    ensures f == Atan ==> r == Ok(if mode == DEG then ToDegrees(lib.atan(v)) else lib.atan(v))
    ensures f == Sinh ==> r == Ok(lib.sinh(v))
    ensures f == Cosh ==> r == Ok(lib.cosh(v))
    ensures f == Tanh ==> r == Ok(lib.tanh(v))
    ensures f == Log && !IsNonPositive(v) ==> r == Ok(lib.log10(v))
    ensures f == Ln && !IsNonPositive(v) ==> r == Ok(lib.ln(v))
    ensures f == Exp ==> r == Ok(lib.exp(v))
    ensures f == Pow10 ==> r == Ok(lib.pow(Fin(10.0), v))
    ensures f == Sqrt && !IsNegative(v) ==> r == Ok(lib.sqrt(v))
    ensures (f == Log || f == Ln) && r.Err? ==> r.error == LogOfNonPositive
    ensures f == Sqrt && r.Err? ==> r.error == SqrtOfNegative
    ensures f == Reciprocal && r.Err? ==> r.error == DivisionByZero
    ensures f == Square && v.Fin? ==> r == Ok(Fin(v.r * v.r)) && r.value.r >= 0.0
    ensures f == Function.Abs && v.Fin? ==> r.Ok? && r.value.Fin? && r.value.r >= 0.0 && (r.value.r == v.r || r.value.r == -v.r)
    ensures f == Reciprocal && v.Fin? && v.r != 0.0 ==> r == Ok(Fin(1.0 / v.r))
    ensures f == Function.Factorial && r.Ok? ==> r.value == Fin(Fact(v.r.Floor) as real)
  {
    if IsTrig(f) || IsInverseTrig(f) then Ok(Angular(f, v, mode, lib))
    else
      SquareNonNegative(v);
      Plain(f, v, lib)
  }

  lemma SquareNonNegative(v: Num)
    ensures v.Fin? ==> v.r * v.r >= 0.0
  {
    if v.Fin? && v.r < 0.0 {
      assert v.r * v.r == (-v.r) * (-v.r);
    }
  }

  // ----- factorial -----

  /** The reference definition: 0! = 1 and n! = n * (n-1)!. */
  function Fact(n: nat): (r: nat)
    ensures r >= 1
  {
    if n == 0 then 1 else n * Fact(n - 1)
  }

  /** The source's loop `for (i = 2; i <= n; i++) result *= i`, from `i`
      with accumulated product `acc`. */
  function ProductFrom(i: nat, n: nat, acc: nat): nat
    decreases n + 1 - i
  {
    if i > n then acc else ProductFrom(i + 1, n, acc * i)
  }

  /** Started where the source starts it, the loop computes the factorial. */
  lemma {:induction false} ProductFromIsFact(i: nat, n: nat)
    requires 1 <= i <= n + 1
    ensures ProductFrom(i, n, Fact(i - 1)) == Fact(n)
    decreases n + 1 - i
  {
    if i <= n {
      assert Fact(i - 1) * i == Fact(i);
      ProductFromIsFact(i + 1, n);
    }
  }

  /** `factorial`: negative values, then non-integers, then values above
      170 are refused; otherwise the product 2..n, with 0! = 1! = 1. */
  function FactorialOf(n: Num): (r: Result<Num>)
    ensures IsNegative(n) ==> r == Err(FactorialOfNegative)
    ensures !IsNegative(n) && !IsInteger(n) ==> r == Err(FactorialOfNonInteger)
    ensures IsInteger(n) && n.r > 170.0 ==> r == Err(FactorialOverflow)
    ensures r.Ok? <==> IsInteger(n) && 0.0 <= n.r <= 170.0
    ensures r.Ok? ==> r.value == Fin(Fact(n.r.Floor) as real)
  {
    if IsNegative(n) then Err(FactorialOfNegative)
    else if !IsInteger(n) then Err(FactorialOfNonInteger)
    else if n.r > 170.0 then Err(FactorialOverflow)
    else if n.r == 0.0 || n.r == 1.0 then
      assert Fact(n.r.Floor) == 1 by {
        if n.r == 1.0 { assert Fact(1) == 1 * Fact(0); }
      }
      Ok(Fin(1.0))
    else
      var k := n.r.Floor;
      ProductFromIsFact(2, k);
      assert Fact(1) == 1 * Fact(0);
      Ok(Fin(ProductFrom(2, k, 1) as real))
  }

  // ----- the stack machine -----

  /** `stack.pop()`: the top and the rest; `undefined` (NaN) on an empty
      stack, which stays empty. */
  function Pop(stack: seq<Num>): (r: (Num, seq<Num>))
    ensures |stack| > 0 ==> r.1 + [r.0] == stack
    ensures |stack| == 0 ==> r == (NaN, [])
  {
    if |stack| == 0 then (NaN, []) else (stack[|stack| - 1], stack[..|stack| - 1])
  }

  /** Popping undoes a push. */
  lemma PopPush(rest: seq<Num>, v: Num)
    ensures Pop(rest + [v]) == (v, rest)
  {
    assert (rest + [v])[..|rest|] == rest;
  }

  /** How many values a token pops: two for an operator, one for a
      function, none for the rest. */
  function Arity(k: Token): nat {
    if k.Op? then 2 else if k.Func? then 1 else 0
  }

  /** Whether the evaluator acts on a token at all; it skips parentheses
      and unclassified lexemes. */
  predicate Acts(k: Token) {
    k.IsOperand() || k.Op? || k.Func?
  }

  /** The part of a stack of height `h` that a token leaves untouched. */
  function Base(k: Token, h: nat): nat {
    if !Acts(k) then h else if h >= Arity(k) then h - Arity(k) else 0
  }

  /** The stack height after a token. */
  function Bump(k: Token, h: nat): nat {
    if Acts(k) then Base(k, h) + 1 else h
  }

  /** Pushing the outcome of an operation onto what is left of the stack,
      or passing its error on. */
  function Push(rest: seq<Num>, v: Result<Num>): Result<seq<Num>> {
    if v.Ok? then Ok(rest + [v.value]) else Err(v.error)
  }

  /** One iteration of the evaluation loop: a number or constant pushes
      its value; an operator pops `b`, then `a`, and pushes `a op b`; a
      function pops one value and pushes its image; anything else is
      skipped. A pop from an empty stack gives `undefined` (NaN), so an
      operator or function that finds too few values works on NaN in their
      place. */
  function Step(k: Token, mode: AngleMode, lib: MathLib, stack: seq<Num>): (r: Result<seq<Num>>)
    ensures r.Err? ==> k.Op? || k.Func?
    ensures r.Ok? ==> |r.value| == Bump(k, |stack|)
    ensures r.Ok? ==> r.value[..Base(k, |stack|)] == stack[..Base(k, |stack|)]
    ensures k.Number? ==> r == Ok(stack + [Fin(k.value)])
    ensures k.Const? ==> r == Ok(stack + [ConstantValue(k.c)])
    ensures k.Op? && |stack| >= 2 ==>
              (r.Ok? <==> ApplyOperator(k.op, stack[|stack| - 2], stack[|stack| - 1], lib).Ok?)
    ensures k.Op? && |stack| >= 2 && r.Ok? ==>
              r.value[|r.value| - 1] == ApplyOperator(k.op, stack[|stack| - 2], stack[|stack| - 1], lib).value
    ensures k.Func? && |stack| >= 1 ==>
              (r.Ok? <==> ApplyFunction(k.fn, stack[|stack| - 1], mode, lib).Ok?)
    ensures k.Func? && |stack| >= 1 && r.Ok? ==>
              r.value[|r.value| - 1] == ApplyFunction(k.fn, stack[|stack| - 1], mode, lib).value
    ensures k.Op? && |stack| == 1 ==> r == Push([], ApplyOperator(k.op, NaN, stack[0], lib))
    ensures k.Op? && |stack| == 0 ==> r == Push([], ApplyOperator(k.op, NaN, NaN, lib))
    ensures k.Func? && |stack| == 0 ==> r == Push([], ApplyFunction(k.fn, NaN, mode, lib))
    ensures !Acts(k) ==> r == Ok(stack)
  {
    match k
    case Number(x) => Ok(stack + [Fin(x)])
    case Op(o) =>
      var (b, s1) := Pop(stack);
      var (a, s2) := Pop(s1);
      var v :- ApplyOperator(o, a, b, lib);
      Ok(s2 + [v])
    case Func(f) =>
      var (a, s1) := Pop(stack);
      var v :- ApplyFunction(f, a, mode, lib);
      Ok(s1 + [v])
    case Const(c) => Ok(stack + [ConstantValue(c)])
    case _ => Ok(stack)
  }

  /** The evaluation loop over the remaining lexemes `ts`, from `stack`. */
  function EvalFrom(ts: seq<string>, mode: AngleMode, lib: MathLib, stack: seq<Num>): (r: Result<seq<Num>>)
    decreases |ts|
  {
    if ts == [] then Ok(stack)
    else
      var s :- Step(Classify(ts[0]), mode, lib, stack);
      EvalFrom(ts[1..], mode, lib, s)
  }

  /** `evaluate`: the value at the BOTTOM of the final stack, `stack[0]`. */
  function Evaluate(ts: seq<string>, mode: AngleMode, lib: MathLib): (r: Result<Num>)
    ensures EvalFrom(ts, mode, lib, []).Err? ==> r == Err(EvalFrom(ts, mode, lib, []).error)
    ensures EvalFrom(ts, mode, lib, []).Ok? && |EvalFrom(ts, mode, lib, []).value| > 0 ==>
              r == Ok(EvalFrom(ts, mode, lib, []).value[0])
    ensures EvalFrom(ts, mode, lib, []).Ok? && |EvalFrom(ts, mode, lib, []).value| == 0 ==> r == Ok(NaN)
  {
    var stack :- EvalFrom(ts, mode, lib, []);
    Ok(if |stack| > 0 then stack[0] else NaN)
  }

  // ----- properties -----

  /** In degree mode, `sin`, `cos` and `tan` see their argument converted
      to radians; in radian mode they see it unchanged. */
  lemma TrigInDegrees(f: Function, v: Num, lib: MathLib)
    requires IsTrig(f)
    ensures ApplyFunction(f, v, DEG, lib) == ApplyFunction(f, ToRadians(v), RAD, lib)
    ensures ApplyFunction(f, v, RAD, lib).Ok?
  {
  }

  /** In degree mode, the results of `asin`, `acos` and `atan` are converted
      to degrees. */
  lemma InverseTrigInDegrees(f: Function, v: Num, lib: MathLib)
    requires IsInverseTrig(f)
    ensures ApplyFunction(f, v, RAD, lib).Ok?
    ensures ApplyFunction(f, v, DEG, lib) == Ok(ToDegrees(ApplyFunction(f, v, RAD, lib).value))
  {
  }

  /** Every other function ignores the angle mode. */
  lemma ModeIrrelevant(f: Function, v: Num, lib: MathLib)
    requires !IsTrig(f) && !IsInverseTrig(f)
    ensures ApplyFunction(f, v, DEG, lib) == ApplyFunction(f, v, RAD, lib)
  {
  }

  /** Converting degrees to radians and back is the identity on finite
      values. */
  lemma DegreesRadiansRoundTrip(v: Num)
    ensures ToDegrees(ToRadians(v)) == v
  {
    if v.Fin? {
      calc {
        ToDegrees(ToRadians(v)).r;
        (v.r * (PI / 180.0)) * (180.0 / PI);
        v.r * ((PI / 180.0) * (180.0 / PI));
        { assert (PI / 180.0) * (180.0 / PI) == 1.0; }
        v.r;
      }
    }
  }

  /** `reciprocal` undoes itself on finite non-zero values. */
  lemma ReciprocalInvolutive(v: Num, mode: AngleMode, lib: MathLib)
    requires v.Fin? && v.r != 0.0
    ensures ApplyFunction(Reciprocal, v, mode, lib).Ok?
    ensures ApplyFunction(Reciprocal, ApplyFunction(Reciprocal, v, mode, lib).value, mode, lib) == Ok(v)
  {
    var x := v.r;
    assert 1.0 / x != 0.0;
    assert 1.0 / (1.0 / x) == x;
  }

  // ----- stack height -----

  /** The height the stack reaches, token by token. */
  function Height(ts: seq<string>, h: nat): nat
    decreases |ts|
  {
    if ts == [] then h else Height(ts[1..], Bump(Classify(ts[0]), h))
  }

  /** A successful run leaves a stack of the height `Height` predicts. */
  lemma {:induction false} EvalHeight(ts: seq<string>, mode: AngleMode, lib: MathLib, stack: seq<Num>)
    ensures EvalFrom(ts, mode, lib, stack).Ok? ==> |EvalFrom(ts, mode, lib, stack).value| == Height(ts, |stack|)
    decreases |ts|
  {
    if ts != [] {
      var r := Step(Classify(ts[0]), mode, lib, stack);
      if r.Ok? {
        EvalHeight(ts[1..], mode, lib, r.value);
      }
    }
  }

  /** The errors the evaluator reports: the domain errors of `/`, `log`,
      `ln`, `sqrt` and `factorial`. */
  predicate DomainError(e: Error) {
    e.DivisionByZero? || e.LogOfNonPositive? || e.SqrtOfNegative?
    || e.FactorialOfNegative? || e.FactorialOfNonInteger? || e.FactorialOverflow?
  }

  /** One step fails only with a domain error. */
  lemma StepErrors(k: Token, mode: AngleMode, lib: MathLib, stack: seq<Num>)
    ensures Step(k, mode, lib, stack).Err? ==> DomainError(Step(k, mode, lib, stack).error)
  {
    var r := Step(k, mode, lib, stack);
    if r.Err? && k.Op? {
      var (b, s1) := Pop(stack);
      var (a, s2) := Pop(s1);
      assert r.error == ApplyOperator(k.op, a, b, lib).error;
    } else if r.Err? && k.Func? {
      var (a, s1) := Pop(stack);
      FunctionErrors(k.fn, a, mode, lib);
      assert r.error == ApplyFunction(k.fn, a, mode, lib).error;
    }
  }

  /** A function fails only with a domain error. */
  lemma FunctionErrors(f: Function, v: Num, mode: AngleMode, lib: MathLib)
    ensures ApplyFunction(f, v, mode, lib).Err? ==> DomainError(ApplyFunction(f, v, mode, lib).error)
  {
  }

  /** Evaluation fails only with a domain error of an operator or a
      function. */
  lemma {:induction false} EvalErrors(ts: seq<string>, mode: AngleMode, lib: MathLib, stack: seq<Num>)
    ensures EvalFrom(ts, mode, lib, stack).Err? ==> DomainError(EvalFrom(ts, mode, lib, stack).error)
    decreases |ts|
  {
    if ts != [] {
      var r := Step(Classify(ts[0]), mode, lib, stack);
      StepErrors(Classify(ts[0]), mode, lib, stack);
      if r.Ok? {
        EvalErrors(ts[1..], mode, lib, r.value);
      }
    }
  }
}

=== FILE: examples.dfy ===
/** Worked examples: concrete inputs run through the model, matching the
    behaviour the source's comments and the calculator's buttons promise. */
module Examples {
  import opened Results
  import opened Numbers
  import opened Tokens
  import opened Tokenizer
  import opened Parser
  import opened Evaluator
  import opened Expressions
  import Buttons
  import Calculator

  // ----- shunting-yard -----

  /** Subtraction is left-associative: `1-2-3` is `(1-2)-3`. */
  lemma LeftAssociative()
    ensures ShuntingYard(["1", "-", "2", "-", "3"]) == Ok(["1", "2", "-", "3", "-"])
  {
    LeftFirstHalf();
    LeftSecondHalf();
  }

  /** Steps of `1-2-3` up to the second `-`: the first `-` waits on the stack. */
  lemma LeftFirstHalf()
    ensures Shunt(["1", "-", "2", "-", "3"], [], []) == Shunt(["2", "-", "3"], ["1"], ["-"])
  {
    DigitsNumeral("1");
    OperatorClassifies(Minus);
    calc {
      Shunt(["1", "-", "2", "-", "3"], [], []);
      { assert ["1", "-", "2", "-", "3"] == ["1"] + ["-", "2", "-", "3"];
        ShuntOperand("1", ["-", "2", "-", "3"], [], []); }
      Shunt(["-", "2", "-", "3"], [] + ["1"], []);
      { assert [] + ["1"] == ["1"];
        assert ["-", "2", "-", "3"] == ["-"] + ["2", "-", "3"];
        ShuntOperator("-", ["2", "-", "3"], ["1"], []); }
      Shunt(["2", "-", "3"], ["1"], [] + ["-"]);
      { assert [] + ["-"] == ["-"]; }
      Shunt(["2", "-", "3"], ["1"], ["-"]);
    }
  }

  /** Steps of `1-2-3` from the second `-` to the end. */
  lemma LeftSecondHalf()
    ensures Shunt(["2", "-", "3"], ["1"], ["-"]) == Ok(["1", "2", "-", "3", "-"])
  {
    LeftThirdQuarter();
    LeftLastQuarter();
  }

  /** The second `-` of `1-2-3` pops the first one to the output. */
  lemma LeftThirdQuarter()
    ensures Shunt(["2", "-", "3"], ["1"], ["-"]) == Shunt(["3"], ["1", "2", "-"], ["-"])
  {
    DigitsNumeral("2");
    OperatorClassifies(Minus);
    calc {
      Shunt(["2", "-", "3"], ["1"], ["-"]);
      { assert ["2", "-", "3"] == ["2"] + ["-", "3"];
        ShuntOperand("2", ["-", "3"], ["1"], ["-"]);
        assert ["1"] + ["2"] == ["1", "2"]; }
      Shunt(["-", "3"], ["1", "2"], ["-"]);
      { assert ["-", "3"] == ["-"] + ["3"];
        ShuntOperator("-", ["3"], ["1", "2"], ["-"]);
        PopOneMinus();
        assert [] + ["-"] == ["-"]; }
      Shunt(["3"], ["1", "2", "-"], ["-"]);
    }
  }

  /** The last operand of `1-2-3`, then the final drain. */
  lemma LeftLastQuarter()
    ensures Shunt(["3"], ["1", "2", "-"], ["-"]) == Ok(["1", "2", "-", "3", "-"])
  {
    DigitsNumeral("3");
    calc {
      Shunt(["3"], ["1", "2", "-"], ["-"]);
      { assert ["3"] == ["3"] + [];
        ShuntOperand("3", [], ["1", "2", "-"], ["-"]);
        assert ["1", "2", "-"] + ["3"] == ["1", "2", "-", "3"]; }
      Shunt([], ["1", "2", "-", "3"], ["-"]);
      { assert Top(["-"]) == "-" && Below(["-"]) == [];
        assert ["1", "2", "-", "3"] + ["-"] == ["1", "2", "-", "3", "-"]; }
      Drain(["1", "2", "-", "3", "-"], []);
    }
  }

  /** A `-` on the stack goes to the output before the next `-`. */
  lemma PopOneMinus()
    ensures PopOperators("-", ["1", "2"], ["-"]) == (["1", "2", "-"], [])
  {
    PrecedenceTable("-");
    OperatorClassifies(Minus);
    assert PopsBefore("-", "-");
    assert Top(["-"]) == "-" && Below(["-"]) == [];
    assert ["1", "2"] + ["-"] == ["1", "2", "-"];
  }

  /** Exponentiation is right-associative: `2^3^2` is `2^(3^2)`. */
  lemma RightAssociative()
    ensures ShuntingYard(["2", "^", "3", "^", "2"]) == Ok(["2", "3", "2", "^", "^"])
  {
    RightFirstHalf();
    RightSecondHalf();
  }

  /** Steps of `2^3^2` up to the second `^`: the first `^` waits on the stack. */
  lemma RightFirstHalf()
    ensures Shunt(["2", "^", "3", "^", "2"], [], []) == Shunt(["3", "^", "2"], ["2"], ["^"])
  {
    DigitsNumeral("2");
    OperatorClassifies(Power);
    calc {
      Shunt(["2", "^", "3", "^", "2"], [], []);
      { assert ["2", "^", "3", "^", "2"] == ["2"] + ["^", "3", "^", "2"];
        ShuntOperand("2", ["^", "3", "^", "2"], [], []); }
      Shunt(["^", "3", "^", "2"], [] + ["2"], []);
      { assert [] + ["2"] == ["2"];
        assert ["^", "3", "^", "2"] == ["^"] + ["3", "^", "2"];
        ShuntOperator("^", ["3", "^", "2"], ["2"], []); }
      Shunt(["3", "^", "2"], ["2"], [] + ["^"]);
      { assert [] + ["^"] == ["^"]; }
      Shunt(["3", "^", "2"], ["2"], ["^"]);
    }
  }

  /** Steps of `2^3^2` from the second `^` to the end. */
  lemma RightSecondHalf()
    ensures Shunt(["3", "^", "2"], ["2"], ["^"]) == Ok(["2", "3", "2", "^", "^"])
  {
    RightThirdQuarter();
    RightLastQuarter();
  }

  /** The second `^` of `2^3^2` stacks on top of the first one. */
  lemma RightThirdQuarter()
    ensures Shunt(["3", "^", "2"], ["2"], ["^"]) == Shunt(["2"], ["2", "3"], ["^", "^"])
  {
    DigitsNumeral("3");
    OperatorClassifies(Power);
    calc {
      Shunt(["3", "^", "2"], ["2"], ["^"]);
      { assert ["3", "^", "2"] == ["3"] + ["^", "2"];
        ShuntOperand("3", ["^", "2"], ["2"], ["^"]);
        assert ["2"] + ["3"] == ["2", "3"]; }
      Shunt(["^", "2"], ["2", "3"], ["^"]);
      { assert ["^", "2"] == ["^"] + ["2"];
        ShuntOperator("^", ["2"], ["2", "3"], ["^"]);
        PowerStaysOnPower();
        assert ["^"] + ["^"] == ["^", "^"]; }
      Shunt(["2"], ["2", "3"], ["^", "^"]);
    }
  }

  /** A `^` on the stack stays there when another `^` arrives. */
  lemma PowerStaysOnPower()
    ensures PopOperators("^", ["2", "3"], ["^"]) == (["2", "3"], ["^"])
  {
    assert !PopsBefore("^", "^");
    assert Top(["^"]) == "^";
  }

  /** The last operand of `2^3^2`, then the drain pops both `^`, top first. */
  lemma RightLastQuarter()
    ensures Shunt(["2"], ["2", "3"], ["^", "^"]) == Ok(["2", "3", "2", "^", "^"])
  {
    DigitsNumeral("2");
    calc {
      Shunt(["2"], ["2", "3"], ["^", "^"]);
      { assert ["2"] == ["2"] + [];
        ShuntOperand("2", [], ["2", "3"], ["^", "^"]);
        assert ["2", "3"] + ["2"] == ["2", "3", "2"]; }
      Shunt([], ["2", "3", "2"], ["^", "^"]);
      Drain(["2", "3", "2"], ["^", "^"]);
      { assert Reverse(["^", "^"]) == ["^", "^"];
        assert ["2", "3", "2"] + ["^", "^"] == ["2", "3", "2", "^", "^"]; }
      Ok(["2", "3", "2", "^", "^"]);
    }
  }

  /** An unclosed `(` and an unopened `)` are both mismatched. */
  lemma Mismatched()
    ensures ShuntingYard(["(", "2", "+", "3"]) == Err(MismatchedParentheses)
    ensures ShuntingYard(["2", "+", "3", ")"]) == Err(MismatchedParentheses)
  {
    assert !Balanced(["(", "2", "+", "3"]) by {
      assert ["(", "2", "+", "3"][1..] == ["2", "+", "3"];
      assert ["2", "+", "3"][1..] == ["+", "3"];
      assert ["+", "3"][1..] == ["3"];
      assert ["3"][1..] == [];
    }
    assert !Balanced(["2", "+", "3", ")"]) by {
      assert ["2", "+", "3", ")"][1..] == ["+", "3", ")"];
      assert ["+", "3", ")"][1..] == ["3", ")"];
      assert ["3", ")"][1..] == [")"];
    }
  }

  // ----- evaluation -----

  lemma SmallNumerals()
    ensures Classify("2") == Number(2.0) && Classify("3") == Number(3.0)
    ensures Classify("4") == Number(4.0) && Classify("10") == Number(10.0)
    ensures ParserToken("2") == Number(2.0) && ParserToken("3") == Number(3.0)
    ensures ParserToken("10") == Number(10.0)
  {
    DigitsNumeral("2");
    DigitsNumeral("3");
    DigitsNumeral("4");
    DigitsNumeral("10");
    assert DigitsValue("10") == 10 by {
      assert "10"[..1] == "1";
      assert DigitsValue("1") == 1;
    }
  }

  /** `[3, 4, +]` evaluates to 7. */
  lemma ThreePlusFour(mode: AngleMode, lib: MathLib)
    ensures Evaluate(["3", "4", "+"], mode, lib) == Ok(Fin(7.0))
  {
    var e := Bin(Plus, Lit("3"), Lit("4"));
    DigitsNumeral("3");
    DigitsNumeral("4");
    assert NumeralValue("3") == 3.0 && NumeralValue("4") == 4.0 by {
      ClassifyTable("3");
      ClassifyTable("4");
    }
    assert WellFormed(e);
    assert Postfix(e) == ["3", "4", "+"];
    assert EvalTree(e, mode, lib) == ApplyOperator(Plus, Fin(3.0), Fin(4.0), lib);
    EvaluatePostfix(e, mode, lib);
  }

  /** The result is the BOTTOM of the stack: `[2, 3]` evaluates to 2. */
  lemma BottomOfStack(mode: AngleMode, lib: MathLib)
    ensures Evaluate(["2", "3"], mode, lib) == Ok(Fin(2.0))
  {
    SmallNumerals();
    DigitsNumeral("2");
    DigitsNumeral("3");
    assert Postfix(Lit("2")) + Postfix(Lit("3")) == ["2", "3"];
    FirstValueWins(Lit("2"), Lit("3"), mode, lib);
  }

  /** `mod` truncates toward zero: 5 mod 3 = 2 and -5 mod 3 = -2. */
  lemma TruncatedModulo(lib: MathLib)
    ensures ApplyOperator(Mod, Fin(5.0), Fin(3.0), lib) == Ok(Fin(2.0))
    ensures ApplyOperator(Mod, Fin(-5.0), Fin(3.0), lib) == Ok(Fin(-2.0))
  {
    assert (5.0 / 3.0).Floor == 1;
    assert Trunc(5.0 / 3.0) == 1;
    assert Trunc(-5.0 / 3.0) == -1;
  }

  /** `mod` by zero is not refused; it yields NaN. */
  lemma ModuloByZero(a: Num, lib: MathLib)
    ensures ApplyOperator(Mod, a, Fin(0.0), lib) == Ok(NaN)
    ensures ApplyOperator(Divide, a, Fin(0.0), lib) == Err(DivisionByZero)
  {
  }

  /** `sin 90` in degrees and `sin(pi/2)` in radians both ask `Math.sin`
      for the sine of pi/2. */
  lemma SineOfRightAngle(lib: MathLib)
    ensures ApplyFunction(Sin, Fin(90.0), DEG, lib) == Ok(lib.sin(Fin(PI / 2.0)))
    ensures ApplyFunction(Sin, Fin(PI / 2.0), RAD, lib) == Ok(lib.sin(Fin(PI / 2.0)))
  {
    assert 90.0 * (PI / 180.0) == PI / 2.0;
  }

  /** Factorials: 0! = 1, 5! = 120, and 171, -1 and 2.5 are refused. */
  lemma Factorials(mode: AngleMode, lib: MathLib)
    ensures ApplyFunction(Function.Factorial, Fin(0.0), mode, lib) == Ok(Fin(1.0))
    ensures ApplyFunction(Function.Factorial, Fin(5.0), mode, lib) == Ok(Fin(120.0))
    ensures ApplyFunction(Function.Factorial, Fin(171.0), mode, lib) == Err(FactorialOverflow)
    ensures ApplyFunction(Function.Factorial, Fin(-1.0), mode, lib) == Err(FactorialOfNegative)
    ensures ApplyFunction(Function.Factorial, Fin(2.5), mode, lib) == Err(FactorialOfNonInteger)
  {
    FactorialsAccepted(mode, lib);
    FactorialsRefused(mode, lib);
  }

  /** The factorials the source computes: 0! = 1 and 5! = 120. */
  lemma FactorialsAccepted(mode: AngleMode, lib: MathLib)
    ensures ApplyFunction(Function.Factorial, Fin(0.0), mode, lib) == Ok(Fin(1.0))
    ensures ApplyFunction(Function.Factorial, Fin(5.0), mode, lib) == Ok(Fin(120.0))
  {
    assert Fact(5) == 120 by {
      assert Fact(1) == 1 * Fact(0);
      assert Fact(2) == 2;
      assert Fact(3) == 6;
      assert Fact(4) == 24;
    }
  }

  /** The factorials the source refuses, each with its own message. */
  lemma FactorialsRefused(mode: AngleMode, lib: MathLib)
    ensures ApplyFunction(Function.Factorial, Fin(171.0), mode, lib) == Err(FactorialOverflow)
    ensures ApplyFunction(Function.Factorial, Fin(-1.0), mode, lib) == Err(FactorialOfNegative)
    ensures ApplyFunction(Function.Factorial, Fin(2.5), mode, lib) == Err(FactorialOfNonInteger)
  {
    assert 2.5.Floor == 2;
  }

  // ----- the `10^x` button -----

  lemma Pow10Text()
    ensures Buttons.Call("pow10", "2") == "pow10(2)"
    ensures Buttons.Digits("2") && FunctionName(Pow10) == "pow10"
  {
    assert "pow10" + "(" == "pow10(";
    assert "pow10(" + "2" == "pow10(2";
    assert "pow10(2" + ")" == "pow10(2)";
  }

  /** `pow10(2)` asks `Math.pow` for 10 to the 2nd. */
  lemma Pow10Corrected(mode: AngleMode, lib: MathLib)
    ensures InfixToPostfix("pow10(2)") == Ok(["2", "pow10"])
    ensures Evaluate(["2", "pow10"], mode, lib) == Ok(lib.pow(Fin(10.0), Fin(2.0)))
  {
    Pow10Text();
    Buttons.CallPostfix(Pow10, "2");
    Buttons.CallValue(Pow10, "2", mode, lib);
    assert DigitsValue("2") as real == 2.0;
    Pow10Value(Fin(2.0), mode, lib);
  }

  /** `pow10` is `Math.pow(10, x)`, in either angle mode. */
  lemma Pow10Value(v: Num, mode: AngleMode, lib: MathLib)
    ensures ApplyFunction(Pow10, v, mode, lib) == Ok(lib.pow(Fin(10.0), v))
  {
  }

  /** As written, `pow10(2)` evaluates to 10. */
  lemma Pow10AsWritten(mode: AngleMode, lib: MathLib)
    ensures TokenizeAsWritten("pow10(2)") == Ok(["pow", "10", "(", "2", ")"])
    ensures ShuntingYard(["pow", "10", "(", "2", ")"]) == Ok(["10", "2"])
    ensures Evaluate(["10", "2"], mode, lib) == Ok(Fin(10.0))
  {
    Pow10Text();
    Buttons.Pow10IgnoresArgument("2", mode, lib);
  }

  // ----- precedence -----

  /** `*` binds tighter than `+`: `1+2*3` is `1+(2*3)`. */
  lemma TimesBeforePlus()
    ensures ShuntingYard(["1", "+", "2", "*", "3"]) == Ok(["1", "2", "3", "*", "+"])
  {
    TimesBeforePlusFirstHalf();
    TimesBeforePlusSecondHalf();
  }

  /** Steps of `1+2*3` up to `*`: `1` and `2` are out, `+` waits on the stack. */
  lemma TimesBeforePlusFirstHalf()
    ensures Shunt(["1", "+", "2", "*", "3"], [], []) == Shunt(["*", "3"], ["1", "2"], ["+"])
  {
    DigitsNumeral("1");
    DigitsNumeral("2");
    OperatorClassifies(Plus);
    calc {
      Shunt(["1", "+", "2", "*", "3"], [], []);
      { assert ["1", "+", "2", "*", "3"] == ["1"] + ["+", "2", "*", "3"];
        ShuntOperand("1", ["+", "2", "*", "3"], [], []);
        assert [] + ["1"] == ["1"]; }
      Shunt(["+", "2", "*", "3"], ["1"], []);
      { assert ["+", "2", "*", "3"] == ["+"] + ["2", "*", "3"];
        ShuntOperator("+", ["2", "*", "3"], ["1"], []);
        assert [] + ["+"] == ["+"]; }
      Shunt(["2", "*", "3"], ["1"], ["+"]);
      { assert ["2", "*", "3"] == ["2"] + ["*", "3"];
        ShuntOperand("2", ["*", "3"], ["1"], ["+"]);
        assert ["1"] + ["2"] == ["1", "2"]; }
      Shunt(["*", "3"], ["1", "2"], ["+"]);
    }
  }

  /** Steps of `1+2*3` from `*` to the end: `*` stacks on `+`, and the drain pops `*` first. */
  lemma TimesBeforePlusSecondHalf()
    ensures Shunt(["*", "3"], ["1", "2"], ["+"]) == Ok(["1", "2", "3", "*", "+"])
  {
    DigitsNumeral("3");
    OperatorClassifies(Times);
    calc {
      Shunt(["*", "3"], ["1", "2"], ["+"]);
      { assert ["*", "3"] == ["*"] + ["3"];
        ShuntOperator("*", ["3"], ["1", "2"], ["+"]);
        PlusStaysBelowTimes();
        assert ["+"] + ["*"] == ["+", "*"]; }
      Shunt(["3"], ["1", "2"], ["+", "*"]);
      { assert ["3"] == ["3"] + [];
        ShuntOperand("3", [], ["1", "2"], ["+", "*"]);
        assert ["1", "2"] + ["3"] == ["1", "2", "3"]; }
      Shunt([], ["1", "2", "3"], ["+", "*"]);
      Drain(["1", "2", "3"], ["+", "*"]);
      { assert Reverse(["+", "*"]) == ["*", "+"];
        assert ["1", "2", "3"] + ["*", "+"] == ["1", "2", "3", "*", "+"]; }
      Ok(["1", "2", "3", "*", "+"]);
    }
  }

  /** A `+` on the stack stays there when `*` arrives. */
  lemma PlusStaysBelowTimes()
    ensures PopOperators("*", ["1", "2"], ["+"]) == (["1", "2"], ["+"])
  {
    PrecedenceTable("+");
    PrecedenceTable("*");
    OperatorClassifies(Plus);
    OperatorClassifies(Times);
    assert !PopsBefore("+", "*");
    assert Top(["+"]) == "+";
  }

  /** A `*` on the stack leaves before `+`: `2*3+1` is `(2*3)+1`. */
  lemma TimesThenPlus()
    ensures ShuntingYard(["2", "*", "3", "+", "1"]) == Ok(["2", "3", "*", "1", "+"])
  {
    TimesThenPlusFirstHalf();
    TimesThenPlusSecondHalf();
  }

  /** Steps of `2*3+1` up to `+`: `2` and `3` are out, `*` waits on the stack. */
  lemma TimesThenPlusFirstHalf()
    ensures Shunt(["2", "*", "3", "+", "1"], [], []) == Shunt(["+", "1"], ["2", "3"], ["*"])
  {
    DigitsNumeral("2");
    DigitsNumeral("3");
    OperatorClassifies(Times);
    calc {
      Shunt(["2", "*", "3", "+", "1"], [], []);
      { assert ["2", "*", "3", "+", "1"] == ["2"] + ["*", "3", "+", "1"];
        ShuntOperand("2", ["*", "3", "+", "1"], [], []);
        assert [] + ["2"] == ["2"]; }
      Shunt(["*", "3", "+", "1"], ["2"], []);
      { assert ["*", "3", "+", "1"] == ["*"] + ["3", "+", "1"];
        ShuntOperator("*", ["3", "+", "1"], ["2"], []);
        assert [] + ["*"] == ["*"]; }
      Shunt(["3", "+", "1"], ["2"], ["*"]);
      { assert ["3", "+", "1"] == ["3"] + ["+", "1"];
        ShuntOperand("3", ["+", "1"], ["2"], ["*"]);
        assert ["2"] + ["3"] == ["2", "3"]; }
      Shunt(["+", "1"], ["2", "3"], ["*"]);
    }
  }

  /** Steps of `2*3+1` from `+` to the end: `+` pops `*` first. */
  lemma TimesThenPlusSecondHalf()
    ensures Shunt(["+", "1"], ["2", "3"], ["*"]) == Ok(["2", "3", "*", "1", "+"])
  {
    DigitsNumeral("1");
    OperatorClassifies(Plus);
    calc {
      Shunt(["+", "1"], ["2", "3"], ["*"]);
      { assert ["+", "1"] == ["+"] + ["1"];
        ShuntOperator("+", ["1"], ["2", "3"], ["*"]);
        TimesLeavesBeforePlus();
        assert [] + ["+"] == ["+"]; }
      Shunt(["1"], ["2", "3", "*"], ["+"]);
      { assert ["1"] == ["1"] + [];
        ShuntOperand("1", [], ["2", "3", "*"], ["+"]);
        assert ["2", "3", "*"] + ["1"] == ["2", "3", "*", "1"]; }
      Shunt([], ["2", "3", "*", "1"], ["+"]);
      { assert Top(["+"]) == "+" && Below(["+"]) == [];
        assert ["2", "3", "*", "1"] + ["+"] == ["2", "3", "*", "1", "+"]; }
      Drain(["2", "3", "*", "1", "+"], []);
    }
  }

  /** A `*` on the stack goes to the output when `+` arrives. */
  lemma TimesLeavesBeforePlus()
    ensures PopOperators("+", ["2", "3"], ["*"]) == (["2", "3", "*"], [])
  {
    PrecedenceTable("+");
    PrecedenceTable("*");
    OperatorClassifies(Plus);
    OperatorClassifies(Times);
    assert PopsBefore("*", "+");
    assert Top(["*"]) == "*" && Below(["*"]) == [];
    assert ["2", "3"] + ["*"] == ["2", "3", "*"];
  }

  /** A function binds tighter than any operator: `sin2+3` is
      `sin(2)+3`. */
  lemma SineThenPlus()
    ensures ShuntingYard(["sin", "2", "+", "3"]) == Ok(["2", "sin", "3", "+"])
  {
    SineThenPlusFirstHalf();
    SineThenPlusSecondHalf();
  }

  /** Steps of `sin 2 + 3` up to `+`: `2` is out and `sin` waits on the stack. */
  lemma SineThenPlusFirstHalf()
    ensures Shunt(["sin", "2", "+", "3"], [], []) == Shunt(["+", "3"], ["2"], ["sin"])
  {
    DigitsNumeral("2");
    FunctionClassifies(Sin);
    calc {
      Shunt(["sin", "2", "+", "3"], [], []);
      { assert ["sin", "2", "+", "3"] == ["sin"] + ["2", "+", "3"];
        ShuntPush("sin", ["2", "+", "3"], [], []);
        assert [] + ["sin"] == ["sin"]; }
      Shunt(["2", "+", "3"], [], ["sin"]);
      { assert ["2", "+", "3"] == ["2"] + ["+", "3"];
        ShuntOperand("2", ["+", "3"], [], ["sin"]);
        assert [] + ["2"] == ["2"]; }
      Shunt(["+", "3"], ["2"], ["sin"]);
    }
  }

  /** Steps of `sin 2 + 3` from `+` to the end: `+` pops `sin` first. */
  lemma SineThenPlusSecondHalf()
    ensures Shunt(["+", "3"], ["2"], ["sin"]) == Ok(["2", "sin", "3", "+"])
  {
    DigitsNumeral("3");
    OperatorClassifies(Plus);
    calc {
      Shunt(["+", "3"], ["2"], ["sin"]);
      { assert ["+", "3"] == ["+"] + ["3"];
        ShuntOperator("+", ["3"], ["2"], ["sin"]);
        SineLeavesBeforePlus();
        assert [] + ["+"] == ["+"]; }
      Shunt(["3"], ["2", "sin"], ["+"]);
      { assert ["3"] == ["3"] + [];
        ShuntOperand("3", [], ["2", "sin"], ["+"]);
        assert ["2", "sin"] + ["3"] == ["2", "sin", "3"]; }
      Shunt([], ["2", "sin", "3"], ["+"]);
      { assert Top(["+"]) == "+" && Below(["+"]) == [];
        assert ["2", "sin", "3"] + ["+"] == ["2", "sin", "3", "+"]; }
      Drain(["2", "sin", "3", "+"], []);
    }
  }

  /** A function on the stack goes to the output before an arriving `+`. */
  lemma SineLeavesBeforePlus()
    ensures PopOperators("+", ["2"], ["sin"]) == (["2", "sin"], [])
  {
    PrecedenceTable("+");
    PrecedenceTable("sin");
    FunctionClassifies(Sin);
    assert PopsBefore("sin", "+");
    assert Top(["sin"]) == "sin" && Below(["sin"]) == [];
    assert ["2"] + ["sin"] == ["2", "sin"];
  }

  /** The calculator shows 7 for `1+2*3`, in either angle mode. */
  lemma PrecedenceValue(mode: AngleMode, lib: MathLib)
    ensures InfixToPostfix("1+2*3") == Ok(["1", "2", "3", "*", "+"])
    ensures Calculator.Compute("1+2*3", mode, lib) == Ok(7.0)
  {
    PrecedenceTokens();
    TimesBeforePlus();
    OnePlusTwoTimesThree(mode, lib);
    assert !Calculator.Blank("1+2*3") by {
      assert !IsSpace("1+2*3"[0]);
    }
  }

  /** `1+2*3` tokenizes to its five lexemes. */
  lemma PrecedenceTokens()
    ensures Tokenize("1+2*3") == Ok(["1", "+", "2", "*", "3"])
  {
    var e := "1+2*3";
    NormalizeIdentity(e);
    TokenizeScans(e, FunctionNames);
    PrecedenceScan();
  }

  /** The scan of `1+2*3` from its first character. */
  lemma PrecedenceScan()
    ensures Scan("1+2*3", 0, FunctionNames) == Ok(["1", "+", "2", "*", "3"])
  {
    var e := "1+2*3";
    PrecedenceScanTail();
    ScanSymbol(e, 1, FunctionNames);
    assert [e[1]] == "+" && ["+"] + ["2", "*", "3"] == ["+", "2", "*", "3"];
    assert NumberRunEnd(e, 0) == 1 by {
      assert NumberRunEnd(e, 1) == 1;
    }
    ScanDigit(e, 0, FunctionNames);
    assert e[0..1] == "1" && ["1"] + ["+", "2", "*", "3"] == ["1", "+", "2", "*", "3"];
  }

  /** The scan of `1+2*3` from the `2`. */
  lemma PrecedenceScanTail()
    ensures Scan("1+2*3", 2, FunctionNames) == Ok(["2", "*", "3"])
  {
    var e := "1+2*3";
    assert Scan(e, 5, FunctionNames) == Ok([]);
    assert NumberRunEnd(e, 4) == 5;
    ScanDigit(e, 4, FunctionNames);
    assert e[4..5] == "3" && ["3"] + [] == ["3"];
    ScanSymbol(e, 3, FunctionNames);
    assert [e[3]] == "*" && ["*"] + ["3"] == ["*", "3"];
    assert NumberRunEnd(e, 2) == 3 by {
      assert NumberRunEnd(e, 3) == 3;
    }
    ScanDigit(e, 2, FunctionNames);
    assert e[2..3] == "2" && ["2"] + ["*", "3"] == ["2", "*", "3"];
  }

  /** `[1, 2, 3, *, +]` evaluates to 7. */
  lemma OnePlusTwoTimesThree(mode: AngleMode, lib: MathLib)
    ensures Evaluate(["1", "2", "3", "*", "+"], mode, lib) == Ok(Fin(7.0))
  {
    var e := Bin(Plus, Lit("1"), Bin(Times, Lit("2"), Lit("3")));
    PrecedenceTree();
    PrecedenceTreeValue(mode, lib);
    EvaluatePostfix(e, mode, lib);
  }

  /** The tree of `1+2*3` is well formed and reads `1 2 3 * +` in postfix. */
  lemma PrecedenceTree()
    ensures WellFormed(Bin(Plus, Lit("1"), Bin(Times, Lit("2"), Lit("3"))))
    ensures Postfix(Bin(Plus, Lit("1"), Bin(Times, Lit("2"), Lit("3")))) == ["1", "2", "3", "*", "+"]
  {
    var p := Bin(Times, Lit("2"), Lit("3"));
    var e := Bin(Plus, Lit("1"), p);
    DigitsNumeral("1");
    DigitsNumeral("2");
    DigitsNumeral("3");
    assert Postfix(p) == ["2", "3", "*"];
    assert Postfix(e) == ["1"] + ["2", "3", "*"] + ["+"];
  }

  /** The tree of `1+2*3` is worth 7. */
  lemma PrecedenceTreeValue(mode: AngleMode, lib: MathLib)
    ensures EvalTree(Bin(Plus, Lit("1"), Bin(Times, Lit("2"), Lit("3"))), mode, lib) == Ok(Fin(7.0))
  {
    var p := Bin(Times, Lit("2"), Lit("3"));
    DigitsNumeral("1");
    DigitsNumeral("2");
    DigitsNumeral("3");
    assert NumeralValue("1") == 1.0 && NumeralValue("2") == 2.0 && NumeralValue("3") == 3.0 by {
      ClassifyTable("1");
      ClassifyTable("2");
      ClassifyTable("3");
    }
    assert EvalTree(p, mode, lib) == Ok(Fin(6.0));
  }

  /** `sin2+3` converts to `2 sin 3 +`: the sine applies to 2 alone. */
  lemma SinePrecedence()
    ensures Tokenize("sin2+3") == Ok(["sin", "2", "+", "3"])
    ensures InfixToPostfix("sin2+3") == Ok(["2", "sin", "3", "+"])
  {
    SineTokens();
    SineThenPlus();
  }

  /** `sin2+3` tokenizes to `sin`, `2`, `+`, `3`. */
  lemma SineTokens()
    ensures Tokenize("sin2+3") == Ok(["sin", "2", "+", "3"])
  {
    var e := "sin2+3";
    NormalizeIdentity(e);
    TokenizeScans(e, FunctionNames);
    SineScan();
  }

  /** The scan of `sin2+3` from its first character: the identifier stops at the `2`. */
  lemma SineScan()
    ensures Scan("sin2+3", 0, FunctionNames) == Ok(["sin", "2", "+", "3"])
  {
    var e := "sin2+3";
    SineScanTail();
    SineWordEnds();
    ScanLetter(e, 0, FunctionNames);
    assert e[0..3] == "sin" && ["sin"] + ["2", "+", "3"] == ["sin", "2", "+", "3"];
  }

  /** The scan of `sin2+3` from the `2`. */
  lemma SineScanTail()
    ensures Scan("sin2+3", 3, FunctionNames) == Ok(["2", "+", "3"])
  {
    var e := "sin2+3";
    assert Scan(e, 6, FunctionNames) == Ok([]);
    assert NumberRunEnd(e, 5) == 6;
    ScanDigit(e, 5, FunctionNames);
    assert e[5..6] == "3" && ["3"] + [] == ["3"];
    ScanSymbol(e, 4, FunctionNames);
    assert [e[4]] == "+" && ["+"] + ["3"] == ["+", "3"];
    assert NumberRunEnd(e, 3) == 4 by {
      assert NumberRunEnd(e, 4) == 4;
    }
    ScanDigit(e, 3, FunctionNames);
    assert e[3..4] == "2" && ["2"] + ["+", "3"] == ["2", "+", "3"];
  }

  /** In `sin2+3` the identifier is `sin`: `sin2` names no function. */
  lemma SineWordEnds()
    ensures IdentEnd("sin2+3", 0, FunctionNames) == 3
  {
    var e := "sin2+3";
    assert LetterRunEnd(e, 3) == 3;
    assert LetterRunEnd(e, 1) == 3;
    assert DigitRunEnd(e, 4) == 4;
    assert DigitRunEnd(e, 3) == 4;
    assert e[0..4] == "sin2";
    var t := "sin2";
    assert |t| == 4 && t[3] == '2' && t[0] == 's';
    assert FunctionNamed(t).None?;
  }

  // ----- the `mod` button -----

  /** The `mod` button types the bare word, so `5 mod 3` reads `5mod3`; the
      word ends where the letters end and the digit after it is an operand
      of its own, under either identifier rule. */
  lemma ModTokens()
    ensures Tokenize("5mod3") == Ok(["5", "mod", "3"])
    ensures TokenizeAsWritten("5mod3") == Tokenize("5mod3")
  {
    var e := "5mod3";
    NormalizeIdentity(e);
    TokenizeScans(e, FunctionNames);
    ModScan();
    NoPow10InMod();
    TokenizeAgrees(e);
  }

  /** The scan of `5mod3`: the identifier `mod` stops at the `3`. */
  lemma ModScan()
    ensures Scan("5mod3", 0, FunctionNames) == Ok(["5", "mod", "3"])
  {
    var e := "5mod3";
    assert Scan(e, 5, FunctionNames) == Ok([]);
    assert NumberRunEnd(e, 4) == 5;
    ScanDigit(e, 4, FunctionNames);
    assert e[4..5] == "3" && ["3"] + [] == ["3"];
    assert Scan(e, 4, FunctionNames) == Ok(["3"]);
    ModWordEnds();
    ScanLetter(e, 1, FunctionNames);
    assert e[1..4] == "mod" && ["mod"] + ["3"] == ["mod", "3"];
    assert Scan(e, 1, FunctionNames) == Ok(["mod", "3"]);
    assert NumberRunEnd(e, 0) == 1 by {
      assert NumberRunEnd(e, 1) == 1;
    }
    ScanDigit(e, 0, FunctionNames);
    assert e[0..1] == "5" && ["5"] + ["mod", "3"] == ["5", "mod", "3"];
  }

  /** In `5mod3` the word starting at `m` is `mod`: `mod3` names no
      function. */
  lemma ModWordEnds()
    ensures IdentEnd("5mod3", 1, FunctionNames) == 4
  {
    var e := "5mod3";
    assert LetterRunEnd(e, 4) == 4;
    assert LetterRunEnd(e, 2) == 4;
    assert DigitRunEnd(e, 4) == 5;
    assert e[1..5] == "mod3";
    NotAFunctionName();
  }

  /** `mod3` is no function name, so the digit does not join `mod`. */
  lemma NotAFunctionName()
    ensures FunctionNamed("mod3").None?
  {
    var t := "mod3";
    assert |t| == 4 && t[0] == 'm' && t[3] == '3';
  }

  /** `5mod3` contains no `pow10`, so both identifier rules agree on it. */
  lemma NoPow10InMod()
    ensures NoPow10(Normalize("5mod3"), 0)
  {
    var e := "5mod3";
    NormalizeIdentity(e);
    assert e[0..5] == e && e[0] == '5';
    assert !Pow10At(e, 0);
  }

  /** `5mod3` becomes `5 3 mod`. */
  lemma ModPostfix()
    ensures InfixToPostfix("5mod3") == Ok(["5", "3", "mod"])
  {
    ModTokens();
    ModShunt();
  }

  /** `5 mod 3` converts to `5 3 mod`. */
  lemma ModShunt()
    ensures ShuntingYard(["5", "mod", "3"]) == Ok(["5", "3", "mod"])
  {
    DigitsNumeral("5");
    DigitsNumeral("3");
    OperatorClassifies(Mod);
    calc {
      Shunt(["5", "mod", "3"], [], []);
      { assert ["5", "mod", "3"] == ["5"] + ["mod", "3"];
        ShuntOperand("5", ["mod", "3"], [], []);
        assert [] + ["5"] == ["5"]; }
      Shunt(["mod", "3"], ["5"], []);
      { assert ["mod", "3"] == ["mod"] + ["3"];
        ShuntOperator("mod", ["3"], ["5"], []);
        assert [] + ["mod"] == ["mod"]; }
      Shunt(["3"], ["5"], ["mod"]);
      { assert ["3"] == ["3"] + [];
        ShuntOperand("3", [], ["5"], ["mod"]);
        assert ["5"] + ["3"] == ["5", "3"]; }
      Shunt([], ["5", "3"], ["mod"]);
      { assert Top(["mod"]) == "mod" && Below(["mod"]) == [];
        assert ["5", "3"] + ["mod"] == ["5", "3", "mod"]; }
      Drain(["5", "3", "mod"], []);
    }
  }

  /** The calculator shows 2 for `5mod3`, in either angle mode. */
  lemma ModValue(mode: AngleMode, lib: MathLib)
    ensures Calculator.Compute("5mod3", mode, lib) == Ok(2.0)
  {
    ModPostfix();
    FiveModThree(mode, lib);
    assert !Calculator.Blank("5mod3") by {
      assert !IsSpace("5mod3"[0]);
    }
  }

  /** `[5, 3, mod]` evaluates to 2. */
  lemma FiveModThree(mode: AngleMode, lib: MathLib)
    ensures Evaluate(["5", "3", "mod"], mode, lib) == Ok(Fin(2.0))
  {
    var e := Bin(Mod, Lit("5"), Lit("3"));
    DigitsNumeral("5");
    DigitsNumeral("3");
    assert NumeralValue("5") == 5.0 && NumeralValue("3") == 3.0 by {
      ClassifyTable("5");
      ClassifyTable("3");
    }
    assert WellFormed(e);
    assert Postfix(e) == ["5", "3", "mod"];
    TruncatedModulo(lib);
    assert EvalTree(e, mode, lib) == ApplyOperator(Mod, Fin(5.0), Fin(3.0), lib);
    EvaluatePostfix(e, mode, lib);
  }
}

=== FILE: expressions.dfy ===
/** Expression trees as an independent reference for the two halves of
    the engine: the postfix evaluator computes what a tree means, and the
    shunting-yard parser turns a fully parenthesised infix rendering of a
    tree into that tree's postfix list. */
module Expressions {
  import opened Results
  import opened Numbers
  import opened Tokens
  import opened Evaluator
  import opened Parser

  /** An arithmetic expression over the calculator's vocabulary; a literal
      keeps its lexeme. */
  datatype Expr =
    | Lit(lexeme: string)
    | Cst(c: Constant)
    | Bin(op: Operator, left: Expr, right: Expr)
    | App(fn: Function, arg: Expr)

  /** Every literal is a numeral. */
  predicate WellFormed(e: Expr) {
    match e
    case Lit(t) => IsNumeral(t)
    case Cst(_) => true
    case Bin(_, l, r) => WellFormed(l) && WellFormed(r)
    case App(_, a) => WellFormed(a)
  }

  /** What an expression means: operands first, left to right, then the
      operator or function, failing with the first domain error. */
  function EvalTree(e: Expr, mode: AngleMode, lib: MathLib): Result<Num>
    requires WellFormed(e)
  {
    match e
    case Lit(t) => Ok(Fin(NumeralValue(t)))
    case Cst(c) => Ok(ConstantValue(c))
    case Bin(o, l, r) =>
      var a :- EvalTree(l, mode, lib);
      var b :- EvalTree(r, mode, lib);
      ApplyOperator(o, a, b, lib)
    case App(f, x) =>
      var a :- EvalTree(x, mode, lib);
      ApplyFunction(f, a, mode, lib)
  }

  /** The postfix list of an expression. */
  function Postfix(e: Expr): seq<string> {
    match e
    case Lit(t) => [t]
    case Cst(c) => [ConstantName(c)]
    case Bin(o, l, r) => Postfix(l) + Postfix(r) + [OperatorName(o)]
    case App(f, x) => Postfix(x) + [FunctionName(f)]
  }

  /** The fully parenthesised infix lexemes of an expression: every binary
      operation in parentheses, every function applied to a parenthesised
      argument. */
  function Infix(e: Expr): seq<string> {
    match e
    case Lit(t) => [t]
    case Cst(c) => [ConstantName(c)]
    case Bin(o, l, r) => ["("] + Infix(l) + [OperatorName(o)] + Infix(r) + [")"]
    case App(f, x) => [FunctionName(f), "("] + Infix(x) + [")"]
  }

  // ----- evaluation -----

  lemma EvalFromCons(t: string, rest: seq<string>, mode: AngleMode, lib: MathLib, stack: seq<Num>)
    ensures EvalFrom([t] + rest, mode, lib, stack) ==
      if Step(Classify(t), mode, lib, stack).Ok?
      then EvalFrom(rest, mode, lib, Step(Classify(t), mode, lib, stack).value)
      else Err(Step(Classify(t), mode, lib, stack).error)
  {
    assert ([t] + rest)[0] == t && ([t] + rest)[1..] == rest;
  }

  /** Running the evaluator over an expression's postfix list pushes the
      expression's value, or fails with its error. */
  lemma {:induction false} EvalPostfix(e: Expr, rest: seq<string>, mode: AngleMode, lib: MathLib, stack: seq<Num>)
    requires WellFormed(e)
    ensures EvalFrom(Postfix(e) + rest, mode, lib, stack) ==
      if EvalTree(e, mode, lib).Ok?
      then EvalFrom(rest, mode, lib, stack + [EvalTree(e, mode, lib).value])
      else Err(EvalTree(e, mode, lib).error)
  {
    match e
    case Lit(t) =>
      EvalFromCons(t, rest, mode, lib, stack);
      ClassifyTable(t);
    case Cst(c) =>
      EvalFromCons(ConstantName(c), rest, mode, lib, stack);
      ConstantClassifies(c);
    case Bin(o, l, r) =>
      var name := OperatorName(o);
      assert Postfix(e) + rest == Postfix(l) + (Postfix(r) + ([name] + rest));
      EvalPostfix(l, Postfix(r) + ([name] + rest), mode, lib, stack);
      if EvalTree(l, mode, lib).Ok? {
        var a := EvalTree(l, mode, lib).value;
        EvalPostfix(r, [name] + rest, mode, lib, stack + [a]);
        if EvalTree(r, mode, lib).Ok? {
          var b := EvalTree(r, mode, lib).value;
          EvalFromCons(name, rest, mode, lib, stack + [a] + [b]);
          OperatorClassifies(o);
          PopTwo(stack, a, b);
        }
      }
    case App(f, x) =>
      var name := FunctionName(f);
      assert Postfix(e) + rest == Postfix(x) + ([name] + rest);
      EvalPostfix(x, [name] + rest, mode, lib, stack);
      if EvalTree(x, mode, lib).Ok? {
        var a := EvalTree(x, mode, lib).value;
        EvalFromCons(name, rest, mode, lib, stack + [a]);
        FunctionClassifies(f);
        assert Pop(stack + [a]) == (a, stack);
      }
  }

  lemma PopTwo(stack: seq<Num>, a: Num, b: Num)
    ensures Pop(stack + [a] + [b]) == (b, stack + [a])
    ensures Pop(stack + [a]) == (a, stack)
  {
    assert (stack + [a] + [b])[..|stack| + 1] == stack + [a];
  }

  /** Two expressions side by side leave two values, and the evaluator
      answers with the bottom one: the first expression's value. */
  lemma FirstValueWins(e1: Expr, e2: Expr, mode: AngleMode, lib: MathLib)
    requires WellFormed(e1) && WellFormed(e2) && EvalTree(e1, mode, lib).Ok?
    ensures Evaluate(Postfix(e1) + Postfix(e2), mode, lib) ==
      if EvalTree(e2, mode, lib).Ok? then EvalTree(e1, mode, lib) else Err(EvalTree(e2, mode, lib).error)
  {
    TwoValues(e1, e2, mode, lib);
    if EvalTree(e2, mode, lib).Ok? {
      assert [EvalTree(e1, mode, lib).value, EvalTree(e2, mode, lib).value][0] == EvalTree(e1, mode, lib).value;
    }
  }

  /** The stack two expressions side by side leave: both values, the first
      one at the bottom. */
  lemma TwoValues(e1: Expr, e2: Expr, mode: AngleMode, lib: MathLib)
    requires WellFormed(e1) && WellFormed(e2) && EvalTree(e1, mode, lib).Ok?
    ensures EvalFrom(Postfix(e1) + Postfix(e2), mode, lib, []) ==
      if EvalTree(e2, mode, lib).Ok?
      then Ok([EvalTree(e1, mode, lib).value, EvalTree(e2, mode, lib).value])
      else Err(EvalTree(e2, mode, lib).error)
  {
    var v1 := EvalTree(e1, mode, lib).value;
    EvalPostfix(e1, Postfix(e2), mode, lib, []);
    assert [] + [v1] == [v1];
    assert Postfix(e2) + [] == Postfix(e2);
    EvalPostfix(e2, [], mode, lib, [v1]);
    if EvalTree(e2, mode, lib).Ok? {
      assert [v1] + [EvalTree(e2, mode, lib).value] == [v1, EvalTree(e2, mode, lib).value];
    }
  }

  /** The evaluator computes exactly what the tree means: the postfix list
      of a well-formed expression leaves one value, the expression's. */
  lemma EvaluatePostfix(e: Expr, mode: AngleMode, lib: MathLib)
    requires WellFormed(e)
    ensures Evaluate(Postfix(e), mode, lib) == EvalTree(e, mode, lib)
    ensures EvalTree(e, mode, lib).Ok? ==> EvalFrom(Postfix(e), mode, lib, []) == Ok([EvalTree(e, mode, lib).value])
  {
    var p := Postfix(e);
    assert p + [] == p;
    EvalPostfix(e, [], mode, lib, []);
    if EvalTree(e, mode, lib).Ok? {
      var v := EvalTree(e, mode, lib).value;
      assert [] + [v] == [v];
      assert EvalFrom(p, mode, lib, []) == EvalFrom([], mode, lib, [v]);
    }
  }

  // ----- parsing -----

  lemma ShuntOperand(t: string, rest: seq<string>, out: seq<string>, ops: seq<string>)
    requires ParserToken(t).IsOperand()
    ensures Shunt([t] + rest, out, ops) == Shunt(rest, out + [t], ops)
  {
    assert ([t] + rest)[0] == t && ([t] + rest)[1..] == rest;
  }

  lemma ShuntPush(t: string, rest: seq<string>, out: seq<string>, ops: seq<string>)
    requires ParserToken(t).Func? || ParserToken(t).LParen?
    ensures Shunt([t] + rest, out, ops) == Shunt(rest, out, ops + [t])
  {
    assert ([t] + rest)[0] == t && ([t] + rest)[1..] == rest;
  }

  lemma ShuntOperator(t: string, rest: seq<string>, out: seq<string>, ops: seq<string>)
    requires ParserToken(t).Op?
    ensures Shunt([t] + rest, out, ops) ==
      Shunt(rest, PopOperators(t, out, ops).0, PopOperators(t, out, ops).1 + [t])
  {
    assert ([t] + rest)[0] == t && ([t] + rest)[1..] == rest;
  }

  lemma ShuntClose(rest: seq<string>, out: seq<string>, ops: seq<string>)
    requires CloseParen(out, ops).Ok?
    ensures Shunt([")"] + rest, out, ops) ==
      Shunt(rest, BindFunction(CloseParen(out, ops).value.0, CloseParen(out, ops).value.1).0,
                  BindFunction(CloseParen(out, ops).value.0, CloseParen(out, ops).value.1).1)
  {
    ClassifyTable(")");
    assert ([")"] + rest)[0] == ")" && ([")"] + rest)[1..] == rest;
  }

  /** No function waits on top of the stack for a closing parenthesis. */
  predicate Unbound(ops: seq<string>) {
    |ops| == 0 || FunctionNamed(Top(ops)).None?
  }

  /** The parser moves a fully parenthesised expression to the output as
      its postfix list and leaves the stack as it found it. */
  lemma {:induction false} ShuntInfix(e: Expr, rest: seq<string>, out: seq<string>, ops: seq<string>)
    requires WellFormed(e) && Unbound(ops)
    ensures Shunt(Infix(e) + rest, out, ops) == Shunt(rest, out + Postfix(e), ops)
    decreases e, 1
  {
    match e
    case Lit(t) =>
      ClassifyTable(t);
      ShuntOperand(t, rest, out, ops);
    case Cst(c) =>
      ConstantClassifies(c);
      ShuntOperand(ConstantName(c), rest, out, ops);
    case Bin(o, l, r) =>
      ShuntBinary(o, l, r, rest, out, ops);
    case App(f, x) =>
      ShuntApplication(f, x, rest, out, ops);
  }

  lemma {:induction false} ShuntBinary(o: Operator, l: Expr, r: Expr, rest: seq<string>, out: seq<string>, ops: seq<string>)
    requires WellFormed(l) && WellFormed(r) && Unbound(ops)
    ensures Shunt(Infix(Bin(o, l, r)) + rest, out, ops) == Shunt(rest, out + Postfix(Bin(o, l, r)), ops)
    decreases Bin(o, l, r), 0
  {
    var name := OperatorName(o);
    var ops1 := ops + ["("];
    var ops2 := ops1 + [name];
    var tail3 := [")"] + rest;
    var tail2 := Infix(r) + tail3;
    var tail1 := [name] + tail2;
    var tail0 := Infix(l) + tail1;
    var out1 := out + Postfix(l);
    var out2 := out1 + Postfix(r);
    BinaryLayout(o, l, r, rest, out);
    calc {
      Shunt(["("] + tail0, out, ops);
      { OpenStep(tail0, out, ops); }
      Shunt(tail0, out, ops1);
      { ShuntInfix(l, tail1, out, ops1); }
      Shunt(tail1, out1, ops1);
      { OperatorAfterOpen(o, tail2, out1, ops); }
      Shunt(tail2, out1, ops2);
      { OperatorUnbound(o, ops1); ShuntInfix(r, tail3, out1, ops2); }
      Shunt(tail3, out2, ops2);
      { CloseBinary(o, rest, out2, ops); }
      Shunt(rest, out2 + [name], ops);
    }
  }

  lemma {:induction false} ShuntApplication(f: Function, x: Expr, rest: seq<string>, out: seq<string>, ops: seq<string>)
    requires WellFormed(x) && Unbound(ops)
    ensures Shunt(Infix(App(f, x)) + rest, out, ops) == Shunt(rest, out + Postfix(App(f, x)), ops)
    decreases App(f, x), 0
  {
    var name := FunctionName(f);
    var ops1 := ops + [name];
    var ops2 := ops1 + ["("];
    var tail2 := [")"] + rest;
    var tail1 := Infix(x) + tail2;
    var tail0 := ["("] + tail1;
    var out1 := out + Postfix(x);
    ApplicationLayout(f, x, rest, out);
    calc {
      Shunt([name] + tail0, out, ops);
      { FunctionClassifies(f); ShuntPush(name, tail0, out, ops); }
      Shunt(tail0, out, ops1);
      { OpenStep(tail1, out, ops1); }
      Shunt(tail1, out, ops2);
      { ShuntInfix(x, tail2, out, ops2); }
      Shunt(tail2, out1, ops2);
      { CloseApplication(f, rest, out1, ops); }
      Shunt(rest, out1 + [name], ops);
    }
  }

  lemma BinaryLayout(o: Operator, l: Expr, r: Expr, rest: seq<string>, out: seq<string>)
    ensures Infix(Bin(o, l, r)) + rest == ["("] + (Infix(l) + ([OperatorName(o)] + (Infix(r) + ([")"] + rest))))
    ensures out + Postfix(l) + Postfix(r) + [OperatorName(o)] == out + Postfix(Bin(o, l, r))
  {
  }

  lemma ApplicationLayout(f: Function, x: Expr, rest: seq<string>, out: seq<string>)
    ensures Infix(App(f, x)) + rest == [FunctionName(f)] + (["("] + (Infix(x) + ([")"] + rest)))
    ensures out + Postfix(x) + [FunctionName(f)] == out + Postfix(App(f, x))
  {
  }

  /** `(` is pushed, and leaves no function on top. */
  lemma OpenStep(rest: seq<string>, out: seq<string>, ops: seq<string>)
    ensures Shunt(["("] + rest, out, ops) == Shunt(rest, out, ops + ["("])
    ensures Unbound(ops + ["("])
  {
    ClassifyTable("(");
    ShuntPush("(", rest, out, ops);
  }

  /** An operator right after `(` pops nothing and is pushed. */
  lemma OperatorAfterOpen(o: Operator, rest: seq<string>, out: seq<string>, ops: seq<string>)
    ensures Shunt([OperatorName(o)] + rest, out, ops + ["("]) == Shunt(rest, out, ops + ["("] + [OperatorName(o)])
  {
    OperatorClassifies(o);
    ShuntOperator(OperatorName(o), rest, out, ops + ["("]);
    assert Top(ops + ["("]) == "(";
  }

  lemma OperatorUnbound(o: Operator, ops: seq<string>)
    ensures Unbound(ops + [OperatorName(o)])
  {
    assert Top(ops + [OperatorName(o)]) == OperatorName(o);
  }

  /** The `)` of a binary operation moves its operator to the output and
      discards its `(`. */
  lemma CloseBinary(o: Operator, rest: seq<string>, out: seq<string>, ops: seq<string>)
    requires Unbound(ops)
    ensures Shunt([")"] + rest, out, ops + ["("] + [OperatorName(o)]) == Shunt(rest, out + [OperatorName(o)], ops)
  {
    var name := OperatorName(o);
    var s := ops + ["("] + [name];
    assert Top(s) == name && Below(s) == ops + ["("];
    assert name != "(" && name != ")";
    assert Top(ops + ["("]) == "(" && Below(ops + ["("]) == ops;
    assert CloseParen(out, s) == Ok((out + [name], ops));
    ShuntClose(rest, out, s);
  }

  /** The `)` of a function application discards its `(` and moves the
      function to the output. */
  lemma CloseApplication(f: Function, rest: seq<string>, out: seq<string>, ops: seq<string>)
    ensures Shunt([")"] + rest, out, ops + [FunctionName(f)] + ["("]) == Shunt(rest, out + [FunctionName(f)], ops)
  {
    var name := FunctionName(f);
    var s := ops + [name] + ["("];
    assert Top(s) == "(" && Below(s) == ops + [name];
    assert Top(ops + [name]) == name && Below(ops + [name]) == ops;
    FunctionNamesRoundTrip(name, f);
    assert CloseParen(out, s) == Ok((out, ops + [name]));
    ShuntClose(rest, out, s);
  }

  /** Shunting-yard turns the fully parenthesised infix lexemes of an
      expression into exactly its postfix list. */
  lemma ShuntingYardInfix(e: Expr)
    requires WellFormed(e)
    ensures ShuntingYard(Infix(e)) == Ok(Postfix(e))
  {
    var i := Infix(e);
    assert i + [] == i;
    ShuntInfix(e, [], [], []);
    assert [] + Postfix(e) == Postfix(e);
    assert Shunt(i, [], []) == Shunt([], Postfix(e), []);
    assert Shunt([], Postfix(e), []) == Drain(Postfix(e), []);
  }

  /** Parsing, then evaluating, computes what the expression means. */
  lemma ParseThenEvaluate(e: Expr, mode: AngleMode, lib: MathLib)
    requires WellFormed(e)
    ensures ShuntingYard(Infix(e)).Ok?
    ensures Evaluate(ShuntingYard(Infix(e)).value, mode, lib) == EvalTree(e, mode, lib)
  {
    ShuntingYardInfix(e);
    EvaluatePostfix(e, mode, lib);
  }
}

=== FILE: numbers.dfy ===
/** JavaScript numbers as the engine sees them: a finite value, a signed
    infinity, or NaN, with the IEEE-754 rules for the operators the evaluator
    applies itself (`+ - * / %`, comparisons, `Math.abs`, `Number.isInteger`).
    Finite values are exact reals: rounding and overflow are not modelled.
    The library calls the evaluator makes (`Math.sin`, `Math.pow`, ...) are
    supplied by the caller as a `MathLib` value. */
module Numbers {

  datatype Num = Fin(r: real) | Inf(negative: bool) | NaN

  /** `isFinite(v)`. */
  predicate IsFinite(v: Num) {
    v.Fin?
  }

  /** `v < 0`; false for NaN. */
  predicate IsNegative(v: Num) {
    (v.Fin? && v.r < 0.0) || v == Inf(true)
  }

  /** `v <= 0`; false for NaN. */
  predicate IsNonPositive(v: Num) {
    (v.Fin? && v.r <= 0.0) || v == Inf(true)
  }

  /** `Number.isInteger(v)`: finite and without a fractional part. */
  predicate IsInteger(v: Num) {
    v.Fin? && v.r == v.r.Floor as real
  }

  /** `Math.PI` and `Math.E`: the exact values of the two doubles. */
  const PI: real := 884279719003555.0 / 281474976710656.0
  const E: real := 6121026514868073.0 / 2251799813685248.0

  /** The calls into `Math` whose numeric behaviour is outside this model. */
  datatype MathLib = MathLib(
    sin: Num -> Num, cos: Num -> Num, tan: Num -> Num,
    asin: Num -> Num, acos: Num -> Num, atan: Num -> Num,
    sinh: Num -> Num, cosh: Num -> Num, tanh: Num -> Num,
    log10: Num -> Num, ln: Num -> Num, exp: Num -> Num, sqrt: Num -> Num,
    pow: (Num, Num) -> Num)

  function Negate(a: Num): (r: Num)
    ensures a.Fin? ==> r == Fin(-a.r)
    ensures a.Inf? ==> r == Inf(!a.negative)
    ensures a.NaN? ==> r.NaN?
  {
    match a
    case Fin(x) => Fin(-x)
    case Inf(n) => Inf(!n)
    case NaN => NaN
  }

  /** IEEE addition: NaN absorbs, opposite infinities give NaN. */
  function Add(a: Num, b: Num): (r: Num)
    ensures a.Fin? && b.Fin? ==> r == Fin(a.r + b.r)
    ensures a.NaN? || b.NaN? ==> r.NaN?
  {
    match (a, b)
    case (NaN, _) => NaN
    case (_, NaN) => NaN
    case (Inf(m), Inf(n)) => if m == n then Inf(m) else NaN
    case (Inf(m), Fin(_)) => Inf(m)
    case (Fin(_), Inf(n)) => Inf(n)
    case (Fin(x), Fin(y)) => Fin(x + y)
  }

  /** `a - b`, which IEEE defines as `a + (-b)`. */
  function Sub(a: Num, b: Num): (r: Num)
    ensures a.Fin? && b.Fin? ==> r == Fin(a.r - b.r)
    ensures a.NaN? || b.NaN? ==> r.NaN?
  {
    Add(a, Negate(b))
  }

  /** IEEE multiplication: infinity times zero is NaN, signs multiply. */
  function Mul(a: Num, b: Num): (r: Num)
    ensures a.Fin? && b.Fin? ==> r == Fin(a.r * b.r)
    ensures a.NaN? || b.NaN? ==> r.NaN?
    ensures a.Inf? && b == Fin(0.0) ==> r.NaN?
  {
    match (a, b)
    case (NaN, _) => NaN
    case (_, NaN) => NaN
    case (Inf(m), Inf(n)) => Inf(m != n)
    case (Inf(m), Fin(y)) => if y == 0.0 then NaN else Inf(m != (y < 0.0))
    case (Fin(x), Inf(n)) => if x == 0.0 then NaN else Inf((x < 0.0) != n)
    case (Fin(_), Fin(_)) => Fin(a.r * b.r)
  }

  /** IEEE division; a finite value over an infinity is zero. */
  function Div(a: Num, b: Num): (r: Num)
    ensures a.Fin? && b.Fin? && b.r != 0.0 ==> r == Fin(a.r / b.r)
    ensures a.NaN? || b.NaN? ==> r.NaN?
    ensures a.Fin? && b.Inf? ==> r == Fin(0.0)
    ensures b == Fin(0.0) ==> (r.NaN? <==> a == Fin(0.0) || a.NaN?)
  {
    match (a, b)
    case (NaN, _) => NaN
    case (_, NaN) => NaN
    case (Inf(_), Inf(_)) => NaN
    case (Inf(m), Fin(y)) => Inf(m != (y < 0.0))
    case (Fin(_), Inf(_)) => Fin(0.0)
    case (Fin(x), Fin(y)) =>
      if y != 0.0 then Fin(x / y)
      else if x == 0.0 then NaN
      else Inf(x < 0.0)
  }

  /** Truncation toward zero, as `%` uses for its quotient. */
  function Trunc(x: real): (q: int)
    ensures x >= 0.0 ==> 0.0 <= q as real <= x < q as real + 1.0
    ensures x < 0.0 ==> q as real - 1.0 < x <= q as real <= 0.0
  {
    if x >= 0.0 then x.Floor else -((-x).Floor)
  }

  /** The remainder of JavaScript's `%` on finite operands: the dividend
      minus the divisor times the truncated quotient. */
  function TruncRem(a: real, b: real): (r: real)
    requires b != 0.0
  {
    a - b * Trunc(a / b) as real
  }

  /** The truncated remainder is the remainder of an integer division whose
      remainder is smaller than the divisor and is zero or has the
      dividend's sign (it is not a Euclidean modulo). */
  lemma TruncRemCharacterised(a: real, b: real)
    requires b != 0.0
    ensures exists q: int {:trigger q as real} :: a == b * q as real + TruncRem(a, b)
    ensures Abs(TruncRem(a, b)) < Abs(b)
    ensures TruncRem(a, b) == 0.0 || ((TruncRem(a, b) > 0.0) == (a > 0.0))
  {
    var x := a / b;
    var q := Trunc(x);
    var r := TruncRem(a, b);
    assert a == b * x;
    assert r == b * (x - q as real);
    assert a == b * q as real + r;
    var f := x - q as real;
    if x >= 0.0 {
      assert 0.0 <= f < 1.0;
      AbsScale(b, f);
      SignOfProduct(b, x);
      SignOfProduct(b, f);
    } else {
      assert -1.0 < f <= 0.0;
      AbsScale(b, f);
      SignOfProduct(b, x);
      SignOfProduct(b, f);
    }
  }

  function Abs(x: real): real {
    if x < 0.0 then -x else x
  }

  lemma AbsScale(b: real, f: real)
    requires b != 0.0 && -1.0 < f < 1.0
    ensures Abs(b * f) < Abs(b)
  {
    if f >= 0.0 {
      if b > 0.0 { assert b * f < b * 1.0; } else { assert b * f > b * 1.0; }
    } else {
      if b > 0.0 { assert b * f > b * -1.0; } else { assert b * f < b * -1.0; }
    }
  }

  lemma SignOfProduct(b: real, x: real)
    requires b != 0.0
    ensures (b * x > 0.0) == ((b > 0.0 && x > 0.0) || (b < 0.0 && x < 0.0))
    ensures (b * x == 0.0) == (x == 0.0)
  {
  }

  /** JavaScript `%`: no zero check, so a zero divisor yields NaN. */
  function Rem(a: Num, b: Num): (r: Num)
    ensures b == Fin(0.0) ==> r.NaN?
    ensures a.Fin? && b.Fin? && b.r != 0.0 ==>
              && r.Fin? && Abs(r.r) < Abs(b.r) && (r.r == 0.0 || ((r.r > 0.0) == (a.r > 0.0)))
              && (exists q: int {:trigger q as real} :: a.r == b.r * q as real + r.r)
    ensures a.Fin? && b.Inf? ==> r == a
    ensures a.NaN? || b.NaN? || a.Inf? ==> r.NaN?
  {
    match (a, b)
    case (Fin(x), Fin(y)) =>
      if y == 0.0 then NaN
      else
        TruncRemCharacterised(x, y);
        Fin(TruncRem(x, y))
    case (Fin(x), Inf(_)) => Fin(x)
    case _ => NaN
  }

  /** `Math.abs`. */
  function AbsNum(a: Num): (r: Num)
    ensures a.Fin? ==> r.Fin? && r.r >= 0.0 && (r.r == a.r || r.r == -a.r)
    ensures a.Inf? ==> r == Inf(false)
    ensures a.NaN? ==> r.NaN?
  {
    match a
    case Fin(x) => Fin(Abs(x))
    case Inf(_) => Inf(false)
    case NaN => NaN
  }
}

=== FILE: parser.dfy ===
/** The shunting-yard parser (src/js/parser.js:10-59): converts the lexemes
    of an infix expression into postfix order. Both the output and the
    operator stack are sequences of lexemes with the top of the stack at the
    end, as in the source's arrays. */
module Parser {
  import opened Results
  import opened Tokens
  import opened Tokenizer

  // ----- views of a lexeme sequence -----

  /** The elements of `ts` that satisfy `keep`, in order. */
  function Select(ts: seq<string>, keep: string -> bool): seq<string> {
    if ts == [] then []
    else Select(ts[..|ts| - 1], keep) + (if keep(ts[|ts| - 1]) then [ts[|ts| - 1]] else [])
  }

  lemma {:induction false} SelectAppend(a: seq<string>, b: seq<string>, keep: string -> bool)
    ensures Select(a + b, keep) == Select(a, keep) + Select(b, keep)
    decreases |b|
  {
    if b == [] {
      assert a + b == a;
    } else {
      var b' := b[..|b| - 1];
      assert (a + b)[..|a + b| - 1] == a + b';
      SelectAppend(a, b', keep);
    }
  }

  /** The lexemes the parser copies to its output at some point: numbers,
      constants, functions and operators. */
  predicate IsKept(t: string) {
    var k := ParserToken(t);
    k.IsOperand() || k.Func? || k.Op?
  }

  predicate IsOperandLexeme(t: string) {
    ParserToken(t).IsOperand()
  }

  predicate IsOpen(t: string) {
    t == "("
  }

  function Kept(ts: seq<string>): seq<string> {
    Select(ts, IsKept)
  }

  /** The numbers and constants of a lexeme sequence, in order. */
  function Operands(ts: seq<string>): seq<string> {
    Select(ts, IsOperandLexeme)
  }

  /** How many `(` a sequence holds. */
  function Opens(ts: seq<string>): nat {
    |Select(ts, IsOpen)|
  }

  lemma ViewsAppend(a: seq<string>, b: seq<string>)
    ensures Kept(a + b) == Kept(a) + Kept(b)
    ensures Operands(a + b) == Operands(a) + Operands(b)
    ensures Opens(a + b) == Opens(a) + Opens(b)
  {
    SelectAppend(a, b, IsKept);
    SelectAppend(a, b, IsOperandLexeme);
    SelectAppend(a, b, IsOpen);
  }

  predicate NoParens(ts: seq<string>) {
    forall m | 0 <= m < |ts| :: ts[m] != "(" && ts[m] != ")"
  }

  /** What the operator stack can hold: `(`, functions and operators. */
  predicate StackShape(ops: seq<string>) {
    forall m | 0 <= m < |ops| :: ops[m] == "(" || FunctionNamed(ops[m]).Some? || OperatorNamed(ops[m]).Some?
  }

  /** Change in parenthesis depth caused by one lexeme. */
  function Delta(t: string): int {
    if t == "(" then 1 else if t == ")" then -1 else 0
  }

  /** Starting at depth `d`, the running depth never goes below zero and
      ends at zero. */
  predicate BalancedFrom(ts: seq<string>, d: int) {
    if ts == [] then d == 0
    else d + Delta(ts[0]) >= 0 && BalancedFrom(ts[1..], d + Delta(ts[0]))
  }

  /** The parentheses of the lexemes match. */
  predicate Balanced(ts: seq<string>) {
    BalancedFrom(ts, 0)
  }

  // ----- the stack operations -----

  /** The lexemes of `s` from last to first: the order in which popping a
      stack one entry at a time delivers them. */
  function Reverse(s: seq<string>): (r: seq<string>)
    ensures |r| == |s|
    ensures forall i | 0 <= i < |s| :: r[i] == s[|s| - 1 - i]
  {
    if s == [] then [] else [s[|s| - 1]] + Reverse(s[..|s| - 1])
  }

  /** Popping the top first: the reversal of a non-empty suffix of a stack
      starts with the stack's top. */
  lemma ReverseSuffix(ops: seq<string>, k: nat)
    requires k < |ops|
    ensures Reverse(ops[k..]) == [ops[|ops| - 1]] + Reverse(ops[..|ops| - 1][k..])
  {
    assert ops[k..][..|ops[k..]| - 1] == ops[..|ops| - 1][k..];
  }

  function Top(ops: seq<string>): string
    requires |ops| > 0
  {
    ops[|ops| - 1]
  }

  function Below(ops: seq<string>): seq<string>
    requires |ops| > 0
  {
    ops[..|ops| - 1]
  }

  /** A function or operator name is kept, is not an operand and is not a
      parenthesis. */
  lemma StackEntry(t: string)
    requires FunctionNamed(t).Some? || OperatorNamed(t).Some?
    ensures IsKept(t) && !IsOperandLexeme(t) && !IsOpen(t) && t != ")"
  {
    ClassifyTable(t);
    assert t != "\U{03C0}";
  }

  /** Moving the top of the stack to the output changes none of the views. */
  lemma MoveTop(out: seq<string>, ops: seq<string>)
    requires |ops| > 0 && Top(ops) != "(" && StackShape(ops)
    ensures StackShape(Below(ops))
    ensures IsKept(Top(ops)) && !IsOperandLexeme(Top(ops)) && Top(ops) != ")"
    ensures multiset(out + [Top(ops)]) + multiset(Kept(Below(ops))) == multiset(out) + multiset(Kept(ops))
    ensures Operands(out + [Top(ops)]) == Operands(out)
    ensures Opens(Below(ops)) == Opens(ops)
  {
    var t := Top(ops);
    assert ops == Below(ops) + [t];
    StackEntry(t);
    ViewsAppend(Below(ops), [t]);
    ViewsAppend(out, [t]);
    assert Select([t], IsKept) == Select([], IsKept) + [t];
    assert Select([t], IsOperandLexeme) == Select([], IsOperandLexeme);
    assert Select([t], IsOpen) == Select([], IsOpen);
  }

  /** Whether the stack top `top` is moved to the output before operator `t`
      is pushed: it is not `(`, it binds at least as tightly, and it is not
      the right-associative `^` meeting another `^`. */
  predicate PopsBefore(top: string, t: string) {
    top != "(" && Precedence(top) >= Precedence(t) && !(t == "^" && top == "^")
  }

  /** The inner loop for an operator `t`: move operators to the output while
      they bind at least as tightly as `t`. Afterwards the stack top does not
      bind as tightly, everything moved did, and (on a well-shaped stack) the
      lexemes, the operand order and the depth are all unchanged. */
  function PopOperators(t: string, out: seq<string>, ops: seq<string>): (r: (seq<string>, seq<string>))
    ensures |r.1| <= |ops| && r.1 == ops[..|r.1|]
    ensures |r.1| == 0 || !PopsBefore(Top(r.1), t)
    ensures |out| <= |r.0| && r.0[..|out|] == out
    ensures forall m | |out| <= m < |r.0| :: PopsBefore(r.0[m], t)
    ensures r.0 == out + Reverse(ops[|r.1|..])
    decreases |ops|
  {
    if |ops| > 0 && PopsBefore(Top(ops), t) then
      var r := PopOperators(t, out + [Top(ops)], Below(ops));
      ReverseSuffix(ops, |r.1|);
      assert (out + [Top(ops)]) + Reverse(Below(ops)[|r.1|..]) == out + ([Top(ops)] + Reverse(Below(ops)[|r.1|..]));
      r
    else
      assert ops[|ops|..] == [];
      (out, ops)
  }

  lemma NoParensPush(out: seq<string>, t: string)
    requires NoParens(out) && t != "(" && t != ")"
    ensures NoParens(out + [t])
  {
  }

  lemma {:induction false} PopOperatorsViews(t: string, out: seq<string>, ops: seq<string>)
    requires StackShape(ops)
    ensures var r := PopOperators(t, out, ops);
      && StackShape(r.1) && Opens(r.1) == Opens(ops)
      && multiset(r.0) + multiset(Kept(r.1)) == multiset(out) + multiset(Kept(ops))
      && Operands(r.0) == Operands(out)
      && (NoParens(out) ==> NoParens(r.0))
    decreases |ops|
  {
    if |ops| > 0 && PopsBefore(Top(ops), t) {
      MoveTop(out, ops);
      if NoParens(out) {
        NoParensPush(out, Top(ops));
      }
      PopOperatorsViews(t, out + [Top(ops)], Below(ops));
    }
  }

  /** The loop for `)`: move operators to the output down to the nearest
      `(` and discard it; with no `(` on the stack, the parentheses are
      mismatched. */
  function CloseParen(out: seq<string>, ops: seq<string>): (r: Result<(seq<string>, seq<string>)>)
    ensures r.Err? ==> r.error == MismatchedParentheses
    ensures r.Ok? ==> |r.value.1| < |ops| && r.value.1 == ops[..|r.value.1|] && ops[|r.value.1|] == "("
    ensures StackShape(ops) ==> (r.Err? <==> Opens(ops) == 0)
    ensures r.Ok? && StackShape(ops) ==> StackShape(r.value.1) && Opens(r.value.1) == Opens(ops) - 1
    ensures r.Ok? && StackShape(ops) ==>
              multiset(r.value.0) + multiset(Kept(r.value.1)) == multiset(out) + multiset(Kept(ops))
    ensures r.Ok? && StackShape(ops) ==> Operands(r.value.0) == Operands(out)
    ensures r.Ok? && StackShape(ops) && NoParens(out) ==> NoParens(r.value.0)
    ensures r.Ok? ==> r.value.0 == out + Reverse(ops[|r.value.1| + 1..])
    decreases |ops|
  {
    if |ops| == 0 then Err(MismatchedParentheses)
    else if Top(ops) == "(" then
      DiscardOpen(ops);
      assert ops[|ops|..] == [];
      Ok((out, Below(ops)))
    else
      MoveTopIfShaped(out, ops);
      PassTop(out, ops)
  }

  /** `MoveTop`, for a stack that may not be well shaped. */
  lemma MoveTopIfShaped(out: seq<string>, ops: seq<string>)
    requires |ops| > 0 && Top(ops) != "("
    ensures StackShape(ops) ==>
      && StackShape(Below(ops))
      && multiset(out + [Top(ops)]) + multiset(Kept(Below(ops))) == multiset(out) + multiset(Kept(ops))
      && Operands(out + [Top(ops)]) == Operands(out)
      && Opens(Below(ops)) == Opens(ops)
      && (NoParens(out) ==> NoParens(out + [Top(ops)]))
  {
    if StackShape(ops) {
      MoveTop(out, ops);
      if NoParens(out) {
        NoParensPush(out, Top(ops));
      }
    }
  }

  /** `CloseParen` below a top that is not `(`: the top goes to the output
      first. */
  function PassTop(out: seq<string>, ops: seq<string>): (r: Result<(seq<string>, seq<string>)>)
    requires |ops| > 0 && Top(ops) != "("
    ensures r == CloseParen(out + [Top(ops)], Below(ops))
    ensures r.Ok? ==> r.value.0 == out + Reverse(ops[|r.value.1| + 1..])
    decreases |ops|, 0
  {
    var r := CloseParen(out + [Top(ops)], Below(ops));
    if r.Ok? then
      var k := |r.value.1|;
      assert k + 1 < |ops|;
      ReverseSuffix(ops, k + 1);
      var moved := Reverse(Below(ops)[k + 1..]);
      assert r.value.0 == (out + [Top(ops)]) + moved;
      assert (out + [Top(ops)]) + moved == out + ([Top(ops)] + moved);
      r
    else r
  }

  lemma DiscardOpen(ops: seq<string>)
    requires |ops| > 0 && Top(ops) == "("
    ensures StackShape(ops) ==> StackShape(Below(ops))
    ensures Kept(Below(ops)) == Kept(ops)
    ensures Opens(Below(ops)) == Opens(ops) - 1
  {
    assert ops == Below(ops) + ["("];
    ViewsAppend(Below(ops), ["("]);
    ClassifyTable("(");
    assert Select(["("], IsKept) == Select([], IsKept);
    assert Select(["("], IsOpen) == Select([], IsOpen) + ["("];
  }

  /** The final loop: move what is left on the stack to the output, top
      first; a parenthesis still on the stack is a mismatch. */
  function Drain(out: seq<string>, ops: seq<string>): (r: Result<seq<string>>)
    ensures r.Err? ==> r.error == MismatchedParentheses
    ensures r.Err? <==> !NoParens(ops)
    ensures r.Ok? ==> r.value == out + Reverse(ops)
    ensures r.Ok? ==> |r.value| == |out| + |ops| && r.value[..|out|] == out
    decreases |ops|
  {
    if |ops| == 0 then Ok(out)
    else if Top(ops) == "(" || Top(ops) == ")" then Err(MismatchedParentheses)
    else
      assert ops == Below(ops) + [Top(ops)];
      var r := Drain(out + [Top(ops)], Below(ops));
      ReverseSuffix(ops, 0);
      assert ops[0..] == ops && Below(ops)[0..] == Below(ops);
      r
  }

  /** On a well-shaped stack, draining fails exactly when a `(` is left, and
      otherwise moves the stack's lexemes to the output. */
  lemma {:induction false} DrainViews(out: seq<string>, ops: seq<string>)
    requires StackShape(ops)
    ensures Drain(out, ops).Err? <==> Opens(ops) > 0
    ensures Drain(out, ops).Ok? ==>
      && multiset(Drain(out, ops).value) == multiset(out) + multiset(Kept(ops))
      && Operands(Drain(out, ops).value) == Operands(out)
      && (NoParens(out) ==> NoParens(Drain(out, ops).value))
    decreases |ops|
  {
    if |ops| == 0 {
      assert Kept(ops) == [];
    } else if Top(ops) == "(" || Top(ops) == ")" {
      DiscardOpen'(ops);
    } else {
      MoveTop(out, ops);
      if NoParens(out) {
        NoParensPush(out, Top(ops));
      }
      DrainViews(out + [Top(ops)], Below(ops));
    }
  }

  lemma DiscardOpen'(ops: seq<string>)
    requires |ops| > 0 && (Top(ops) == "(" || Top(ops) == ")")
    ensures StackShape(ops) ==> Opens(ops) > 0
  {
    if StackShape(ops) {
      assert Top(ops) == "(" by {
        assert ops[|ops| - 1] == Top(ops);
        if Top(ops) == ")" {
          ClassifyTable(")");
        }
      }
      DiscardOpen(ops);
    }
  }

  // ----- the main loop -----

  /** After a `)` has closed its `(`: a function now on top of the stack is
      moved to the output, binding it to the parenthesised argument. */
  function BindFunction(out: seq<string>, ops: seq<string>): (r: (seq<string>, seq<string>))
    ensures |ops| > 0 && FunctionNamed(Top(ops)).Some? ==> r == (out + [Top(ops)], Below(ops))
    ensures !(|ops| > 0 && FunctionNamed(Top(ops)).Some?) ==> r == (out, ops)
    ensures StackShape(ops) ==> StackShape(r.1) && Opens(r.1) == Opens(ops)
    ensures StackShape(ops) ==> multiset(r.0) + multiset(Kept(r.1)) == multiset(out) + multiset(Kept(ops))
    ensures StackShape(ops) ==> Operands(r.0) == Operands(out)
    ensures StackShape(ops) && NoParens(out) ==> NoParens(r.0)
  {
    if |ops| > 0 && FunctionNamed(Top(ops)).Some? then
      if StackShape(ops) then
        MoveTop(out, ops);
        if NoParens(out) then
          NoParensPush(out, Top(ops));
          (out + [Top(ops)], Below(ops))
        else (out + [Top(ops)], Below(ops))
      else (out + [Top(ops)], Below(ops))
    else (out, ops)
  }

  /** One iteration of the main loop, on lexeme `t`: a number or constant
      goes to the output; a function or `(` is pushed; an operator first
      moves what binds at least as tightly, then is pushed; `)` closes its
      `(` and binds a function waiting before it; anything else is passed
      over. */
  function ShuntStep(t: string, out: seq<string>, ops: seq<string>): Result<(seq<string>, seq<string>)>
  {
    var k := ParserToken(t);
    if k.IsOperand() then Ok((out + [t], ops))
    else if k.Func? || k.LParen? then Ok((out, ops + [t]))
    else if k.Op? then
      var p := PopOperators(t, out, ops);
      Ok((p.0, p.1 + [t]))
    else if k.RParen? then
      var c :- CloseParen(out, ops);
      Ok(BindFunction(c.0, c.1))
    else Ok((out, ops))
  }

  /** The loop over the lexemes `ts`, with output `out` and stack `ops` so
      far. Its only error is a parenthesis mismatch. */
  function Shunt(ts: seq<string>, out: seq<string>, ops: seq<string>): (r: Result<seq<string>>)
    ensures r.Err? ==> r.error == MismatchedParentheses
    decreases |ts|
  {
    if ts == [] then Drain(out, ops)
    else
      var s :- ShuntStep(ts[0], out, ops);
      Shunt(ts[1..], s.0, s.1)
  }

  /** Pushing a function, an operator or `(` keeps the stack well shaped. */
  lemma PushShape(ops: seq<string>, t: string)
    requires StackShape(ops)
    requires ParserToken(t).Func? || ParserToken(t).Op? || ParserToken(t).LParen?
    ensures StackShape(ops + [t])
    ensures Opens(ops + [t]) == Opens(ops) + Delta(t)
    ensures Kept(ops + [t]) == Kept(ops) + Kept([t])
  {
    ClassifyTable(t);
    ViewsAppend(ops, [t]);
    assert Select([t], IsOpen) == Select([], IsOpen) + (if IsOpen(t) then [t] else []);
  }

  /** How one lexeme moves the depth, and what it contributes to the views. */
  lemma LexemeViews(t: string)
    ensures ParserToken(t).LParen? <==> t == "("
    ensures ParserToken(t).RParen? <==> t == ")"
    ensures Kept([t]) == (if IsKept(t) then [t] else [])
    ensures Operands([t]) == (if IsOperandLexeme(t) then [t] else [])
  {
    ClassifyTable(t);
    assert Select([t], IsKept) == Select([], IsKept) + (if IsKept(t) then [t] else []);
    assert Select([t], IsOperandLexeme) == Select([], IsOperandLexeme) + (if IsOperandLexeme(t) then [t] else []);
  }

  /** On a well-shaped stack, one step fails exactly at a `)` with no `(`
      open, and otherwise moves the depth by the lexeme's `Delta`. */
  lemma StepDepth(t: string, out: seq<string>, ops: seq<string>)
    requires StackShape(ops)
    ensures ShuntStep(t, out, ops).Err? <==> t == ")" && Opens(ops) == 0
    ensures ShuntStep(t, out, ops).Ok? ==>
      StackShape(ShuntStep(t, out, ops).value.1) && Opens(ShuntStep(t, out, ops).value.1) == Opens(ops) + Delta(t)
  {
    var k := ParserToken(t);
    LexemeViews(t);
    if k.Func? || k.LParen? {
      PushShape(ops, t);
    } else if k.Op? {
      PopOperatorsViews(t, out, ops);
      PushShape(PopOperators(t, out, ops).1, t);
    } else if k.RParen? && CloseParen(out, ops).Ok? {
      BindDepth(CloseParen(out, ops).value.0, CloseParen(out, ops).value.1);
    }
  }

  /** On a well-shaped stack, the loop fails exactly when the parentheses of
      the remaining lexemes, counted from the stack's depth, do not match. */
  lemma {:induction false} ShuntBalance(ts: seq<string>, out: seq<string>, ops: seq<string>)
    requires StackShape(ops)
    ensures Shunt(ts, out, ops).Err? <==> !BalancedFrom(ts, Opens(ops))
    decreases |ts|
  {
    if ts == [] {
      DrainViews(out, ops);
    } else {
      StepDepth(ts[0], out, ops);
      var s := ShuntStep(ts[0], out, ops);
      if s.Ok? {
        ShuntBalance(ts[1..], s.value.0, s.value.1);
      }
    }
  }

  /** Binding a function keeps the stack's shape and depth. */
  lemma BindDepth(out: seq<string>, ops: seq<string>)
    requires StackShape(ops)
    ensures StackShape(BindFunction(out, ops).1) && Opens(BindFunction(out, ops).1) == Opens(ops)
  {
    if |ops| > 0 && FunctionNamed(Top(ops)).Some? {
      MoveTop(out, ops);
    }
  }

  /** What a run of the loop keeps: on success, the output holds exactly the
      kept lexemes of the stack and of the input on top of what it held,
      operands in input order, and no parenthesis. */
  predicate ShuntKeeps(ts: seq<string>, out: seq<string>, ops: seq<string>) {
    Keeps(Shunt(ts, out, ops), ts, out, ops)
  }

  predicate Keeps(r: Result<seq<string>>, ts: seq<string>, out: seq<string>, ops: seq<string>) {
    r.Ok? ==>
      && multiset(r.value) == multiset(out) + multiset(Kept(ops)) + multiset(Kept(ts))
      && Operands(r.value) == Operands(out) + Operands(ts)
      && (NoParens(out) ==> NoParens(r.value))
  }

  /** What one step of the loop keeps, taking `(out, ops)` to `(out', ops')`
      on lexeme `t`. */
  predicate StepKeeps(t: string, out: seq<string>, ops: seq<string>, out': seq<string>, ops': seq<string>) {
    && multiset(out') + multiset(Kept(ops')) == multiset(out) + multiset(Kept(ops)) + multiset(Kept([t]))
    && Operands(out') == Operands(out) + Operands([t])
    && (NoParens(out) ==> NoParens(out'))
  }

  lemma Transfer(r: Result<seq<string>>, ts: seq<string>, out: seq<string>, ops: seq<string>, out': seq<string>, ops': seq<string>)
    requires |ts| > 0
    requires StepKeeps(ts[0], out, ops, out', ops')
    requires Keeps(r, ts[1..], out', ops')
    ensures Keeps(r, ts, out, ops)
  {
    if r.Ok? {
      var t, rest := ts[0], ts[1..];
      assert multiset(r.value) == multiset(out) + multiset(Kept(ops)) + multiset(Kept(ts)) by {
        assert ts == [t] + rest;
        ViewsAppend([t], rest);
        Regroup(multiset(r.value), multiset(out'), multiset(Kept(ops')), multiset(Kept(rest)),
                multiset(out), multiset(Kept(ops)), multiset(Kept([t])));
      }
      assert Operands(r.value) == Operands(out) + Operands(ts) by {
        assert ts == [t] + rest;
        ViewsAppend([t], rest);
        Associate(Operands(out), Operands([t]), Operands(rest));
      }
    }
  }

  lemma Associate(a: seq<string>, b: seq<string>, c: seq<string>)
    ensures (a + b) + c == a + (b + c)
  {
  }

  lemma Regroup(v: multiset<string>, a': multiset<string>, b': multiset<string>, c: multiset<string>,
                a: multiset<string>, b: multiset<string>, d: multiset<string>)
    requires v == a' + b' + c && a' + b' == a + b + d
    ensures v == a + b + (d + c)
  {
  }

  lemma OperandStep(t: string, out: seq<string>, ops: seq<string>)
    requires StackShape(ops) && ParserToken(t).IsOperand()
    ensures StepKeeps(t, out, ops, out + [t], ops)
  {
    LexemeViews(t);
    ViewsAppend(out, [t]);
    if NoParens(out) {
      NoParensPush(out, t);
    }
  }

  lemma PushStep(t: string, out: seq<string>, ops: seq<string>)
    requires StackShape(ops) && (ParserToken(t).Func? || ParserToken(t).LParen?)
    ensures StackShape(ops + [t]) && StepKeeps(t, out, ops, out, ops + [t])
  {
    PushedNoOperand(t);
    PushShape(ops, t);
    assert multiset(Kept(ops + [t])) == multiset(Kept(ops)) + multiset(Kept([t]));
  }

  /** A function name or `(` adds no operand. */
  lemma PushedNoOperand(t: string)
    requires ParserToken(t).Func? || ParserToken(t).LParen?
    ensures Operands([t]) == [] && t != ")"
  {
    LexemeViews(t);
  }

  lemma OperatorStep(t: string, out: seq<string>, ops: seq<string>)
    requires StackShape(ops) && ParserToken(t).Op?
    ensures var (out', ops') := PopOperators(t, out, ops);
      StackShape(ops' + [t]) && StepKeeps(t, out, ops, out', ops' + [t])
  {
    LexemeViews(t);
    PopOperatorsViews(t, out, ops);
    var (out', ops') := PopOperators(t, out, ops);
    PushShape(ops', t);
  }

  lemma CloseStep(t: string, out: seq<string>, ops: seq<string>)
    requires StackShape(ops) && t == ")" && CloseParen(out, ops).Ok?
    ensures var (out', ops') := CloseParen(out, ops).value;
      var (out'', ops'') := BindFunction(out', ops');
      StackShape(ops'') && StepKeeps(t, out, ops, out'', ops'')
  {
    var (out', ops') := CloseParen(out, ops).value;
    var (out'', ops'') := BindFunction(out', ops');
    assert Kept([t]) == [] && Operands([t]) == [] by {
      LexemeViews(t);
      ClassifyTable(t);
    }
    assert multiset(out'') + multiset(Kept(ops'')) == multiset(out) + multiset(Kept(ops)) + multiset(Kept([t]));
    assert Operands(out'') == Operands(out) + Operands([t]);
  }

  lemma SkipStep(t: string, out: seq<string>, ops: seq<string>)
    requires StackShape(ops) && ParserToken(t).Unclassified?
    ensures StepKeeps(t, out, ops, out, ops)
  {
    LexemeViews(t);
  }

  /** What one step keeps, on a well-shaped stack. */
  lemma StepViews(t: string, out: seq<string>, ops: seq<string>)
    requires StackShape(ops) && ShuntStep(t, out, ops).Ok?
    ensures StepKeeps(t, out, ops, ShuntStep(t, out, ops).value.0, ShuntStep(t, out, ops).value.1)
  {
    var k := ParserToken(t);
    if k.IsOperand() {
      OperandStep(t, out, ops);
    } else if k.Func? || k.LParen? {
      PushStep(t, out, ops);
    } else if k.Op? {
      OperatorStep(t, out, ops);
    } else if k.RParen? {
      LexemeViews(t);
      CloseStep(t, out, ops);
    } else {
      SkipStep(t, out, ops);
    }
  }

  /** Every run of the loop from a well-shaped stack keeps the views. */
  lemma {:induction false} ShuntViews(ts: seq<string>, out: seq<string>, ops: seq<string>)
    requires StackShape(ops)
    ensures ShuntKeeps(ts, out, ops)
    decreases |ts|
  {
    if ts == [] {
      DrainViews(out, ops);
      assert Kept(ts) == [] && Operands(ts) == [];
    } else {
      var s := ShuntStep(ts[0], out, ops);
      if s.Ok? {
        StepDepth(ts[0], out, ops);
        StepViews(ts[0], out, ops);
        ShuntViews(ts[1..], s.value.0, s.value.1);
        Transfer(Shunt(ts[1..], s.value.0, s.value.1), ts, out, ops, s.value.0, s.value.1);
      }
    }
  }

  /** Shunting-yard over a lexeme sequence. It fails, always with a
      parenthesis mismatch, exactly when the parentheses do not match; on
      success the output is a permutation of the numbers, constants,
      functions and operators of the input, with the numbers and constants
      in input order and no parenthesis. */
  function ShuntingYard(ts: seq<string>): (r: Result<seq<string>>)
    ensures r.Err? <==> !Balanced(ts)
    ensures r.Err? ==> r.error == MismatchedParentheses
    ensures r.Ok? ==> multiset(r.value) == multiset(Kept(ts))
    ensures r.Ok? ==> Operands(r.value) == Operands(ts)
    ensures r.Ok? ==> NoParens(r.value)
  {
    ShuntBalance(ts, [], []);
    ShuntViews(ts, [], []);
    assert Kept([]) == [] && Operands([]) == [] && Opens([]) == 0;
    Shunt(ts, [], [])
  }

  /** `infixToPostfix`: tokenize, then shunting-yard. */
  function InfixToPostfix(s: string): (r: Result<seq<string>>)
    ensures Tokenize(s).Err? ==> r == Err(Tokenize(s).error)
    ensures Tokenize(s).Ok? ==> (r.Err? <==> !Balanced(Tokenize(s).value))
    ensures r.Ok? ==> Tokenize(s).Ok? && NoParens(r.value)
    ensures r.Ok? ==> multiset(r.value) == multiset(Kept(Tokenize(s).value))
    ensures r.Ok? ==> Operands(r.value) == Operands(Tokenize(s).value)
  {
    var ts :- Tokenize(s);
    ShuntingYard(ts)
  }
}

=== FILE: results.dfy ===
/** Error taxonomy of the expression engine and the failure-compatible
    result type that replaces the source's thrown exceptions. */
module Results {

  /** Every error the engine can raise, one constructor per distinct message. */
  datatype Error =
    | UnknownCharacter(ch: char)   // tokenizer: a character outside the lexical alphabet
    | MismatchedParentheses        // parser: an unmatched ')' or an unclosed '('
    | DivisionByZero               // '/' by 0, or reciprocal of 0
    | LogOfNonPositive             // log or ln of a value <= 0
    | SqrtOfNegative               // sqrt of a value < 0
    | FactorialOfNegative
    | FactorialOfNonInteger
    | FactorialOverflow            // factorial of a value > 170
    | EmptyExpression              // calculate on an empty or blank buffer
    | NotFinite                    // calculate produced +-Infinity or NaN

  /** The message the source attaches to each error. */
  function Message(e: Error): string
  {
    match e
    case UnknownCharacter(c) => "Unknown character: " + [c]
    case MismatchedParentheses => "Mismatched parentheses"
    case DivisionByZero => "Division by zero"
    case LogOfNonPositive => "Logarithm of non-positive number"
    case SqrtOfNegative => "Square root of negative number"
    case FactorialOfNegative => "Factorial of negative number"
    case FactorialOfNonInteger => "Factorial of non-integer"
    case FactorialOverflow => "Factorial overflow"
    case EmptyExpression => "Empty expression"
    case NotFinite => "Result is not finite"
  }

  datatype Result<+T> = Ok(value: T) | Err(error: Error) {

    predicate IsFailure() {
      Err?
    }

    function PropagateFailure<U>(): Result<U>
      requires Err?
    {
      Err(error)
    }

    function Extract(): T
      requires Ok?
    {
      value
    }
  }

  datatype Option<+T> = None | Some(value: T)
}

=== FILE: tokenizer.dfy ===
/** The tokenizer (src/js/parser.js:66-132): strips whitespace, rewrites the
    display glyphs, and cuts the expression into lexemes by maximal munch,
    folding a sign `-` into the literal that follows it.

    The scanner takes the identifier rule as a parameter: `LettersOnly` is the
    rule the source implements, under which `pow10` is cut into `pow` and
    `10`; `FunctionNames` also lets a run of letters take in the digits after
    it when together they spell a function name, which is the rule the rest
    of the model uses (see the findings in README.md). The two rules agree on
    every text in which `pow10` does not occur. */
module Tokenizer {
  import opened Results
  import opened Tokens

  /** JavaScript's `\s`: the ECMAScript WhiteSpace and LineTerminator sets. */
  predicate IsSpace(c: char) {
    c == ' ' || ('\t' <= c <= '\r')
    || c == '\U{00A0}' || c == '\U{1680}' || ('\U{2000}' <= c <= '\U{200A}')
    || c == '\U{2028}' || c == '\U{2029}' || c == '\U{202F}' || c == '\U{205F}'
    || c == '\U{3000}' || c == '\U{FEFF}'
  }

  /** A character the normalisation step rewrites or removes. */
  predicate IsDisplayOnly(c: char) {
    IsSpace(c) || c == '\U{00D7}' || c == '\U{00F7}' || c == '\U{03C0}'
  }

  function NormalizeChar(c: char): string {
    if IsSpace(c) then ""
    else if c == '\U{00D7}' then "*"        // multiplication sign
    else if c == '\U{00F7}' then "/"        // division sign
    else if c == '\U{03C0}' then "pi"       // greek small letter pi
    else [c]
  }

  /** Whitespace removal followed by the three glyph replacements. As no
      replacement introduces whitespace, the four passes act per character:
      on one character they are the cases below, and `NormalizeAppend`
      extends them to every string. */
  function Normalize(s: string): (e: string)
    ensures forall i | 0 <= i < |e| :: !IsDisplayOnly(e[i])
    ensures forall i | 0 <= i < |e| :: e[i] in s || e[i] in "*/pi"
    ensures s == "\U{00D7}" ==> e == "*"
    ensures s == "\U{00F7}" ==> e == "/"
    ensures s == "\U{03C0}" ==> e == "pi"
    ensures |s| == 1 && IsSpace(s[0]) ==> e == ""
    ensures |s| == 1 && !IsDisplayOnly(s[0]) ==> e == s
  {
    if s == [] then [] else NormalizeChar(s[0]) + Normalize(s[1..])
  }

  /** Normalisation distributes over concatenation. */
  lemma {:induction false} NormalizeAppend(a: string, b: string)
    ensures Normalize(a + b) == Normalize(a) + Normalize(b)
  {
    if a == [] {
      assert a + b == b;
    } else {
      assert (a + b)[1..] == a[1..] + b;
      NormalizeAppend(a[1..], b);
    }
  }

  /** A string free of display glyphs is already normal, so normalising
      twice is normalising once. */
  lemma {:induction false} NormalizeIdentity(s: string)
    requires forall i | 0 <= i < |s| :: !IsDisplayOnly(s[i])
    ensures Normalize(s) == s
  {
    if s != [] {
      NormalizeIdentity(s[1..]);
    }
  }

  lemma NormalizeIdempotent(s: string)
    ensures Normalize(Normalize(s)) == Normalize(s)
  {
    NormalizeIdentity(Normalize(s));
  }

  // ----- character sets -----

  // The characters that are operator or parenthesis tokens: + - * / ^ ( )
  predicate IsSymbolChar(c: char) {
    c == '+' || c == '-' || c == '*' || c == '/' || c == '^' || c == '(' || c == ')'
  }

  // The characters after which a `-` is a sign rather than a subtraction:
  // ( + - * / ^
  predicate IsSignContext(c: char) {
    c == '(' || c == '+' || c == '-' || c == '*' || c == '/' || c == '^'
  }

  /** Where an identifier ends. `LettersOnly`: at the first character that
      is not a letter. `FunctionNames`: the same, except that the letters
      take in the digits right after them when together they spell a
      function name. */
  datatype IdentRule = LettersOnly | FunctionNames

  /** Characters that can appear in a successfully tokenized expression. */
  predicate IsLexical(c: char) {
    IsNumberChar(c) || IsSymbolChar(c) || IsLetter(c)
  }

  /** End of the maximal run of digits and dots that starts at `j`. */
  function NumberRunEnd(e: string, j: nat): (k: nat)
    requires j <= |e|
    ensures j <= k <= |e|
    ensures forall m | j <= m < k :: IsNumberChar(e[m])
    ensures k == |e| || !IsNumberChar(e[k])
    decreases |e| - j
  {
    if j < |e| && IsNumberChar(e[j]) then NumberRunEnd(e, j + 1) else j
  }

  /** End of the maximal run of letters that starts at `j`. */
  function LetterRunEnd(e: string, j: nat): (k: nat)
    requires j <= |e|
    ensures j <= k <= |e|
    ensures forall m | j <= m < k :: IsLetter(e[m])
    ensures k == |e| || !IsLetter(e[k])
    decreases |e| - j
  {
    if j < |e| && IsLetter(e[j]) then LetterRunEnd(e, j + 1) else j
  }

  /** End of the maximal run of digits that starts at `j`. */
  function DigitRunEnd(e: string, j: nat): (k: nat)
    requires j <= |e|
    ensures j <= k <= |e|
    ensures forall m | j <= m < k :: IsDigit(e[m])
    ensures k == |e| || !IsDigit(e[k])
    decreases |e| - j
  {
    if j < |e| && IsDigit(e[j]) then DigitRunEnd(e, j + 1) else j
  }

  /** The digits a string starts with. */
  function DigitPrefix(s: string): string {
    if s == [] || !IsDigit(s[0]) then [] else [s[0]] + DigitPrefix(s[1..])
  }

  lemma {:induction false} DigitPrefixRun(e: string, j: nat)
    requires j <= |e|
    ensures DigitPrefix(e[j..]) == e[j..DigitRunEnd(e, j)]
    decreases |e| - j
  {
    if j < |e| && IsDigit(e[j]) {
      DigitPrefixRun(e, j + 1);
      assert e[j..][1..] == e[j + 1..];
      assert e[j..DigitRunEnd(e, j)] == [e[j]] + e[j + 1..DigitRunEnd(e, j)];
    }
  }

  /** End of the identifier that starts with the letter at `i`. */
  function IdentEnd(e: string, i: nat, rule: IdentRule): (k: nat)
    requires i < |e| && IsLetter(e[i])
    ensures i < k <= |e|
  {
    var j := LetterRunEnd(e, i + 1);
    var k := DigitRunEnd(e, j);
    if rule == FunctionNames && j < k && FunctionNamed(e[i..k]).Some? then k else j
  }

  /** The lexemes joined back into one string. */
  function Concat(ts: seq<string>): string {
    if ts == [] then [] else ts[0] + Concat(ts[1..])
  }

  function Cons(t: string, rest: Result<seq<string>>): Result<seq<string>> {
    if rest.Ok? then Ok([t] + rest.value) else rest
  }

  /** A `.` that the scanner cannot place: it is not followed by a digit. */
  predicate LooseDot(e: string, m: nat)
    requires m < |e|
  {
    e[m] == '.' && (m + 1 == |e| || !IsDigit(e[m + 1]))
  }

  /** The scanning loop from index `i` on. The lexemes it returns spell out
      the rest of the string exactly; on failure it names a character that is
      outside the alphabet or a dot that starts no literal. */
  function Scan(e: string, i: nat, rule: IdentRule): (r: Result<seq<string>>)
    requires i <= |e|
    ensures r.Ok? ==> Concat(r.value) == e[i..]
    ensures r.Err? ==> r.error.UnknownCharacter?
    decreases |e| - i
  {
    if i == |e| then Ok([])
    else if IsDigit(e[i]) || (e[i] == '.' && i + 1 < |e| && IsDigit(e[i + 1])) then
      var j := NumberRunEnd(e, i);
      assert e[i..] == e[i..j] + e[j..];
      Cons(e[i..j], Scan(e, j, rule))
    else if IsSymbolChar(e[i]) then
      if e[i] == '-' && (i == 0 || IsSignContext(e[i - 1])) then
        var j := NumberRunEnd(e, i + 1);
        assert e[i..] == e[i..j] + e[j..];
        Cons(e[i..j], Scan(e, j, rule))
      else
        assert e[i..] == [e[i]] + e[i + 1..];
        Cons([e[i]], Scan(e, i + 1, rule))
    else if IsLetter(e[i]) then
      var j := IdentEnd(e, i, rule);
      assert e[i..] == e[i..j] + e[j..];
      Cons(e[i..j], Scan(e, j, rule))
    else
      Err(UnknownCharacter(e[i]))
  }

  /** One scanning step at a letter: everything up to the identifier's end is one lexeme. */
  lemma ScanLetter(e: string, i: nat, rule: IdentRule)
    requires i < |e| && IsLetter(e[i])
    ensures IdentEnd(e, i, rule) <= |e|
    ensures Scan(e, i, rule) == Cons(e[i..IdentEnd(e, i, rule)], Scan(e, IdentEnd(e, i, rule), rule))
  {
  }

  /** One scanning step at a digit: the run of digits and dots is one
      lexeme. */
  lemma ScanDigit(e: string, i: nat, rule: IdentRule)
    requires i < |e| && IsDigit(e[i])
    ensures Scan(e, i, rule) == Cons(e[i..NumberRunEnd(e, i)], Scan(e, NumberRunEnd(e, i), rule))
  {
  }

  /** One scanning step at a symbol other than `-`: the symbol alone. */
  lemma ScanSymbol(e: string, i: nat, rule: IdentRule)
    requires i < |e| && IsSymbolChar(e[i]) && e[i] != '-'
    ensures Scan(e, i, rule) == Cons([e[i]], Scan(e, i + 1, rule))
  {
  }

  /** A failed scan names a character that is outside the alphabet or a dot
      that starts no literal. */
  lemma {:induction false} ScanFailure(e: string, i: nat, rule: IdentRule)
    requires i <= |e|
    ensures Scan(e, i, rule).Err? ==>
              exists m | i <= m < |e| :: e[m] == Scan(e, i, rule).error.ch && (!IsLexical(e[m]) || LooseDot(e, m))
    decreases |e| - i
  {
    if i == |e| {
    } else if IsDigit(e[i]) || (e[i] == '.' && i + 1 < |e| && IsDigit(e[i + 1])) {
      ScanFailure(e, NumberRunEnd(e, i), rule);
    } else if IsSymbolChar(e[i]) {
      if e[i] == '-' && (i == 0 || IsSignContext(e[i - 1])) {
        ScanFailure(e, NumberRunEnd(e, i + 1), rule);
      } else {
        ScanFailure(e, i + 1, rule);
      }
    } else if IsLetter(e[i]) {
      ScanFailure(e, IdentEnd(e, i, rule), rule);
    } else {
      assert !IsLexical(e[i]) || LooseDot(e, i);
    }
  }

  /** A string over the alphabet whose every dot is followed by a digit
      always scans. */
  lemma {:induction false} ScanSucceeds(e: string, i: nat, rule: IdentRule)
    requires i <= |e|
    ensures (forall m | i <= m < |e| :: IsLexical(e[m]) && !LooseDot(e, m)) ==> Scan(e, i, rule).Ok?
    decreases |e| - i
  {
    if i == |e| || exists m | i <= m < |e| :: !IsLexical(e[m]) || LooseDot(e, m) {
    } else if IsDigit(e[i]) || (e[i] == '.' && i + 1 < |e| && IsDigit(e[i + 1])) {
      ScanSucceeds(e, NumberRunEnd(e, i), rule);
    } else if IsSymbolChar(e[i]) {
      if e[i] == '-' && (i == 0 || IsSignContext(e[i - 1])) {
        ScanSucceeds(e, NumberRunEnd(e, i + 1), rule);
      } else {
        ScanSucceeds(e, i + 1, rule);
      }
    } else if IsLetter(e[i]) {
      ScanSucceeds(e, IdentEnd(e, i, rule), rule);
    } else {
      // unreachable: the character is lexical and not a loose dot
    }
  }

  // ----- the shape of a tokenization -----

  /** A literal: digits and dots, starting with a digit or a dot-digit pair. */
  predicate NumberLexeme(t: string) {
    |t| > 0 && (forall m | 0 <= m < |t| :: IsNumberChar(t[m]))
    && (IsDigit(t[0]) || (|t| > 1 && IsDigit(t[1])))
  }

  /** A `-` followed by digits and dots (possibly none). */
  predicate SignedLexeme(t: string) {
    |t| > 0 && t[0] == '-' && forall m | 1 <= m < |t| :: IsNumberChar(t[m])
  }

  predicate SymbolLexeme(t: string) {
    |t| == 1 && IsSymbolChar(t[0])
  }

  /** A run of letters or, under `FunctionNames`, a function name. */
  predicate IdentLexeme(t: string, rule: IdentRule) {
    |t| > 0 && IsLetter(t[0]) && (AllLetters(t) || (rule == FunctionNames && FunctionNamed(t).Some?))
  }

  predicate IsLexeme(t: string, rule: IdentRule) {
    NumberLexeme(t) || SignedLexeme(t) || SymbolLexeme(t) || IdentLexeme(t, rule)
  }

  function LastChar(t: string): Option<char> {
    if t == [] then None else Some(t[|t| - 1])
  }

  /** The character in front of lexeme `k`; `before` for the first one. */
  function CharBefore(ts: seq<string>, k: nat, before: Option<char>): Option<char>
    requires k < |ts|
  {
    if k == 0 then before else LastChar(ts[k - 1])
  }

  /** Where a `-` is a sign: at the start, or after `(`, `+`, `-`, `*`, `/`, `^`. */
  predicate IsSignPosition(prev: Option<char>) {
    prev.None? || IsSignContext(prev.value)
  }

  /** Maximal munch, against the text `rest` that follows the lexeme: a
      literal (and a sign with its literal) is not followed by another digit
      or dot; a run of letters not by another letter, nor, under
      `FunctionNames`, by digits that would complete a function name; a
      function name with digits in it not by another digit. */
  predicate Maximal(t: string, prev: Option<char>, rest: string, rule: IdentRule) {
    rest != [] ==>
      && ((NumberLexeme(t) || (SignedLexeme(t) && IsSignPosition(prev))) ==> !IsNumberChar(rest[0]))
      && (IdentLexeme(t, rule) && AllLetters(t) ==> !IsLetter(rest[0]))
      && (IdentLexeme(t, rule) && AllLetters(t) && rule == FunctionNames && IsDigit(rest[0]) ==>
            FunctionNamed(t + DigitPrefix(rest)).None?)
      && (IdentLexeme(t, rule) && !AllLetters(t) ==> !IsDigit(rest[0]))
  }

  /** What a tokenization promises: every piece is a lexeme, a `-` is joined
      to a literal only in sign position, and every piece is maximal. */
  predicate Lexed(ts: seq<string>, before: Option<char>, rule: IdentRule) {
    && (forall k | 0 <= k < |ts| :: IsLexeme(ts[k], rule))
    && (forall k | 0 <= k < |ts| :: |ts[k]| > 1 && ts[k][0] == '-' ==> IsSignPosition(CharBefore(ts, k, before)))
    && (forall k | 0 <= k < |ts| :: Maximal(ts[k], CharBefore(ts, k, before), Concat(ts[k + 1..]), rule))
  }

  lemma LexedCons(t: string, rest: seq<string>, before: Option<char>, rule: IdentRule)
    requires IsLexeme(t, rule)
    requires |t| > 1 && t[0] == '-' ==> IsSignPosition(before)
    requires Maximal(t, before, Concat(rest), rule)
    requires Lexed(rest, LastChar(t), rule)
    ensures Lexed([t] + rest, before, rule)
  {
    var ts := [t] + rest;
    forall k | 0 <= k < |ts|
      ensures IsLexeme(ts[k], rule)
    {
      if k > 0 {
        assert ts[k] == rest[k - 1];
      }
    }
    forall k | 0 <= k < |ts| && |ts[k]| > 1 && ts[k][0] == '-'
      ensures IsSignPosition(CharBefore(ts, k, before))
    {
      if k > 0 {
        assert ts[k] == rest[k - 1];
        assert CharBefore(ts, k, before) == CharBefore(rest, k - 1, LastChar(t));
      }
    }
    forall k | 0 <= k < |ts|
      ensures Maximal(ts[k], CharBefore(ts, k, before), Concat(ts[k + 1..]), rule)
    {
      if k > 0 {
        assert ts[k] == rest[k - 1];
        assert ts[k + 1..] == rest[k..];
        assert CharBefore(ts, k, before) == CharBefore(rest, k - 1, LastChar(t));
      } else {
        assert ts[1..] == rest;
      }
    }
  }

  function Before(e: string, i: nat): Option<char>
    requires i <= |e|
  {
    if i == 0 then None else Some(e[i - 1])
  }

  lemma NumberStep(e: string, i: nat, rule: IdentRule)
    requires i < |e| && (IsDigit(e[i]) || (e[i] == '.' && i + 1 < |e| && IsDigit(e[i + 1])))
    ensures var j := NumberRunEnd(e, i);
      && IsLexeme(e[i..j], rule) && NumberLexeme(e[i..j])
      && Maximal(e[i..j], Before(e, i), e[j..], rule)
  {
    var j := NumberRunEnd(e, i);
    var t := e[i..j];
    assert forall m | 0 <= m < |t| :: t[m] == e[i + m];
    assert NumberLexeme(t);
    assert !IdentLexeme(t, rule);
  }

  lemma SignStep(e: string, i: nat, rule: IdentRule)
    requires i < |e| && e[i] == '-' && IsSignPosition(Before(e, i))
    ensures var j := NumberRunEnd(e, i + 1);
      && IsLexeme(e[i..j], rule)
      && Maximal(e[i..j], Before(e, i), e[j..], rule)
  {
    var j := NumberRunEnd(e, i + 1);
    var t := e[i..j];
    assert forall m | 0 <= m < |t| :: t[m] == e[i + m];
    assert SignedLexeme(t);
    assert !NumberLexeme(t) && !IdentLexeme(t, rule);
  }

  lemma SymbolStep(e: string, i: nat, rule: IdentRule)
    requires i < |e| && IsSymbolChar(e[i]) && !(e[i] == '-' && IsSignPosition(Before(e, i)))
    ensures IsLexeme(e[i..i + 1], rule)
    ensures Maximal(e[i..i + 1], Before(e, i), e[i + 1..], rule)
  {
    var t := e[i..i + 1];
    assert SymbolLexeme(t);
    assert !NumberLexeme(t) && !IdentLexeme(t, rule);
  }

  lemma IdentStep(e: string, i: nat, rule: IdentRule)
    requires i < |e| && IsLetter(e[i])
    ensures var k := IdentEnd(e, i, rule);
      && IsLexeme(e[i..k], rule)
      && Maximal(e[i..k], Before(e, i), e[k..], rule)
  {
    var j := LetterRunEnd(e, i + 1);
    var d := DigitRunEnd(e, j);
    var k := IdentEnd(e, i, rule);
    var t := e[i..k];
    assert forall m | 0 <= m < |t| :: t[m] == e[i + m];
    if k == j {
      assert AllLetters(t);
      if k < |e| && rule == FunctionNames && IsDigit(e[k]) {
        DigitPrefixRun(e, j);
        assert e[i..d] == t + e[j..d];
      }
    } else {
      assert !IsLetter(t[j - i]);
    }
    assert IdentLexeme(t, rule);
    assert !NumberLexeme(t) && !SignedLexeme(t);
  }

  /** One step of the scan: the lexeme at `i` ends at `j`, is a lexeme
      joined to a sign only in sign position, and is maximal. */
  lemma ScanStep(e: string, i: nat, rule: IdentRule) returns (j: nat)
    requires i < |e| && Scan(e, i, rule).Ok?
    ensures i < j <= |e|
    ensures Scan(e, i, rule) == Cons(e[i..j], Scan(e, j, rule))
    ensures IsLexeme(e[i..j], rule)
    ensures j - i > 1 && e[i] == '-' ==> IsSignPosition(Before(e, i))
    ensures Maximal(e[i..j], Before(e, i), e[j..], rule)
  {
    if IsDigit(e[i]) || (e[i] == '.' && i + 1 < |e| && IsDigit(e[i + 1])) {
      j := NumberRunEnd(e, i);
      NumberStep(e, i, rule);
    } else if IsSymbolChar(e[i]) {
      if e[i] == '-' && (i == 0 || IsSignContext(e[i - 1])) {
        j := NumberRunEnd(e, i + 1);
        SignStep(e, i, rule);
      } else {
        j := i + 1;
        assert e[i..j] == [e[i]];
        SymbolStep(e, i, rule);
      }
    } else {
      assert IsLetter(e[i]);
      j := IdentEnd(e, i, rule);
      IdentStep(e, i, rule);
    }
  }

  /** The scan from `i` produces a tokenization of `e[i..]`. */
  lemma {:induction false} ScanLexed(e: string, i: nat, rule: IdentRule)
    requires i <= |e|
    ensures Scan(e, i, rule).Ok? ==> Lexed(Scan(e, i, rule).value, Before(e, i), rule)
    decreases |e| - i
  {
    if i == |e| || Scan(e, i, rule).Err? {
      return;
    }
    var j := ScanStep(e, i, rule);
    var t := e[i..j];
    var rest := Scan(e, j, rule).value;
    ScanLexed(e, j, rule);
    assert LastChar(t) == Before(e, j);
    assert Concat(rest) == e[j..];
    LexedCons(t, rest, Before(e, i), rule);
    assert Scan(e, i, rule).value == [t] + rest;
  }

  /** `tokenize` under an identifier rule. On success the lexemes spell out
      the normalised expression and form a maximal-munch tokenization; it
      fails exactly on a stray character, which it names. */
  function TokenizeWith(s: string, rule: IdentRule): (r: Result<seq<string>>)
    ensures r.Ok? ==> Concat(r.value) == Normalize(s) && Lexed(r.value, None, rule)
    ensures r.Err? ==> r.error.UnknownCharacter?
    ensures r.Err? ==> exists m | 0 <= m < |Normalize(s)| ::
                         Normalize(s)[m] == r.error.ch && (!IsLexical(Normalize(s)[m]) || LooseDot(Normalize(s), m))
    ensures (forall m | 0 <= m < |Normalize(s)| :: IsLexical(Normalize(s)[m]) && !LooseDot(Normalize(s), m)) ==> r.Ok?
  {
    var e := Normalize(s);
    ScanLexed(e, 0, rule);
    ScanFailure(e, 0, rule);
    ScanSucceeds(e, 0, rule);
    assert e[0..] == e;
    Scan(e, 0, rule)
  }

  /** Tokenizing a string that is already normal is scanning it. */
  lemma TokenizeScans(e: string, rule: IdentRule)
    requires Normalize(e) == e
    ensures TokenizeWith(e, rule) == Scan(e, 0, rule)
  {
  }

  /** The tokenizer exactly as the source writes it: identifiers are runs of
      letters only. */
  function TokenizeAsWritten(s: string): (r: Result<seq<string>>)
    ensures r.Ok? ==> Concat(r.value) == Normalize(s) && Lexed(r.value, None, LettersOnly)
  {
    TokenizeWith(s, LettersOnly)
  }

  /** The tokenizer the rest of the model uses: letters followed by digits
      are one identifier when together they spell a function name, so
      `pow10` is one lexeme while `mod3` is still `mod`, `3`. */
  function Tokenize(s: string): (r: Result<seq<string>>)
    ensures r.Ok? ==> Concat(r.value) == Normalize(s) && Lexed(r.value, None, FunctionNames)
  {
    TokenizeWith(s, FunctionNames)
  }

  // ----- the two rules compared -----

  /** `pow10` starts at index `m`. */
  predicate Pow10At(e: string, m: nat) {
    m + 5 <= |e| && e[m..m + 5] == FunctionName(Pow10)
  }

  /** The text does not contain `pow10` from index `i` on. */
  predicate NoPow10(e: string, i: nat) {
    forall m | i <= m <= |e| :: !Pow10At(e, m)
  }

  /** Where no `pow10` starts, both rules end an identifier at the same
      place. */
  lemma IdentAgrees(e: string, i: nat)
    requires i < |e| && IsLetter(e[i])
    requires !Pow10At(e, i)
    ensures IdentEnd(e, i, FunctionNames) == IdentEnd(e, i, LettersOnly)
  {
    var j := LetterRunEnd(e, i + 1);
    var d := DigitRunEnd(e, j);
    if j < d {
      NotPow10Name(e, i, j, d);
    }
  }

  /** Letters followed by a digit spell no function name unless they are
      `pow10`. */
  lemma NotPow10Name(e: string, i: nat, j: nat, d: nat)
    requires i < j < d <= |e| && IsDigit(e[j]) && !Pow10At(e, i)
    ensures FunctionNamed(e[i..d]).None?
  {
    var t := e[i..d];
    assert IsDigit(t[j - i]);
    if FunctionNamed(t).Some? {
      DigitOnlyInPow10(t, j - i);
      assert false;
    }
  }

  /** Without `pow10` in the text, both rules scan it alike. */
  lemma {:induction false} ScanAgrees(e: string, i: nat)
    requires i <= |e| && NoPow10(e, i)
    ensures Scan(e, i, FunctionNames) == Scan(e, i, LettersOnly)
    decreases |e| - i
  {
    if i == |e| {
    } else if IsDigit(e[i]) || (e[i] == '.' && i + 1 < |e| && IsDigit(e[i + 1])) {
      ScanAgrees(e, NumberRunEnd(e, i));
    } else if IsSymbolChar(e[i]) {
      if e[i] == '-' && (i == 0 || IsSignContext(e[i - 1])) {
        ScanAgrees(e, NumberRunEnd(e, i + 1));
      } else {
        ScanAgrees(e, i + 1);
      }
    } else if IsLetter(e[i]) {
      IdentAgrees(e, i);
      ScanAgrees(e, IdentEnd(e, i, LettersOnly));
    }
  }

  /** The corrected tokenizer differs from the source's only on text that
      contains `pow10` once normalised. */
  lemma TokenizeAgrees(s: string)
    requires NoPow10(Normalize(s), 0)
    ensures Tokenize(s) == TokenizeAsWritten(s)
  {
    ScanAgrees(Normalize(s), 0);
  }
}

=== FILE: tokens.dfy ===
/** The lexical vocabulary shared by the parser and the evaluator: character
    classes, the operator, function and constant names, numeric literals,
    precedence, and the classification of a lexeme (a string token) into a
    `Token`. Both components pass lexemes around as strings and classify them
    by these tables (src/js/parser.js:134-192, src/js/evaluator.js:32-52). */
module Tokens {
  import opened Results

  predicate IsDigit(c: char) {
    '0' <= c <= '9'
  }

  predicate IsLetter(c: char) {
    ('a' <= c <= 'z') || ('A' <= c <= 'Z')
  }

  predicate AllLetters(t: string) {
    forall m | 0 <= m < |t| :: IsLetter(t[m])
  }

  /** A character that may continue a numeric literal. */
  predicate IsNumberChar(c: char) {
    IsDigit(c) || c == '.'
  }

  datatype Operator = Plus | Minus | Times | Divide | Power | Mod

  datatype Function =
    | Sin | Cos | Tan | Asin | Acos | Atan | Sinh | Cosh | Tanh
    | Log | Ln | Sqrt | Abs | Exp | Pow10 | Square | Reciprocal | Factorial

  datatype Constant = Pi | E

  /** A classified lexeme. `Unclassified` covers unknown identifiers and
      malformed literals such as `1.2.3`, which both components ignore. */
  datatype Token =
    | Number(value: real)
    | Op(op: Operator)
    | Func(fn: Function)
    | Const(c: Constant)
    | LParen
    | RParen
    | Unclassified
  {
    /** Numbers and constants: the tokens that push one value. */
    predicate IsOperand() {
      Number? || Const?
    }
  }

  function OperatorName(o: Operator): string {
    match o
    case Plus => "+"
    case Minus => "-"
    case Times => "*"
    case Divide => "/"
    case Power => "^"
    case Mod => "mod"
  }

  /** `isOperator` as a lookup. */
  function OperatorNamed(t: string): Option<Operator>
  {
    if t == "+" then Some(Plus)
    else if t == "-" then Some(Minus)
    else if t == "*" then Some(Times)
    else if t == "/" then Some(Divide)
    else if t == "^" then Some(Power)
    else if t == "mod" then Some(Mod)
    else None
  }

  function FunctionName(f: Function): string {
    match f
    case Sin => "sin"
    case Cos => "cos"
    case Tan => "tan"
    case Asin => "asin"
    case Acos => "acos"
    case Atan => "atan"
    case Sinh => "sinh"
    case Cosh => "cosh"
    case Tanh => "tanh"
    case Log => "log"
    case Ln => "ln"
    case Sqrt => "sqrt"
    case Abs => "abs"
    case Exp => "exp"
    case Pow10 => "pow10"
    case Square => "square"
    case Reciprocal => "reciprocal"
    case Factorial => "factorial"
  }

  /** `isFunction` as a lookup. */
  function FunctionNamed(t: string): Option<Function>
  {
    if t == "sin" then Some(Sin)
    else if t == "cos" then Some(Cos)
    else if t == "tan" then Some(Tan)
    else if t == "asin" then Some(Asin)
    else if t == "acos" then Some(Acos)
    else if t == "atan" then Some(Atan)
    else if t == "sinh" then Some(Sinh)
    else if t == "cosh" then Some(Cosh)
    else if t == "tanh" then Some(Tanh)
    else if t == "log" then Some(Log)
    else if t == "ln" then Some(Ln)
    else if t == "sqrt" then Some(Sqrt)
    else if t == "abs" then Some(Abs)
    else if t == "exp" then Some(Exp)
    else if t == "pow10" then Some(Pow10)
    else if t == "square" then Some(Square)
    else if t == "reciprocal" then Some(Reciprocal)
    else if t == "factorial" then Some(Factorial)
    else None
  }

  /** The spelling of a constant in a postfix list. */
  function ConstantName(c: Constant): string {
    match c
    case Pi => "pi"
    case E => "e"
  }

  /** `isConstant` of the evaluator, which also accepts the glyph. */
  function ConstantNamed(t: string): Option<Constant>
  {
    if t == "pi" || t == "\U{03C0}" then Some(Pi)
    else if t == "e" then Some(E)
    else None
  }

  // ----- numeric literals -----

  /** A literal without its leading sign. */
  function Unsigned(t: string): string {
    if |t| > 0 && t[0] == '-' then t[1..] else t
  }

  function DotCount(s: string): nat {
    if s == [] then 0 else (if s[0] == '.' then 1 else 0) + DotCount(s[1..])
  }

  /** `isNumber` on the shapes the tokenizer produces: an optional `-`, then
      digits and dots with at least one digit and at most one dot. (With two
      dots `Number(t)` is NaN; with no digit `parseFloat(t)` is NaN.) */
  predicate IsNumeral(t: string) {
    var b := Unsigned(t);
    (forall i | 0 <= i < |b| :: IsNumberChar(b[i])) && DotCount(b) <= 1 && DotCount(b) < |b|
  }

  /** The value of a digit string read left to right. */
  function DigitsValue(ds: string): nat {
    if ds == [] then 0
    else
      var d := ds[|ds| - 1] as int - '0' as int;
      DigitsValue(ds[..|ds| - 1]) * 10 + (if 0 <= d then d else 0)
  }

  /** The digits of a literal, the dot removed. */
  function Mantissa(s: string): string {
    if s == [] then [] else (if s[0] == '.' then [] else [s[0]]) + Mantissa(s[1..])
  }

  /** How many characters follow the dot. */
  function FractionLength(s: string): nat {
    if s == [] then 0 else if s[0] == '.' then |s| - 1 else FractionLength(s[1..])
  }

  function TenTo(n: nat): (r: nat)
    ensures r >= 1
  {
    if n == 0 then 1 else 10 * TenTo(n - 1)
  }

  /** `parseFloat` of a numeral, exactly (without double rounding). */
  function NumeralValue(t: string): real
    requires IsNumeral(t)
  {
    var b := Unsigned(t);
    var magnitude := DigitsValue(Mantissa(b)) as real / TenTo(FractionLength(b)) as real;
    if |t| > 0 && t[0] == '-' then -magnitude else magnitude
  }

  /** Classification with the evaluator's tables (number, operator,
      function, constant), extended with the parentheses. */
  function Classify(t: string): Token
  {
    if IsNumeral(t) then Number(NumeralValue(t))
    else if OperatorNamed(t).Some? then Op(OperatorNamed(t).value)
    else if FunctionNamed(t).Some? then Func(FunctionNamed(t).value)
    else if ConstantNamed(t).Some? then Const(ConstantNamed(t).value)
    else if t == "(" then LParen
    else if t == ")" then RParen
    else Unclassified
  }

  /** Classification as the parser does it: its constant table has no `π`
      (the tokenizer has already spelled it `pi`). */
  function ParserToken(t: string): Token
  {
    if t == "\U{03C0}" then Unclassified else Classify(t)
  }

  /** `precedence`, as the source's table. */
  function Precedence(t: string): nat
  {
    if t == "+" || t == "-" then 1
    else if t == "*" || t == "/" || t == "mod" then 2
    else if t == "^" then 3
    else if FunctionNamed(t).Some? then 4
    else 0
  }

  // ----- the tables, stated -----

  /** Looking up an operator's name gives the operator back, and a name
      the lookup accepts is that operator's name. */
  lemma OperatorNamesRoundTrip(t: string, o: Operator)
    ensures OperatorNamed(OperatorName(o)) == Some(o)
    ensures OperatorNamed(t).Some? ==> OperatorName(OperatorNamed(t).value) == t
  {
  }

  /** The same for function names. */
  lemma FunctionNamesRoundTrip(t: string, f: Function)
    ensures FunctionNamed(FunctionName(f)) == Some(f)
    ensures FunctionNamed(t).Some? ==> FunctionName(FunctionNamed(t).value) == t
  {
  }

  /** Classification puts every lexeme in exactly the class its tables say,
      numbers first. */
  lemma ClassifyTable(t: string)
    ensures Classify(t).Number? <==> IsNumeral(t)
    ensures Classify(t).Number? ==> Classify(t).value == NumeralValue(t)
    ensures Classify(t).Op? <==> OperatorNamed(t).Some?
    ensures Classify(t).Op? ==> Classify(t).op == OperatorNamed(t).value
    ensures Classify(t).Func? <==> FunctionNamed(t).Some?
    ensures Classify(t).Func? ==> Classify(t).fn == FunctionNamed(t).value
    ensures Classify(t).Const? <==> ConstantNamed(t).Some?
    ensures Classify(t).LParen? <==> t == "("
    ensures Classify(t).RParen? <==> t == ")"
    ensures ParserToken(t) == (if t == "\U{03C0}" then Unclassified else Classify(t))
  {
    if IsNumeral(t) {
    } else if OperatorNamed(t).Some? {
    } else if FunctionNamed(t).Some? {
    } else if ConstantNamed(t).Some? {
    }
  }

  /** `precedence`: `+ -` bind loosest, then `* / mod`, then `^`, and every
      function binds tighter than any operator; everything else has 0. */
  lemma PrecedenceTable(t: string)
    ensures Precedence(t) == 1 <==> OperatorNamed(t) == Some(Plus) || OperatorNamed(t) == Some(Minus)
    ensures Precedence(t) == 2 <==> OperatorNamed(t) in {Some(Times), Some(Divide), Some(Mod)}
    ensures Precedence(t) == 3 <==> OperatorNamed(t) == Some(Power)
    ensures Precedence(t) == 4 <==> FunctionNamed(t).Some?
    ensures Precedence(t) == 0 <==> OperatorNamed(t).None? && FunctionNamed(t).None?
  {
  }

  /** Every operator name classifies, for both components, as that
      operator. */
  lemma OperatorClassifies(o: Operator)
    ensures Classify(OperatorName(o)) == Op(o) && ParserToken(OperatorName(o)) == Op(o)
  {
    var t := OperatorName(o);
    OperatorNamesRoundTrip(t, o);
    NotNumeral(t);
    ClassifyTable(t);
  }

  /** Every function name classifies as that function. */
  lemma FunctionClassifies(f: Function)
    ensures Classify(FunctionName(f)) == Func(f) && ParserToken(FunctionName(f)) == Func(f)
  {
    var t := FunctionName(f);
    FunctionNamesRoundTrip(t, f);
    NotNumeral(t);
    ClassifyTable(t);
    assert OperatorNamed(t).None?;
  }

  /** Every constant name classifies as that constant. */
  lemma ConstantClassifies(c: Constant)
    ensures Classify(ConstantName(c)) == Const(c) && ParserToken(ConstantName(c)) == Const(c)
  {
    var t := ConstantName(c);
    NotNumeral(t);
    ClassifyTable(t);
    assert OperatorNamed(t).None? && FunctionNamed(t).None?;
  }

  /** Every function name starts with a letter and continues with letters
      and digits; only `pow10` has a digit in it. */
  lemma FunctionNameShape(f: Function)
    ensures |FunctionName(f)| > 0 && IsLetter(FunctionName(f)[0])
    ensures forall i | 0 <= i < |FunctionName(f)| :: IsLetter(FunctionName(f)[i]) || IsDigit(FunctionName(f)[i])
    ensures f != Pow10 <==> AllLetters(FunctionName(f))
  {
    if f == Pow10 {
      assert !IsLetter(FunctionName(f)[3]);
    }
  }

  /** A function name with a digit in it is `pow10`. */
  lemma DigitOnlyInPow10(t: string, m: nat)
    requires FunctionNamed(t).Some? && m < |t| && IsDigit(t[m])
    ensures t == FunctionName(Pow10)
  {
    var f := FunctionNamed(t).value;
    FunctionNamesRoundTrip(t, f);
    FunctionNameShape(f);
  }

  /** A name that starts with neither a digit nor a dot, and is not a lone
      `-`, is no numeral. */
  lemma NotNumeral(t: string)
    requires |t| > 0 && !IsNumberChar(t[0]) && (t[0] == '-' ==> |t| == 1)
    ensures !IsNumeral(t)
  {
    if t[0] != '-' {
      assert Unsigned(t)[0] == t[0];
    } else {
      assert Unsigned(t) == [];
    }
  }

  /** A string of digits is a numeral whose value is the digits read in
      base ten, for both components. */
  lemma {:induction false} DigitsNumeral(t: string)
    requires |t| > 0 && forall i | 0 <= i < |t| :: IsDigit(t[i])
    ensures IsNumeral(t) && Classify(t) == Number(DigitsValue(t) as real)
    ensures ParserToken(t) == Classify(t)
  {
    assert Unsigned(t) == t;
    DigitsPlain(t);
    ClassifyTable(t);
  }

  lemma {:induction false} DigitsPlain(t: string)
    requires forall i | 0 <= i < |t| :: IsDigit(t[i])
    ensures DotCount(t) == 0 && Mantissa(t) == t && FractionLength(t) == 0
  {
    if t != [] {
      DigitsPlain(t[1..]);
      assert [t[0]] + t[1..] == t;
    }
  }
}
